=== FILE: README.md ===
# Tales of Jianghu — combat rules in Dafny

This project models the combat-rules layer of Tales of Jianghu, a companion app
for a wuxia tabletop RPG. The model covers:

- the dice-formula engine (`XdY±Z` parsing and rolling);
- the two damage rules: the utility `calculateAttackDamage` and the hook `calculateDamage`;
- the d20, advantage, disadvantage and damage rolls of the roll-test dialog;
- the derived statistics shown on the master's combat cards (armor class, maximum HP and Chi, manual overrides);
- the armor and weapon tables;
- the combat record and its state machine: the master's hook, the player's hook, the initiative tracker, the older start of combat in the master's panel and the roster picker that feeds it;
- the quick stat editor;
- the two training dialogs.

Everything is written as immutable datatypes and pure functions, plus two
methods with loops. Every operation comes with lemmas that relate it to an
inverse, an invariant, a reference definition or the operation that follows it.

Randomness is a parameter. An `Rng` (`nat -> real`) gives the value of each
successive `Math.random()` call. A die is `Floor(u * faces) + 1`, the source's
formula, with the product taken over exact reals rather than rounded to a
double. The predicate `Unit(rng)` states that every value lies in `[0, 1)`.

JavaScript behaviour the rules depend on is written out in `JsText`:

- `||` on numbers, strings and missing values;
- the white-space class of `\s` and `trim()`;
- `toLowerCase()`;
- `parseInt(s, 10)`, where `None` stands for `NaN`, and `parseInt(s)` without a
  radix, which also reads `0x` hexadecimal;
- `String(n)`;
- the truncating `%`.

`StableSort` is `Array.prototype.sort` with the comparator `(a, b) => key(b) - key(a)`.
It is written as a stable insertion sort and specified by order, multiset and stability.

Modules, one per source file, plus shared modules:

| module | models |
|---|---|
| `JsText` | JavaScript string and number helpers |
| `Dice` | `src/utils/dice.js` |
| `CombatRules` | `src/utils/combatRules.js` |
| `DamageSystem` | `src/hooks/useDamageSystem.js` |
| `ArmorTypes` | `src/data/armorTypes.js` |
| `Weapons` | `src/data/weapons.js` |
| `CombatRecord` | the combat row shared by the hooks, the tracker and the carousel |
| `DerivedStats` | `src/components/gm/CombatTrackerCarousel.jsx` |
| `StableSort` | the descending stable sort used to order turns |
| `CombatManager` | `src/hooks/useCombatManager.js` |
| `PlayerCombat` | `src/hooks/usePlayerCombat.js` |
| `QuickStatInput` | `src/components/ui/QuickStatInput.jsx` |
| `Training` | `src/components/character-sheet/TrainingOptionsModal.jsx` |
| `LegacyTraining` | `src/components/TrainingOptionsModal.jsx` |
| `InitiativeTracker` | `src/components/combat/InitiativeTracker.jsx` |
| `RollTest` | `src/components/character-sheet/RollTestModal.jsx` |
| `GameMasterPanel` | `src/pages/GameMasterPanel.jsx` |
| `StartCombat` | `src/components/gm/StartCombatModal.jsx` |

Notes on behaviour that may surprise:

- `sendInitiative` overwrites a slot that already holds an initiative. It does not refuse.
- The player's `endTurn` does not check whose turn it is. Only the disabled button at `src/pages/CombatPage.jsx:100` gates it.
- The image-category list keeps `"todos"` in front even when an image's own category is also `"todos"`, so that entry may appear twice.

## Model

Lemmas named `…Example` (and `CombatManager.UpdateStatReadsHex`) fix one concrete input. They illustrate a general lemma stated for all inputs beside them and carry no property of their own.

| member | source | states |
|---|---|---|
| JsText.StripSpaces | src/utils/dice.js:11 | Removing white space leaves no white-space character and never lengthens the text. |
| JsText.ParseIntRoundTrip | src/hooks/useCombatManager.js:192 | `parseInt` reads back every integer written in decimal. |
| JsText.ParseIntPrefix | src/components/ui/QuickStatInput.jsx:54-58 | `parseInt` reads the integer prefix and ignores any tail that does not start with a digit. |
| JsText.ParseIntAutoRoundTrip | src/hooks/useCombatManager.js:192 | `parseInt` without a radix reads back every integer written in decimal. |
| JsText.ParseIntAutoHex | src/hooks/useCombatManager.js:192 | Without a radix, `0x` followed by hexadecimal digits reads them in base 16, whatever non-digit follows. |
| JsText.HexExample | src/hooks/useCombatManager.js:192 | `"0x1A"` reads as 26 without a radix and as 0 in radix 10. |
| JsText.SignedTextReadsBack | src/hooks/usePlayerCombat.js:91 | The sign-prefixed bonus text starts with `+` or `-` according to the sign, and reads back as the bonus. |
| JsText.LowerStripCommute | src/utils/dice.js:11 | Lower-casing and stripping white space commute. |
| JsText.StripSpacesIdempotent | src/utils/dice.js:11 | Stripping white space twice is the same as stripping it once. |
| JsText.ToLowerIdempotent | src/utils/combatRules.js:6 | Lower-casing twice is the same as lower-casing once. |
| JsText.Find | src/components/gm/CombatTrackerCarousel.jsx:27 | `find` returns an element with the key, and the first such element; it finds nothing iff no element has the key. Character, armor, innate-body and tier lookups all use it. |
| Dice.MatchGroups | src/utils/dice.js:12-21 | Every string of the form digits `d` digits, optionally followed by a signed number, is read as exactly those count, faces and modifier. A missing modifier reads as 0. |
| Dice.MatchSound | src/utils/dice.js:12-21 | Whatever the matcher accepts has that form. |
| Dice.ParseDiceString | src/utils/dice.js:3-24 | A valid result comes only from present input whose cleaned text has the formula's form, with non-negative count and faces. Every invalid result, including the one for missing input, is exactly the `1d20+0` fallback. |
| Dice.ParseAccepts | src/utils/dice.js:11-21 | Any input whose cleaned text has the formula's form parses to its groups, marked valid. |
| Dice.ParseIgnoresCaseAndSpace | src/utils/dice.js:11 | Parsing the input and parsing its lower-cased, space-free form give the same result. |
| Dice.UpperCaseSpacedExample | src/utils/dice.js:11-21 | `"2D8 + 2"` parses as 2 dice of 8 faces plus 2. |
| Dice.FormatRoundTrip | src/utils/dice.js:3-24 | Every formula written from a count, faces and a modifier parses back to exactly those values. |
| Dice.DieInRange | src/utils/dice.js:30 | A die of `faces >= 1` shows a value in `[1, faces]`. |
| Dice.RollDice | src/utils/dice.js:26-35 | There are exactly `max(count, 0)` rolls, die i is the i-th random number scaled to the faces, and the total is their sum. With 0 faces every roll is 1. |
| Dice.SumBounds | src/utils/dice.js:29-33 | A sum of rolls that each lie in `[lo, hi]` lies in `[n*lo, n*hi]`. |
| Dice.RollDiceInRange | src/utils/dice.js:26-35 | With faces >= 1, every roll lies in `[1, faces]` and the total in `[count, count*faces]`. |
| CombatRules.NormalizeCategory | src/utils/combatRules.js:4-10 | A falsy category is normal. Otherwise, on the lower-cased, trimmed text: it is heavy iff it is exactly "p" or contains "pesada" or "heavy"; light iff it is not heavy and is exactly "l" or contains "leve" or "light"; normal iff neither. A heavy word anywhere in the untrimmed text makes it heavy. |
| CombatRules.LightWordsAreLeve | src/utils/combatRules.js:6-9 | Any category whose lower-cased text contains "leve" or "light" and no heavy word, and is not "p" once trimmed, is light. |
| CombatRules.NormalizeIdempotent | src/utils/combatRules.js:4-10 | Normalising the name of a normalised category gives it back, so the rule is idempotent on its three results. |
| CombatRules.NormalWord | src/utils/combatRules.js:6-9 | A lower-case word of more than one letter, without padding and without the letters p, h, v and g, normalises to normal. |
| CombatRules.NormalizeWordExamples | src/utils/combatRules.js:7-9 | "media", "alcance" and "exotica" are normal categories. |
| CombatRules.NormalizeIgnoresCase | src/utils/combatRules.js:6 | A category and its lower-cased form normalise alike. |
| CombatRules.NormalizeIgnoresPadding | src/utils/combatRules.js:6 | A category and its trimmed form normalise alike. |
| CombatRules.CalculateAttackDamage | src/utils/combatRules.js:12-62 | The multiplier is 1 iff there is no critical, 3 iff a critical with a heavy category, and 2 otherwise. The dice count is the parsed count times the multiplier, with die i drawn from the i-th random number. The bonus is the formula's modifier plus the attribute bonus, and the total is the sum of the dice plus the bonus. |
| CombatRules.CritOnlyAddsDice | src/utils/combatRules.js:22-54 | A critical keeps the bonus, multiplies the number of dice, and begins with the same dice as the plain hit. |
| CombatRules.HeavyCritTriples | src/utils/combatRules.js:15-28 | A critical with any category containing a heavy word has multiplier 3 and rolls three times the formula's dice. |
| CombatRules.ProficiencyIgnored | src/utils/combatRules.js:43-46 | The proficient attribute never changes the damage. |
| CombatRules.AttributeKeyExample | src/utils/combatRules.js:16-40 | "AGILIDADE" reads agility, "Força" reads vigor, and a weapon without an attribute reads agility. A missing attribute counts 0. |
| CombatRules.HeavyCritExample | src/utils/combatRules.js:12-62 | A critical with a heavy `1d8+2` weapon and agility 1 rolls three d8s with bonus 3. |
| CombatRules.FormulaExample | src/utils/combatRules.js:19 | `"1d8+2"` is one d8 plus 2. |
| CombatRules.UpperPesadaExample | src/utils/combatRules.js:6-7 | "Pesada" is a heavy category. |
| DamageSystem.Join | src/hooks/useDamageSystem.js:50 | The joined rolls contain no space, and exactly one `+` between consecutive rolls. |
| DamageSystem.CalculateDamage | src/hooks/useDamageSystem.js:6-61 | There is no result iff there is no character. The multiplier is 1 iff there is no critical, 3 iff a critical whose lower-cased category is exactly "pesada", and 2 iff a critical with any other category. The dice count is the parsed count times the multiplier, die i is drawn from the i-th random number, and the total is the sum of the dice plus the final bonus. |
| DamageSystem.MessageShowsTotal | src/hooks/useDamageSystem.js:53 | The message starts with "Dano: **", and what follows reads back as the total. |
| DamageSystem.MessageEnding | src/hooks/useDamageSystem.js:49-53 | The message ends with `)` iff the hit is critical, and with `]` iff it is not. |
| DamageSystem.MessageSpaces | src/hooks/useDamageSystem.js:49-53 | The message holds 2 spaces, plus 2 iff the bonus segment is present (bonus not 0), plus 2 iff the critical note is present. |
| DamageSystem.MessageShowsBonus | src/hooks/useDamageSystem.js:49-53 | In the message of a damage roll, the bonus segment appears iff the final bonus is not 0. It adds two spaces and one `+` to the dice joined by `+`. |
| DamageSystem.ManualBonusIgnoresAttributes | src/hooks/useDamageSystem.js:33-42 | With a manual bonus, the character's attributes do not matter. |
| DamageSystem.AgreesWithCombatRules | src/hooks/useDamageSystem.js:6-61 | When the two category tests agree and the attribute key needs no translation, the hook and the utility roll the same dice, with the same multiplier and total. |
| DamageSystem.HeavyWordDiverges | src/hooks/useDamageSystem.js:11-26 | The category "heavy" triples a critical under the utility but only doubles it under the hook. |
| ArmorTypes.Armor | src/components/gm/CombatTrackerCarousel.jsx:40-41 | The armor of an id is its table entry, or the "none" entry when no entry has that id. |
| ArmorTypes.IdsUnique | src/data/armorTypes.js:1-26 | Armor ids are pairwise distinct. |
| ArmorTypes.ArmorOfKnownIds | src/data/armorTypes.js:1-26 | "none", "medium" and "heavy" find their own entries. |
| ArmorTypes.UnknownIsNone | src/components/gm/CombatTrackerCarousel.jsx:41 | Any other id falls back to "none". |
| ArmorTypes.TableShape | src/data/armorTypes.js:1-26 | Every penalty is at most 0. Only "none" lacks a base armor class. Heavier armor has a higher base and a more negative penalty. |
| Weapons.IdsUnique | src/data/weapons.js:26-180 | Weapon ids are pairwise distinct. |
| Weapons.CategoriesDeclared | src/data/weapons.js:3-180 | Every weapon's category is a declared category key. |
| Weapons.AllowedAttributesWellFormed | src/data/weapons.js:26-180 | Every allowed-attribute list is non-empty and drawn from the five ability keys. |
| Weapons.DamagesParse | src/data/weapons.js:26-180 | Every damage string parses as valid, with no modifier, at least one die and at least four faces. |
| Weapons.CategoryKeysNormalize | src/data/weapons.js:3-24 | "pesada" normalises to heavy, "leve" to light, and the other keys to normal. |
| Weapons.ExactlyPesadaTriples | src/data/weapons.js:12-127 | A table weapon triples its dice on a critical, under both damage rules, iff its category is "pesada". |
| Weapons.TableRulesAgree | src/data/weapons.js:26-180 | For every table weapon, the hook and the utility compute the same dice, multiplier and total. |
| CombatRecord.InitiativeInRange | src/hooks/useCombatManager.js:85-90 | An initiative roll lies in `[1 + agility, 20 + agility]`. |
| CombatRecord.JsRemainder | src/hooks/useCombatManager.js:157 | The truncating remainder lies in `[0, n)` for a non-negative dividend and in `(-n, 0]` for a negative one. |
| CombatRecord.NextIndex | src/hooks/useCombatManager.js:157 | The next turn follows the current one and wraps from the last back to 0. |
| CombatRecord.FullRoundReturns | src/hooks/useCombatManager.js:154-164 | After as many turns as there are participants, the turn is back where it started. |
| CombatRecord.AdvanceWraps | src/hooks/useCombatManager.js:157 | After n <= length turns, the index is the start plus n, minus the length once it passes the end. |
| DerivedStats.ArmorClass | src/components/gm/CombatTrackerCarousel.jsx:40-46 | The armor class is 10 + agility without a base armor class, and base + agility + penalty otherwise. |
| DerivedStats.Compute | src/components/gm/CombatTrackerCarousel.jsx:31-62 | Without a character record, everything is 10. With one, maximum HP is the floor of (clan base HP, 5 by default, plus the innate body's bonus plus vigor) times (the refinement tier's multiplier, 1 by default, plus the innate body's bonus); maximum Chi is the floor of (5 + discipline) times the cultivation stage's multiplier, 1 by default, plus the mastery bonus; the armor class follows the armor rule. |
| DerivedStats.TierMultiplier | src/components/gm/CombatTrackerCarousel.jsx:50-57 | A level that no tier has gives multiplier 1. |
| DerivedStats.TierMultiplierOfFirst | src/components/gm/CombatTrackerCarousel.jsx:50-57 | The first tier whose id is the level (0 when unset) gives its multiplier, or 1 when that is unset or 0. |
| DerivedStats.DefaultMaxHp | src/components/gm/CombatTrackerCarousel.jsx:36-52 | Without a clan, an innate body or a refinement tier, maximum HP is 5 + vigor. |
| DerivedStats.DefaultMaxChi | src/components/gm/CombatTrackerCarousel.jsx:55-59 | Without a cultivation stage or a mastery level, maximum Chi is 5 + discipline. |
| DerivedStats.Prefer | src/components/gm/CombatTrackerCarousel.jsx:70-72 | A present manual value wins over the computed one. |
| DerivedStats.Stats | src/components/gm/CombatTrackerCarousel.jsx:28-73 | Current HP and Chi are the stored values, with 0 for missing ones. Each maximum and the armor class is the manual value when present, else the computed one. |
| DerivedStats.Cards | src/components/gm/CombatTrackerCarousel.jsx:25-27 | There is one card per participant, in turn order. A card is the turn iff its index is the current one and the combat is active. |
| DerivedStats.NoRecordDefaults | src/components/gm/CombatTrackerCarousel.jsx:32-73 | A participant without a record shows 0 current HP and Chi, and 10 for everything else. |
| DerivedStats.UnknownArmorIsNone | src/components/gm/CombatTrackerCarousel.jsx:40-43 | An unknown armor type gives armor class 10 + agility. |
| DerivedStats.ArmorClassByType | src/components/gm/CombatTrackerCarousel.jsx:40-46 | No armor gives 10 + agility. Medium and heavy armor both give 12 + agility. |
| DerivedStats.MaxHpMonotone | src/components/gm/CombatTrackerCarousel.jsx:49-52 | With a non-negative refinement multiplier, more vigor never lowers maximum HP. |
| DerivedStats.MaxChiMonotone | src/components/gm/CombatTrackerCarousel.jsx:55-59 | With a non-negative stage multiplier, more discipline never lowers maximum Chi. |
| DerivedStats.CurrentNotRecomputed | src/components/gm/CombatTrackerCarousel.jsx:68-69 | Current HP and Chi do not depend on the tier tables. |
| DerivedStats.OneTurnCard | src/components/gm/CombatTrackerCarousel.jsx:26 | At most one card is the turn, and there is one iff the combat is active and the current index is in range. |
| StableSort.Insert | src/hooks/useCombatManager.js:142 | Inserting adds exactly the one element. |
| StableSort.Sort | src/hooks/useCombatManager.js:142 | The sorted roster is a permutation of its input, in non-increasing key order. |
| StableSort.SortStable | src/hooks/useCombatManager.js:142 | Participants with equal initiative keep their input order. |
| StableSort.SortSortedIsIdentity | src/hooks/useCombatManager.js:142 | Sorting an already sorted roster changes nothing. |
| CombatManager.AppendLog | src/hooks/useCombatManager.js:20-33 | The log is unchanged or gains the entry at its end. The ids logged afterwards are the old ones plus the entry's id when it is non-zero. Distinct ids stay distinct. A missing entry, an entry with id 0, or an entry whose id is already logged leaves the log unchanged. |
| CombatManager.AppendLogIdempotent | src/hooks/useCombatManager.js:21-26 | Appending the same entry twice leaves one copy. |
| CombatManager.AppendLogKeepsOrder | src/hooks/useCombatManager.js:26 | A new id is appended after the whole old log. |
| CombatManager.Roster | src/hooks/useCombatManager.js:83-102 | The roster keeps the candidates' order and length. NPCs roll d20 + agility in roster order, and players wait with no initiative. |
| CombatManager.BackReferences | src/hooks/useCombatManager.js:116-118 | Back-references go to exactly the truthy candidate ids that do not start with "npc_temp". |
| CombatManager.CreateCombat | src/hooks/useCombatManager.js:81-129 | A failed insert changes nothing. Otherwise the new combat is pending initiative, at index 0, with no last roll, the built roster and an empty log. |
| CombatManager.NewRosterInitiatives | src/hooks/useCombatManager.js:84-101 | Every NPC of a new roster has an initiative in `[1 + agility, 20 + agility]`, and no player has one. |
| CombatManager.Fill | src/hooks/useCombatManager.js:137-142 | Every present initiative is kept. The k-th missing one, in roster order, is d20 + agility from the random number at `next` plus the count of missing entries before it. |
| CombatManager.FillDrawsInOrder | src/hooks/useCombatManager.js:137-142 | Two missing entries never share a random number, and the later slot takes the later one. |
| CombatManager.StartRound | src/hooks/useCombatManager.js:131-152 | The new combat is the row read back, with only the turn order, the status (active) and the index (0) replaced; every other field, the master's id included, is kept. The new order is a permutation of the filled roster, sorted by initiative from the highest down. The log is untouched. A failed read changes nothing. |
| CombatManager.StartRoundStable | src/hooks/useCombatManager.js:142 | Ties keep their roster order. |
| CombatManager.StartRoundKeepsRolled | src/hooks/useCombatManager.js:137-142 | A participant that had already rolled is still in the order, unchanged. |
| CombatManager.NextTurn | src/hooks/useCombatManager.js:154-164 | The index moves to the next participant and wraps to 0. Nothing changes without a combat. |
| CombatManager.NextTurnWrite | src/hooks/useCombatManager.js:159-162 | The index written is one past the index of the row read back, wrapping to 0 at the end of that row's roster; a failed read writes nothing. |
| CombatManager.NextTurnWriteAgrees | src/hooks/useCombatManager.js:156-162 | When the row read back is the local combat, the written index is the new local index. |
| CombatManager.NextTurnsKeepsRoster | src/hooks/useCombatManager.js:154-164 | Any number of turns changes only the index, which advances by that many steps modulo the roster length. |
| CombatManager.FullRound | src/hooks/useCombatManager.js:154-164 | After one turn per participant, the state is what it was. |
| CombatManager.EndCombat | src/hooks/useCombatManager.js:166-178 | Ending clears the combat and the log. |
| CombatManager.EndedIsInert | src/hooks/useCombatManager.js:5-6 | Ending returns the hook to its initial state, on which the next turn, a re-roll and the start of a round change nothing. |
| CombatManager.GmRoll | src/hooks/useCombatManager.js:180-189 | Only the chosen slot's initiative changes, to d20 + agility. An absent combat or an out-of-range slot changes nothing. |
| CombatManager.GmRollThenStart | src/hooks/useCombatManager.js:180-189 | The re-rolled initiative lies in `[1 + agility, 20 + agility]`, and the next start of the round, reading that combat back, keeps the re-rolled participant. |
| CombatManager.UpdateStat | src/hooks/useCombatManager.js:191-198 | The field stores `parseInt(value) || 0`, read with no radix, and every other stat keeps its value. Without the character's row nothing is written. |
| CombatManager.UpdateStatStoresNumber | src/hooks/useCombatManager.js:192-195 | A number typed in decimal is stored as that number, even without a radix. |
| CombatManager.UpdateStatReadsHex | src/hooks/useCombatManager.js:192 | `"0x1A"` is stored as 26. |
| PlayerCombat.FindIndex | src/hooks/usePlayerCombat.js:61 | The result is -1 iff the character has no entry, and otherwise its first entry. |
| PlayerCombat.Awaits | src/hooks/usePlayerCombat.js:36-37 | True iff the character's first entry exists and has no initiative. |
| PlayerCombat.FetchCombat | src/hooks/usePlayerCombat.js:17-54 | The row is compared with the last polled row, not the shown combat. No id or a vanished row, after a poll that stored one, clears everything and hides the prompt. The end is announced iff a polled row vanished. A row equal to the last polled one changes nothing. A new row is shown and remembered, and, when pending, shows the prompt iff the character's entry awaits its initiative. |
| PlayerCombat.FetchIdempotent | src/hooks/usePlayerCombat.js:31 | Fetching the same row again changes nothing and announces nothing. |
| PlayerCombat.ActiveHidesPrompt | src/hooks/usePlayerCombat.js:42-44 | A new active row hides the prompt. |
| PlayerCombat.SendInitiative | src/hooks/usePlayerCombat.js:56-72 | Without a combat, a row or an entry for the character, nothing happens. Otherwise only the character's entry gets the value, every other entry is kept, and the prompt closes. |
| PlayerCombat.SentStopsPrompt | src/hooks/usePlayerCombat.js:64-68 | After sending, the character no longer awaits its initiative. |
| PlayerCombat.StalePollKeepsSent | src/hooks/usePlayerCombat.js:28-68 | After sending against the polled row, polling that row again changes nothing: the sent order stays and the prompt stays hidden. |
| PlayerCombat.EndTurn | src/hooks/usePlayerCombat.js:74-79 | The index moves to the next participant and wraps to 0. Nothing happens without a combat. |
| PlayerCombat.EndTurnMatchesNextTurn | src/hooks/usePlayerCombat.js:76 | The player's end of turn moves the index exactly as the master's next turn does. |
| PlayerCombat.Classify | src/hooks/usePlayerCombat.js:88-100 | The entry is a critical iff the roll is 20, a failure iff it is 1, and information otherwise. |
| PlayerCombat.SendPlayerLog | src/hooks/usePlayerCombat.js:82-107 | There is no entry iff there is no combat. The entry carries the clock as id, the character, the classified type, the message and the damage fields. |
| PlayerCombat.MessageTellsKind | src/hooks/usePlayerCombat.js:91-100 | The message ends with the critical note iff the type is critical, with the failure note iff it is a failure, and with `.` iff it is information. |
| QuickStatInput.Clamp | src/components/ui/QuickStatInput.jsx:62-63 | The value is at most the maximum, and at least 0 when the maximum is not negative. A value already in bounds is kept. |
| QuickStatInput.ProcessInput | src/components/ui/QuickStatInput.jsx:36-71 | Blank text restores the value without saving. Otherwise the requested value (a signed text moves the value, a number replaces it, unreadable text keeps it) is clamped to `[0, max]`, and it is saved iff it differs from the current value; the saved value is that clamped value. Without a save, the text shows the current value. |
| QuickStatInput.KeyDown | src/components/ui/QuickStatInput.jsx:27-34 | Escape restores the value and saves nothing. Enter ends editing. Any other key changes nothing. |
| QuickStatInput.Blur | src/components/ui/QuickStatInput.jsx:22-25 | Leaving the field ends editing, and the text is processed. |
| QuickStatInput.DeltaMoves | src/components/ui/QuickStatInput.jsx:48-70 | `+n` or `-n` saves the value moved by n when the result is within bounds. |
| QuickStatInput.DeltaSaturates | src/components/ui/QuickStatInput.jsx:48-63 | A move past the maximum saves the maximum, and a move below 0 saves 0, unless the value is already there. |
| QuickStatInput.AbsoluteSets | src/components/ui/QuickStatInput.jsx:54-70 | A plain number within bounds is saved iff it differs from the current value. |
| QuickStatInput.UnreadableKeepsValue | src/components/ui/QuickStatInput.jsx:50-58 | Text that is not a number leaves an in-bounds value unsaved. |
| QuickStatInput.UnreadableClamps | src/components/ui/QuickStatInput.jsx:56-63 | Unreadable text still pulls a negative value up to 0. |
| QuickStatInput.EscapeNeverSaves | src/components/ui/QuickStatInput.jsx:30-33 | Escape never saves and always restores the shown value. |
| QuickStatInput.SaveSettles | src/components/ui/QuickStatInput.jsx:54-70 | Entering the same absolute text again, once it has been saved, saves nothing. |
| Training.Find | src/components/character-sheet/TrainingOptionsModal.jsx:6-21 | The training found has the id, and none is found iff no training has it. |
| Training.Advancement | src/components/character-sheet/TrainingOptionsModal.jsx:29-45 | A technique earns nothing. Body refinement sets level + 1. Cultivation below mastery 3 sets mastery + 1; otherwise it sets the next stage at mastery 1. |
| Training.Select | src/components/character-sheet/TrainingOptionsModal.jsx:17-21 | Choosing moves to the difficulty step, with a training iff the id is a known one. |
| Training.SetCd | src/components/character-sheet/TrainingOptionsModal.jsx:69 | Typing a difficulty changes only the difficulty. |
| Training.HandleRoll | src/components/character-sheet/TrainingOptionsModal.jsx:23-48 | Success iff d20 + attribute >= difficulty. An update is sent iff the roll succeeds for a training other than technique, and it is that training's advancement. The dialog is reset. |
| Training.CdRoundTrip | src/components/character-sheet/TrainingOptionsModal.jsx:69 | A difficulty typed as a number is the difficulty used. |
| Training.SuccessMonotone | src/components/character-sheet/TrainingOptionsModal.jsx:24-27 | A lower difficulty never turns a success into a failure. |
| Training.SuccessBounds | src/components/character-sheet/TrainingOptionsModal.jsx:24-27 | A difficulty of at most 1 + attribute always succeeds, and one above 20 + attribute never does. |
| Training.CultivationAdvances | src/components/character-sheet/TrainingOptionsModal.jsx:34-41 | A cultivation success moves (stage, mastery) strictly forward, keeps mastery within 1..3, and leaves body refinement alone. |
| Training.RefinementAdvances | src/components/character-sheet/TrainingOptionsModal.jsx:31-33 | A refinement success raises the level by one and touches nothing else. |
| Training.NoProgressWithout | src/components/character-sheet/TrainingOptionsModal.jsx:29-45 | A failure, or a technique training, produces no update. |
| LegacyTraining.Calls | src/components/TrainingOptionsModal.jsx:34-49 | Technique makes no call, and refinement one call. Cultivation makes one call below mastery 3 and otherwise two: stage + 1, then mastery 1. |
| LegacyTraining.HandleRoll | src/components/TrainingOptionsModal.jsx:25-52 | The result step shows the roll, the difficulty, the total (absent without the attribute) and the success. A success makes exactly the training's calls, in order, and a failure makes none. |
| LegacyTraining.HandleRollUnwired | src/components/TrainingOptionsModal.jsx:25-52 | Mounted without a character, the dialog shows the same result, and it throws iff the roll succeeds for refinement or cultivation. |
| LegacyTraining.UnwiredRefinementThrows | src/components/ProgressionPage.jsx:74-78 | A successful refinement roll throws in the dialog as mounted, where a wired dialog would call `onTrain('bodyRefinementLevel', 1)`. |
| LegacyTraining.Close | src/components/TrainingOptionsModal.jsx:54-60 | Closing resets the step, the selection, the difficulty to 10 and the result. |
| LegacyTraining.CloseForgetsRoll | src/components/TrainingOptionsModal.jsx:13-16 | Closing after a roll returns the dialog to its opening state, and closing twice is closing once. |
| LegacyTraining.AgreesWithSheetModal | src/components/TrainingOptionsModal.jsx:25-52 | The older dialog succeeds exactly when the newer one does, and its calls, applied in order, leave the progression the newer dialog's single update leaves. |
| LegacyTraining.CallsMatchUpdate | src/components/TrainingOptionsModal.jsx:34-49 | Applying the older dialog's calls equals applying the advancement. |
| LegacyTraining.StageCallsPassThroughMixedState | src/components/TrainingOptionsModal.jsx:45-47 | Between its two calls, the character is already at the next stage with the old mastery. |
| InitiativeTracker.At | src/components/combat/InitiativeTracker.jsx:14 | The entry exists iff the index is in range, and then it is the participant at that index. |
| InitiativeTracker.VisibleParticipants | src/components/combat/InitiativeTracker.jsx:7-18 | Nothing is shown iff the turn order is missing or empty. Otherwise there are exactly three entries, entry i at `(current + i) % length`. |
| InitiativeTracker.WindowFollowsTurns | src/components/combat/InitiativeTracker.jsx:13-16 | Entry i of the window is the participant i turns ahead. |
| InitiativeTracker.FirstIsCurrent | src/components/combat/InitiativeTracker.jsx:14 | The first entry is the current participant. |
| InitiativeTracker.SingleParticipant | src/components/combat/InitiativeTracker.jsx:14 | With one participant, every entry is that participant. |
| RollTest.DamageOutcome | src/components/character-sheet/RollTestModal.jsx:27-40 | Damage mode rolls the formula's dice, die i from the i-th random number. The roll is their sum, the reported modifier is the formula's modifier plus the extra modifier, and the total is the roll plus that modifier. |
| RollTest.D20Outcome | src/components/character-sheet/RollTestModal.jsx:41-65 | Advantage rolls two d20s and keeps the higher, disadvantage rolls two and keeps the lower, and any other mode rolls one. The total is the roll plus the modifier, and there is none without a modifier. |
| RollTest.HandleRoll | src/components/character-sheet/RollTestModal.jsx:20-23 | A roll is ignored while animating or once a result is shown. Otherwise the animation starts with the computed outcome. |
| RollTest.Finish | src/components/character-sheet/RollTestModal.jsx:78-87 | The animation ends with the result shown. |
| RollTest.ShownIsRolled | src/components/character-sheet/RollTestModal.jsx:20-87 | The result shown when the animation ends is the outcome computed at the click. |
| RollTest.Close | src/components/character-sheet/RollTestModal.jsx:12-18 | Closing clears the result, the animation and the displayed number. |
| RollTest.OneRollPerOpening | src/components/character-sheet/RollTestModal.jsx:12-23 | One opening of the dialog allows one roll. Only closing allows another. |
| RollTest.AdvantageOrdering | src/components/character-sheet/RollTestModal.jsx:47-55 | With the same dice, disadvantage <= normal <= advantage. |
| RollTest.D20InRange | src/components/character-sheet/RollTestModal.jsx:42-55 | Every d20 lies in [1, 20], and the roll kept is one of those rolled. |
| RollTest.DamageRange | src/components/character-sheet/RollTestModal.jsx:27-38 | A damage total lies between count + bonus and count * faces + bonus. |
| GameMasterPanel.MapToCamelCase | src/pages/GameMasterPanel.jsx:12-33 | No row gives no sheet. Missing techniques, skills and inventory default to empty. |
| GameMasterPanel.MapRoundTrip | src/pages/GameMasterPanel.jsx:12-33 | Mapping back gives the row again, except that missing lists become empty. |
| GameMasterPanel.Rolled | src/pages/GameMasterPanel.jsx:80-89 | Every participant gets d20 + agility, from its own random number. |
| GameMasterPanel.StartCombat | src/pages/GameMasterPanel.jsx:77-111 | The new combat is active at index 0. Its turn order is a permutation of the rolled entries, sorted from the highest initiative down. |
| GameMasterPanel.Deactivate | src/pages/GameMasterPanel.jsx:93-96 | Every active combat becomes inactive, whoever its master: the update has no filter on the master. |
| GameMasterPanel.StartCombatRolls | src/pages/GameMasterPanel.jsx:80-91 | Every participant is in the turn order, with initiative in [1 + agility, 20 + agility]. |
| GameMasterPanel.StartCombatStable | src/pages/GameMasterPanel.jsx:91 | Equal initiatives keep their selection order. |
| GameMasterPanel.Categories | src/pages/GameMasterPanel.jsx:207 | The list is "todos" followed by the image categories, each at its first appearance. |
| GameMasterPanel.FirstsDistinct | src/pages/GameMasterPanel.jsx:207 | The categories after "todos" are distinct, and are exactly the categories of the images. |
| GameMasterPanel.Filter | src/pages/GameMasterPanel.jsx:208-211 | "todos" keeps every image. Any other category keeps exactly its images, each as many times as it occurs. |
| GameMasterPanel.KeepCounts | src/pages/GameMasterPanel.jsx:208-211 | Filtering by a category keeps each image of that category exactly as many times as it occurs, and no image of another category. |
| GameMasterPanel.FilterIdempotent | src/pages/GameMasterPanel.jsx:208-211 | Filtering twice is filtering once. |
| StartCombat.AddNpc | src/components/gm/StartCombatModal.jsx:13-30 | An empty name changes nothing. Otherwise the new NPC is appended, and the name and bonus are reset. |
| StartCombat.SetBonus | src/components/gm/StartCombatModal.jsx:73 | Typing a bonus changes neither the list nor the name. |
| StartCombat.TypedBonusReachesNpc | src/components/gm/StartCombatModal.jsx:13-30 | A bonus typed as a number is the bonus of the next NPC added. |
| StartCombat.Without | src/components/gm/StartCombatModal.jsx:35 | Removing an id drops every entry with that id and keeps every other one. |
| StartCombat.Toggle | src/components/gm/StartCombatModal.jsx:32-39 | Toggling a chosen id removes all its entries. Toggling an absent one appends it. |
| StartCombat.Close | src/components/gm/StartCombatModal.jsx:46-51 | Closing empties the list and resets the name and bonus. |
| StartCombat.Start | src/components/gm/StartCombatModal.jsx:41-44 | Starting hands over the chosen list and resets the dialog. |
| StartCombat.ToggleTwice | src/components/gm/StartCombatModal.jsx:32-39 | Toggling an absent character twice restores the list. |
| StartCombat.NewNpcInCombat | src/components/gm/StartCombatModal.jsx:17-25 | A new NPC has the shape the combat manager's `createCombat` takes for an NPC: it would roll d20 + the entered bonus and get a back-reference. |
| StartCombat.AddedNpcJoinsCombat | src/pages/GameMasterPanel.jsx:77-111 | After adding an NPC and starting, the page the dialog is mounted in (line 348) puts the NPC into an active combat at index 0, with initiative d20 + the typed bonus, one entry per chosen combatant. |

## Left out

- Database reads, writes, realtime channels and the one-second polling are not modelled. Their results become parameters: the row read back, the id an insert returns, and `None` for a failed read.
- Local storage of the combat log is not modelled. Only the in-memory deduplicated log is.
- `addCombatLog` and `sendCombatLog` in `src/hooks/useCombatManager.js` only build an entry and write it to the store. They are not modelled.
- `Math.random`, `Date.now()` and `new Date().toISOString()` become parameters: the random stream, `now` and `timestamp`.
- The animation timers of the roll-test dialog are not modelled. They change only the displayed number, so the roll is computed by `RollTest.HandleRoll` and shown by `RollTest.Finish`.
- Concurrent clients, last-write-wins and optimistic updates followed by reconciliation are not modelled.
- The clan, innate-body and tier tables are not part of this model. They are parameters, and their multipliers are exact `real`s rounded down with `Floor`, not IEEE doubles.
- Dice.RollDie: the product `u * faces` is exact. In the source it is a double and can round up to the next integer: for u = (2·2^53 − 1)/(3·2^53) and 3 faces the source's die is 3, the model's 2.
- `toLowerCase` is modelled only for ASCII and Latin-1 letters. Other scripts keep their case.
- The change handler `onTrain` is modelled as overwriting the fields it is given.
- Comparing snapshots with `JSON.stringify` is modelled as equality of values.
- DerivedStats.Compute: a character whose attributes lack agility, vigor or discipline makes the source compute `NaN`. The model reads the missing attribute as 0.
- CombatManager.NextTurn: an empty roster makes the source divide by zero and store `NaN`. The model requires a non-empty roster. `CreateCombat` with no candidates does create an empty roster. No caller of `createCombat` is part of this model: the start dialog hands its list to the game master page's own `handleStartCombat` (`src/pages/GameMasterPanel.jsx:348`), so nothing visible rules out the empty roster.
- CombatManager.NextTurnWrite: the same empty roster is excluded.
- PlayerCombat.EndTurn: an empty roster is excluded for the same reason.
- CombatManager.GmRoll: the source throws a `TypeError` for a slot outside the roster. The model leaves the state unchanged.
- PlayerCombat.FetchCombat: the model has no `undefined` initiative, only a number or `null`. The source shows the prompt only for `null`.
- CombatRecord.Status: only the statuses "pending_initiative" and "active" are modelled, as no other is ever written.
- LegacyTraining.HandleRoll: a missing attribute makes the source's total `NaN`. The model reports no total and no success.
- Category descriptions (`src/data/weapons.js:6-22`) are display text and are not modelled.
- Presentation-only components, authentication and the UI enumeration constants are not modelled.

## Findings

| source | as written | input that shows it | evidently intended | confidence | as-written member | corrected member |
|---|---|---|---|---|---|---|
| src/components/ProgressionPage.jsx:74-78 | The older training dialog is mounted with `isOpen`, `onClose` and `characterAttributes` only, so `character` and `onTrain` are undefined, and `handleRoll` reads `character.bodyRefinementLevel` (src/components/TrainingOptionsModal.jsx:36) or `character.masteryLevel` (line 40) on every successful refinement or cultivation. | Refinement, vigor 10, difficulty 10, any d20: the roll succeeds and the handler throws a `TypeError` before any progression is reported. | The dialog receives the character and `onTrain`, and a success reports the new level. | high, not executed | LegacyTraining.UnwiredRefinementThrows | LegacyTraining.HandleRoll |

=== FILE: armor_types.dfy ===
/**
  The armor table (src/data/armorTypes.js) and its lookup with the "none"
  fallback that the armor-class rule uses.
 */
module ArmorTypes {
  import opened JsText

  /** An armor type; a `None` base armor class is the source's `null`. */
  datatype ArmorType = ArmorType(id: string, name: string, baseArmorClass: Option<int>, agilityPenalty: int)

  const NoArmor := ArmorType("none", "Nenhuma", None, 0)
  const Medium := ArmorType("medium", "Média", Some(14), -2)
  const Heavy := ArmorType("heavy", "Pesada", Some(16), -4)

  /** `ARMOR_TYPES` */
  const Table: seq<ArmorType> := [NoArmor, Medium, Heavy]

  function ArmorId(a: ArmorType): string { a.id }

  /** The armor of an id, or "none" for an unknown id. */
  function Armor(id: string): (r: ArmorType)
    ensures r in Table
    ensures r.id == id || (r == NoArmor && forall k :: 0 <= k < |Table| ==> Table[k].id != id)
  {
    match Find(Table, ArmorId, id)
    case Some(a) => a
    case None => NoArmor
  }

  /** The ids of the table are pairwise distinct. */
  lemma IdsUnique()
    ensures forall i, j :: 0 <= i < j < |Table| ==> Table[i].id != Table[j].id
  {
  }

  /** Every known id finds its own entry; the fallback entry exists. */
  lemma ArmorOfKnownIds()
    ensures Armor("none") == NoArmor
    ensures Armor("medium") == Medium
    ensures Armor("heavy") == Heavy
  {
    assert Table[1].id == "medium" && Table[2].id == "heavy";
    assert Armor("medium") == Table[1];
    assert Armor("heavy") == Table[2];
  }

  /** An id outside the table reads as wearing no armor. */
  lemma UnknownIsNone(id: string)
    requires id != "none" && id != "medium" && id != "heavy"
    ensures Armor(id) == NoArmor
  {
  }

  /** Penalties never raise agility; exactly "none" has no base; a heavier
      armor has a higher base and a harsher penalty. */
  lemma TableShape()
    ensures forall k :: 0 <= k < |Table| ==> Table[k].agilityPenalty <= 0
    ensures forall k :: 0 <= k < |Table| ==> (Table[k].baseArmorClass.None? <==> Table[k].id == "none")
    ensures forall i, j :: 1 <= i < j < |Table| ==>
      Table[i].baseArmorClass.value < Table[j].baseArmorClass.value
      && Table[j].agilityPenalty < Table[i].agilityPenalty
  {
  }
}

=== FILE: combat_manager.dfy ===
/**
  The game master's side of a combat (src/hooks/useCombatManager.js): the
  de-duplicated local log, building the roster of a new combat, starting
  the round, moving the turn, re-rolling one initiative, ending the combat
  and writing one stat of a character.

  The database is not modelled: a read is a parameter (the row it returns,
  `None` when it fails), and a write is the value the operation returns,
  except for `nextTurn`, which writes an index computed from a second read
  (`NextTurnWrite`).
 */
module CombatManager {
  import opened JsText
  import opened Dice
  import opened CombatRecord
  import StableSort

  /** The hook's state: `combatData` and `localLogs`. */
  datatype GmState = GmState(combat: Option<Combat>, logs: seq<LogEntry>)

  /** The state the hook starts in: `useState(null)` and `useState([])`. */
  const Initial := GmState(None, [])

  // ---------------------------------------------------------------------------
  // appendLog
  // ---------------------------------------------------------------------------

  predicate HasId(logs: seq<LogEntry>, id: int) {
    exists k :: 0 <= k < |logs| && logs[k].id == id
  }

  predicate UniqueIds(logs: seq<LogEntry>) {
    forall i, j :: 0 <= i < j < |logs| ==> logs[i].id != logs[j].id
  }

  /** `appendLog(newLog)`: a missing entry, an entry without id or one whose id
      is already logged changes nothing; any other is appended. */
  function AppendLog(logs: seq<LogEntry>, entry: Option<LogEntry>): (r: seq<LogEntry>)
    ensures r == logs || (entry.Some? && r == logs + [entry.value])
    ensures forall id :: HasId(r, id) <==> HasId(logs, id) || (entry.Some? && entry.value.id == id && id != 0)
    ensures UniqueIds(logs) ==> UniqueIds(r)
    ensures entry.None? || entry.value.id == 0 || HasId(logs, entry.value.id) ==> r == logs
  {
    if entry.None? || entry.value.id == 0 || HasId(logs, entry.value.id) then logs
    else
      var r := logs + [entry.value];
      assert forall id :: HasId(r, id) <==> HasId(logs, id) || entry.value.id == id by {
        forall id ensures HasId(r, id) <==> HasId(logs, id) || entry.value.id == id {
          if HasId(r, id) && !HasId(logs, id) {
            var k :| 0 <= k < |r| && r[k].id == id;
            assert k == |logs|;
          }
          if entry.value.id == id {
            assert r[|logs|].id == id;
          }
          if HasId(logs, id) {
            var k :| 0 <= k < |logs| && logs[k].id == id;
            assert r[k].id == id;
          }
        }
      }
      r
  }

  /** Delivering the same entry twice logs it once. */
  lemma AppendLogIdempotent(logs: seq<LogEntry>, entry: Option<LogEntry>)
    ensures AppendLog(AppendLog(logs, entry), entry) == AppendLog(logs, entry)
  {
    if entry.Some? && entry.value.id != 0 && !HasId(logs, entry.value.id) {
      var r := logs + [entry.value];
      assert r[|logs|].id == entry.value.id;
    }
  }

  /** A new entry with a fresh id lands at the end, after everything logged before. */
  lemma AppendLogKeepsOrder(logs: seq<LogEntry>, entry: LogEntry)
    requires entry.id != 0 && !HasId(logs, entry.id)
    ensures var r := AppendLog(logs, Some(entry));
      |r| == |logs| + 1 && r[..|logs|] == logs && r[|logs|] == entry
  {
  }

  // ---------------------------------------------------------------------------
  // createCombat
  // ---------------------------------------------------------------------------

  /** A participant chosen for a new combat: a character sheet (camel-case
      fields) or a database row (snake-case fields), or an NPC of the modal. */
  datatype Candidate = Candidate(
    id: string,
    name: string,
    isNpc: bool,
    isNpcRow: bool,
    userId: Option<string>,
    userIdRow: Option<string>,
    imageUrl: Option<string>,
    imageUrlRow: Option<string>,
    attributes: Option<map<string, int>>)

  /** `!!char.isNpc || !!char.is_npc || char.id.startsWith('npc_')` */
  predicate IsNpc(c: Candidate) {
    c.isNpc || c.isNpcRow || StartsWith(c.id, "npc_")
  }

  function AttributesOf(c: Candidate): map<string, int> {
    if c.attributes.Some? then c.attributes.value else map[]
  }

  /** The turn-order entry of a candidate with the given initiative. */
  function Entry(c: Candidate, initiative: Option<int>): Participant {
    Participant(c.id, FirstTruthy(c.userId, c.userIdRow), c.name, FirstTruthy(c.imageUrl, c.imageUrlRow),
                AttributesOf(c), IsNpc(c), initiative)
  }

  /** Number of NPCs among the candidates. */
  function NpcCount(cs: seq<Candidate>): nat {
    if cs == [] then 0 else (if IsNpc(cs[0]) then 1 else 0) + NpcCount(cs[1..])
  }

  /** `r` is the turn order of a new combat built from `cs`: one entry per
      candidate, in order; NPCs roll initiative in roster order, taking the
      random numbers from `rng(next)` on; players wait with `None`. */
  predicate IsRoster(cs: seq<Candidate>, rng: Rng, next: nat, r: seq<Participant>) {
    |r| == |cs| && forall k :: 0 <= k < |cs| ==> RosterAt(cs, rng, next, r, k)
  }

  /** Slot `k` of `r` is candidate `k`'s entry, with its roll when it is an NPC. */
  predicate RosterAt(cs: seq<Candidate>, rng: Rng, next: nat, r: seq<Participant>, k: nat)
    requires k < |r| == |cs|
  {
    && r[k] == Entry(cs[k], r[k].initiative)
    && (r[k].initiative.Some? <==> IsNpc(cs[k]))
    && (IsNpc(cs[k]) ==> r[k].initiative == Some(Initiative(rng(next + NpcCount(cs[..k])), AttributesOf(cs[k]))))
  }

  /** The `turnOrder` of `createCombat`. */
  function Roster(cs: seq<Candidate>, rng: Rng, next: nat): (r: seq<Participant>)
    ensures IsRoster(cs, rng, next, r)
  {
    if cs == [] then []
    else
      var npc := IsNpc(cs[0]);
      var head := Entry(cs[0], if npc then Some(Initiative(rng(next), AttributesOf(cs[0]))) else None);
      var tail := Roster(cs[1..], rng, if npc then next + 1 else next);
      ConsRoster(cs, rng, next, head, tail);
      [head] + tail
  }

  /** The roster of a non-empty list: its first candidate's entry, then the
      roster of the rest, which rolls from the next random number on after an NPC. */
  lemma ConsRoster(cs: seq<Candidate>, rng: Rng, next: nat, head: Participant, tail: seq<Participant>)
    requires cs != []
    requires head == Entry(cs[0], if IsNpc(cs[0]) then Some(Initiative(rng(next), AttributesOf(cs[0]))) else None)
    requires IsRoster(cs[1..], rng, if IsNpc(cs[0]) then next + 1 else next, tail)
    ensures IsRoster(cs, rng, next, [head] + tail)
  {
    var r := [head] + tail;
    var next' := if IsNpc(cs[0]) then next + 1 else next;
    NpcCountPrefixes(cs);
    forall k | 0 <= k < |cs|
      ensures RosterAt(cs, rng, next, r, k)
    {
      if k > 0 {
        assert RosterAt(cs[1..], rng, next', tail, k - 1);
        assert r[k] == tail[k - 1] && cs[k] == cs[1..][k - 1];
      }
    }
  }

  /** Counting the NPCs of a prefix: the first candidate, then the rest. */
  lemma NpcCountPrefixes(cs: seq<Candidate>)
    requires cs != []
    ensures NpcCount(cs[..0]) == 0
    ensures forall k :: 0 < k < |cs| ==>
      NpcCount(cs[..k]) == (if IsNpc(cs[0]) then 1 else 0) + NpcCount(cs[1..][..k - 1])
  {
    assert cs[..0] == [];
    forall k | 0 < k < |cs|
      ensures NpcCount(cs[..k]) == (if IsNpc(cs[0]) then 1 else 0) + NpcCount(cs[1..][..k - 1])
    {
      assert cs[..k][1..] == cs[1..][..k - 1];
    }
  }

  predicate HasCandidate(cs: seq<Candidate>, id: string) {
    exists k :: 0 <= k < |cs| && cs[k].id == id
  }

  /** The characters that get a back-reference to the new combat: every
      truthy id that does not start with "npc_temp", in roster order. */
  function BackReferences(cs: seq<Candidate>): (r: seq<string>)
    ensures forall x :: x in r <==> HasCandidate(cs, x) && x != "" && !StartsWith(x, "npc_temp")
  {
    if cs == [] then []
    else
      var rest := BackReferences(cs[1..]);
      forall x
        ensures HasCandidate(cs, x) <==> cs[0].id == x || HasCandidate(cs[1..], x)
      {
        if HasCandidate(cs, x) && cs[0].id != x {
          var k :| 0 <= k < |cs| && cs[k].id == x;
          assert cs[1..][k - 1].id == x;
        }
        if HasCandidate(cs[1..], x) {
          var k :| 0 <= k < |cs[1..]| && cs[1..][k].id == x;
          assert cs[k + 1].id == x;
        }
        if cs[0].id == x {
          assert cs[0].id == x;
        }
      }
      if cs[0].id != "" && !StartsWith(cs[0].id, "npc_temp") then [cs[0].id] + rest else rest
  }

  datatype Created = Created(state: GmState, backReferences: seq<string>)

  /** `createCombat(participants)`. `insertedId` is the id of the inserted row,
      `None` when the insert fails, which leaves everything as it was. */
  function CreateCombat(state: GmState, gmId: string, cs: seq<Candidate>, rng: Rng, insertedId: Option<string>): (r: Created)
    ensures insertedId.None? ==> r == Created(state, [])
    ensures insertedId.Some? ==>
      && r.state.logs == []
      && r.state.combat.Some?
      && r.state.combat.value.id == insertedId.value
      && r.state.combat.value.gmId == gmId
      && r.state.combat.value.status == PendingInitiative
      && r.state.combat.value.currentTurnIndex == 0
      && r.state.combat.value.lastRoll.None?
      && r.state.combat.value.turnOrder == Roster(cs, rng, 0)
      && r.backReferences == BackReferences(cs)
  {
    if insertedId.None? then Created(state, [])
    else
      var combat := Combat(insertedId.value, gmId, PendingInitiative, Roster(cs, rng, 0), 0, None);
      Created(GmState(Some(combat), []), BackReferences(cs))
  }

  /** NPCs of a new combat hold an initiative in [1 + agility, 20 + agility];
      players hold none. */
  lemma NewRosterInitiatives(cs: seq<Candidate>, rng: Rng)
    requires Unit(rng)
    ensures var r := Roster(cs, rng, 0);
      forall k :: 0 <= k < |cs| ==>
        if IsNpc(cs[k]) then
          r[k].initiative.Some?
          && 1 + Agility(AttributesOf(cs[k])) <= r[k].initiative.value <= 20 + Agility(AttributesOf(cs[k]))
        else r[k].initiative.None?
  {
    var r := Roster(cs, rng, 0);
    forall k | 0 <= k < |cs|
      ensures if IsNpc(cs[k]) then
          r[k].initiative.Some?
          && 1 + Agility(AttributesOf(cs[k])) <= r[k].initiative.value <= 20 + Agility(AttributesOf(cs[k]))
        else r[k].initiative.None?
    {
      assert RosterAt(cs, rng, 0, r, k);
      if IsNpc(cs[k]) {
        InitiativeInRange(rng(NpcCount(cs[..k])), AttributesOf(cs[k]));
      }
    }
  }

  // ---------------------------------------------------------------------------
  // startRound
  // ---------------------------------------------------------------------------

  /** Number of entries still without an initiative. */
  function MissingCount(order: seq<Participant>): nat {
    if order == [] then 0 else (if order[0].initiative.None? then 1 else 0) + MissingCount(order[1..])
  }

  /** `r` is `order` with every missing initiative rolled: the entries without
      one roll in roster order, taking the random numbers from `rng(next)` on,
      and every other entry is kept. */
  predicate IsFilled(order: seq<Participant>, rng: Rng, next: nat, r: seq<Participant>) {
    |r| == |order| && forall k :: 0 <= k < |r| ==> FilledAt(order, rng, next, r, k)
  }

  /** Slot `k` of `r` holds an initiative: its own when `order` has one, else its roll. */
  predicate FilledAt(order: seq<Participant>, rng: Rng, next: nat, r: seq<Participant>, k: nat)
    requires k < |r| == |order|
  {
    && r[k].initiative.Some?
    && (order[k].initiative.Some? ==> r[k] == order[k])
    && (order[k].initiative.None? ==>
          r[k] == order[k].(initiative := Some(Initiative(rng(next + MissingCount(order[..k])), order[k].attributes))))
  }

  /** Rolls initiative for every entry still without one, one `Math.random()`
      per missing entry in roster order, from `rng(next)` on. */
  function Fill(order: seq<Participant>, rng: Rng, next: nat): (r: seq<Participant>)
    ensures IsFilled(order, rng, next, r)
  {
    if order == [] then []
    else
      var p := order[0];
      var missing := p.initiative.None?;
      var head := if missing then p.(initiative := Some(Initiative(rng(next), p.attributes))) else p;
      var tail := Fill(order[1..], rng, if missing then next + 1 else next);
      ConsFill(order, rng, next, head, tail);
      [head] + tail
  }

  /** The filled order of a non-empty roster: its first entry, rolled when
      missing, then the rest filled from the next random number on after a roll. */
  lemma ConsFill(order: seq<Participant>, rng: Rng, next: nat, head: Participant, tail: seq<Participant>)
    requires order != []
    requires head == if order[0].initiative.None? then order[0].(initiative := Some(Initiative(rng(next), order[0].attributes))) else order[0]
    requires IsFilled(order[1..], rng, if order[0].initiative.None? then next + 1 else next, tail)
    ensures IsFilled(order, rng, next, [head] + tail)
  {
    var r := [head] + tail;
    var next' := if order[0].initiative.None? then next + 1 else next;
    MissingCountPrefixes(order);
    forall k | 0 <= k < |r|
      ensures FilledAt(order, rng, next, r, k)
    {
      if k > 0 {
        assert FilledAt(order[1..], rng, next', tail, k - 1);
        assert r[k] == tail[k - 1] && order[k] == order[1..][k - 1];
      }
    }
  }

  /** Counting the missing entries of a prefix: the first entry, then the rest. */
  lemma MissingCountPrefixes(order: seq<Participant>)
    requires order != []
    ensures MissingCount(order[..0]) == 0
    ensures forall k :: 0 < k < |order| ==>
      MissingCount(order[..k]) == (if order[0].initiative.None? then 1 else 0) + MissingCount(order[1..][..k - 1])
  {
    assert order[..0] == [];
    forall k | 0 < k < |order|
      ensures MissingCount(order[..k]) == (if order[0].initiative.None? then 1 else 0) + MissingCount(order[1..][..k - 1])
    {
      assert order[..k][1..] == order[1..][..k - 1];
    }
  }

  /** Missing entries draw distinct random numbers, later slots later ones:
      no two rolls share a `Math.random()` call. */
  lemma FillDrawsInOrder(order: seq<Participant>, i: nat, j: nat)
    requires i < j < |order| && order[i].initiative.None?
    ensures MissingCount(order[..i]) < MissingCount(order[..j])
  {
    assert order[..j] == order[..i] + order[i..j];
    MissingCountAppend(order[..i], order[i..j]);
    assert order[i..j][0] == order[i];
  }

  lemma {:induction false} MissingCountAppend(a: seq<Participant>, b: seq<Participant>)
    ensures MissingCount(a + b) == MissingCount(a) + MissingCount(b)
  {
    if a == [] {
      assert a + b == b;
    } else {
      assert (a + b)[1..] == a[1..] + b;
      MissingCountAppend(a[1..], b);
    }
  }

  /** `b.initiative || 0` */
  function InitiativeKey(p: Participant): int {
    OrNumber(p.initiative, 0)
  }

  /** `startRound()`. `row` is the combat read back from the database (`None`
      when the read fails, which leaves everything as it was). */
  function StartRound(state: GmState, row: Option<Combat>, rng: Rng): (r: GmState)
    ensures state.combat.None? || row.None? ==> r == state
    ensures state.combat.Some? && row.Some? ==>
      && r.logs == state.logs
      && r.combat.Some?
      && r.combat.value == row.value.(turnOrder := r.combat.value.turnOrder, status := Active, currentTurnIndex := 0)
      && multiset(r.combat.value.turnOrder) == multiset(Fill(row.value.turnOrder, rng, 0))
      && StableSort.SortedDesc(r.combat.value.turnOrder, InitiativeKey)
      && (forall k :: 0 <= k < |r.combat.value.turnOrder| ==> r.combat.value.turnOrder[k].initiative.Some?)
  {
    if state.combat.None? || row.None? then state
    else
      var filled := Fill(row.value.turnOrder, rng, 0);
      var sorted := StableSort.Sort(filled, InitiativeKey);
      assert forall k :: 0 <= k < |sorted| ==> sorted[k].initiative.Some? by {
        forall k | 0 <= k < |sorted| ensures sorted[k].initiative.Some? {
          assert sorted[k] in multiset(filled);
          var j :| 0 <= j < |filled| && filled[j] == sorted[k];
          assert FilledAt(row.value.turnOrder, rng, 0, filled, j);
        }
      }
      GmState(Some(row.value.(turnOrder := sorted, status := Active, currentTurnIndex := 0)), state.logs)
  }

  /** Participants of equal initiative keep their roster order. */
  lemma StartRoundStable(state: GmState, row: Combat, rng: Rng, k: int)
    requires state.combat.Some?
    ensures StableSort.WithKey(StartRound(state, Some(row), rng).combat.value.turnOrder, InitiativeKey, k)
         == StableSort.WithKey(Fill(row.turnOrder, rng, 0), InitiativeKey, k)
  {
    StableSort.SortStable(Fill(row.turnOrder, rng, 0), InitiativeKey, k);
  }

  /** Initiatives already rolled survive the start of the round unchanged. */
  lemma StartRoundKeepsRolled(state: GmState, row: Combat, rng: Rng, p: Participant)
    requires state.combat.Some? && p in row.turnOrder && p.initiative.Some?
    ensures p in StartRound(state, Some(row), rng).combat.value.turnOrder
  {
    var filled := Fill(row.turnOrder, rng, 0);
    var k :| 0 <= k < |row.turnOrder| && row.turnOrder[k] == p;
    assert FilledAt(row.turnOrder, rng, 0, filled, k);
    assert p in multiset(filled);
  }

  // ---------------------------------------------------------------------------
  // nextTurn, endCombat, gmRoll, updateStat
  // ---------------------------------------------------------------------------

  /** `nextTurn()` on the local state. */
  function NextTurn(state: GmState): (r: GmState)
    requires state.combat.Some? ==> |state.combat.value.turnOrder| > 0
    ensures state.combat.None? ==> r == state
    ensures state.combat.Some? ==>
      r == state.(combat := Some(state.combat.value.(currentTurnIndex :=
        NextIndex(state.combat.value.currentTurnIndex, |state.combat.value.turnOrder|))))
  {
    if state.combat.None? then state
    else
      var c := state.combat.value;
      state.(combat := Some(c.(currentTurnIndex := NextIndex(c.currentTurnIndex, |c.turnOrder|))))
  }

  /** The index `nextTurn()` writes: one past the index of the row `reread` it
      reads back, wrapping at the end of that row's roster; no write when the
      read fails. */
  function NextTurnWrite(reread: Option<Combat>): (r: Option<int>)
    requires reread.Some? ==> |reread.value.turnOrder| > 0
    ensures r.Some? <==> reread.Some?
    ensures r.Some? && 0 <= reread.value.currentTurnIndex < |reread.value.turnOrder| ==>
      0 <= r.value < |reread.value.turnOrder|
      && r.value == (if reread.value.currentTurnIndex + 1 < |reread.value.turnOrder| then reread.value.currentTurnIndex + 1 else 0)
  {
    if reread.None? then None
    else Some(NextIndex(reread.value.currentTurnIndex, |reread.value.turnOrder|))
  }

  /** When the row read back is the local combat, the stored index and the
      local one agree after the turn. */
  lemma NextTurnWriteAgrees(state: GmState)
    requires state.combat.Some? && |state.combat.value.turnOrder| > 0
    ensures NextTurnWrite(state.combat) == Some(NextTurn(state).combat.value.currentTurnIndex)
  {
  }

  /** `n` calls of `nextTurn()`. */
  function NextTurns(state: GmState, n: nat): (r: GmState)
    requires state.combat.Some? ==> |state.combat.value.turnOrder| > 0
    ensures r.combat.Some? <==> state.combat.Some?
    ensures r.combat.Some? ==> r.combat.value.turnOrder == state.combat.value.turnOrder
  {
    if n == 0 then state else NextTurn(NextTurns(state, n - 1))
  }

  lemma {:induction false} NextTurnsKeepsRoster(state: GmState, n: nat)
    requires state.combat.Some? ==> |state.combat.value.turnOrder| > 0
    ensures NextTurns(state, n).combat.Some? <==> state.combat.Some?
    ensures state.combat.Some? ==>
      NextTurns(state, n).combat.value == state.combat.value.(currentTurnIndex :=
        Advance(state.combat.value.currentTurnIndex, |state.combat.value.turnOrder|, n))
    ensures NextTurns(state, n).logs == state.logs
  {
    if n > 0 {
      NextTurnsKeepsRoster(state, n - 1);
    }
  }

  /** As many turns as there are participants bring the turn back to where it was. */
  lemma FullRound(state: GmState)
    requires state.combat.Some? && |state.combat.value.turnOrder| > 0
    requires 0 <= state.combat.value.currentTurnIndex < |state.combat.value.turnOrder|
    ensures NextTurns(state, |state.combat.value.turnOrder|) == state
  {
    var c := state.combat.value;
    NextTurnsKeepsRoster(state, |c.turnOrder|);
    FullRoundReturns(c.currentTurnIndex, |c.turnOrder|);
  }

  /** `endCombat()`: the combat and the log are gone. */
  function EndCombat(state: GmState): (r: GmState)
    ensures r.combat.None? && r.logs == []
  {
    GmState(None, [])
  }

  /** Ending the combat returns the hook to its initial state, in which the
      turn, re-roll and round operations change nothing. */
  lemma EndedIsInert(state: GmState, index: int, u: real, row: Option<Combat>, rng: Rng)
    ensures EndCombat(state) == Initial
    ensures NextTurn(EndCombat(state)) == Initial
    ensures GmRoll(EndCombat(state), index, u) == Initial
    ensures StartRound(EndCombat(state), row, rng) == Initial
  {
  }

  /** `gmRoll(index)`: re-rolls one participant's initiative with the random
      number `u`. An index outside the roster fails before any change. */
  function GmRoll(state: GmState, index: int, u: real): (r: GmState)
    ensures state.combat.None? || !(0 <= index < |state.combat.value.turnOrder|) ==> r == state
    ensures state.combat.Some? && 0 <= index < |state.combat.value.turnOrder| ==>
      var order := state.combat.value.turnOrder;
      && r.logs == state.logs
      && r.combat.Some?
      && r.combat.value == state.combat.value.(turnOrder := r.combat.value.turnOrder)
      && |r.combat.value.turnOrder| == |order|
      && r.combat.value.turnOrder[index] == order[index].(initiative := Some(Initiative(u, order[index].attributes)))
      && (forall k :: 0 <= k < |order| && k != index ==> r.combat.value.turnOrder[k] == order[k])
  {
    if state.combat.None? then state
    else
      var c := state.combat.value;
      if !(0 <= index < |c.turnOrder|) then state
      else
        var p := c.turnOrder[index];
        var order := c.turnOrder[index := p.(initiative := Some(Initiative(u, p.attributes)))];
        state.(combat := Some(c.(turnOrder := order)))
  }

  /** A re-rolled initiative is a d20 plus agility, and the next start of the
      round, reading the re-rolled combat back, keeps it. */
  lemma GmRollThenStart(state: GmState, index: int, u: real, rng: Rng)
    requires state.combat.Some? && 0 <= index < |state.combat.value.turnOrder|
    requires 0.0 <= u < 1.0
    ensures var rolled := GmRoll(state, index, u);
      var p := rolled.combat.value.turnOrder[index];
      && p.initiative.Some?
      && 1 + Agility(p.attributes) <= p.initiative.value <= 20 + Agility(p.attributes)
      && p in StartRound(rolled, rolled.combat, rng).combat.value.turnOrder
  {
    var rolled := GmRoll(state, index, u);
    var p := rolled.combat.value.turnOrder[index];
    InitiativeInRange(u, p.attributes);
    StartRoundKeepsRolled(rolled, rolled.combat.value, rng, p);
  }

  /** `updateStat(charId, field, value)`: the character's new `stats`, or
      `None` (no write) when the character's row is not found. */
  function UpdateStat(stats: Option<map<string, int>>, field: string, value: string): (r: Option<map<string, int>>)
    ensures r.Some? <==> stats.Some?
    ensures r.Some? ==> field in r.value && r.value[field] == ParseIntAutoOrZero(value)
    ensures r.Some? ==> forall f :: f != field ==> (f in r.value <==> f in stats.value)
    ensures r.Some? ==> forall f :: f != field && f in stats.value ==> r.value[f] == stats.value[f]
  {
    if stats.None? then None
    else Some(stats.value[field := ParseIntAutoOrZero(value)])
  }

  /** A number written by the stat editor is stored as that number. */
  lemma UpdateStatStoresNumber(stats: map<string, int>, field: string, n: int)
    ensures UpdateStat(Some(stats), field, IntToString(n)) == Some(stats[field := n])
  {
    ParseIntAutoRoundTrip(n);
  }

  /** Text in hexadecimal notation is stored as its value, not as 0. */
  lemma UpdateStatReadsHex(stats: map<string, int>, field: string)
    ensures UpdateStat(Some(stats), field, "0x1A") == Some(stats[field := 26])
  {
    HexExample();
  }
}

=== FILE: combat_record.dfy ===
/**
  The combat row shared by the game master's and the players' hooks
  (src/hooks/useCombatManager.js, src/hooks/usePlayerCombat.js): its status,
  the turn order of participants, the index of the current turn and the last
  roll broadcast to the table.
 */
module CombatRecord {
  import opened JsText
  import opened Dice

  /** `'pending_initiative'` and `'active'` */
  datatype Status = PendingInitiative | Active

  /** An entry of `turn_order`; `initiative` is `None` while it is `null`. */
  datatype Participant = Participant(
    characterId: string,
    userId: Option<string>,
    name: string,
    imageUrl: Option<string>,
    attributes: map<string, int>,
    isNpc: bool,
    initiative: Option<int>)

  /** The type of a log entry: `'crit'`, `'fail'` or `'info'`. */
  datatype LogKind = Crit | Fail | Info

  /** A combat log entry; `id` is the millisecond clock when it was made, 0 standing for a missing id. */
  datatype LogEntry = LogEntry(
    id: int,
    characterId: Option<string>,
    message: string,
    kind: LogKind,
    timestamp: string,
    damageFormula: Option<string>,
    damageBonus: Option<int>)

  /** A row of the `combat` table. */
  datatype Combat = Combat(
    id: string,
    gmId: string,
    status: Status,
    turnOrder: seq<Participant>,
    currentTurnIndex: int,
    lastRoll: Option<LogEntry>)

  /** `attributes?.agility || 0` */
  function Agility(attributes: map<string, int>): int {
    if "agility" in attributes then attributes["agility"] else 0
  }

  /** An initiative roll: one d20 plus agility. */
  function Initiative(u: real, attributes: map<string, int>): int {
    RollDie(u, 20) + Agility(attributes)
  }

  lemma InitiativeInRange(u: real, attributes: map<string, int>)
    requires 0.0 <= u < 1.0
    ensures 1 + Agility(attributes) <= Initiative(u, attributes) <= 20 + Agility(attributes)
  {
    DieInRange(u, 20);
  }

  /** JavaScript's `a % n` for `n > 0`: the remainder takes the sign of `a`. */
  function JsRemainder(a: int, n: int): (r: int)
    requires n > 0
    ensures a >= 0 ==> 0 <= r < n
    ensures a < 0 ==> -n < r <= 0
    ensures 0 <= a < n ==> r == a
    ensures a == n ==> r == 0
  {
    if a >= 0 then
      SmallRemainder(a, n);
      a % n
    else
      -((-a) % n)
  }

  lemma SmallRemainder(a: int, n: int)
    requires n > 0 && a >= 0
    ensures 0 <= a % n < n
    ensures a < n ==> a % n == a
    ensures a == n ==> a % n == 0
  {
  }

  /** `(index + 1) % length`, the index of the next turn. */
  function NextIndex(index: int, length: int): (r: int)
    requires length > 0
    ensures index >= -1 ==> 0 <= r < length
    ensures -1 <= index < length - 1 ==> r == index + 1
    ensures index == length - 1 ==> r == 0
  {
    JsRemainder(index + 1, length)
  }

  /** `n` turns from index `index`. */
  function Advance(index: int, length: int, n: nat): int
    requires length > 0
  {
    if n == 0 then index else NextIndex(Advance(index, length, n - 1), length)
  }

  /** After as many turns as there are participants, the turn is back where it started. */
  lemma FullRoundReturns(index: int, length: int)
    requires length > 0 && 0 <= index < length
    ensures Advance(index, length, length) == index
  {
    AdvanceWraps(index, length, length);
  }

  /** Within one round, `n` turns move the index `n` places, wrapping past the end once. */
  lemma {:induction false} AdvanceWraps(index: int, length: int, n: nat)
    requires length > 0 && 0 <= index < length && n <= length
    ensures Advance(index, length, n) == if index + n < length then index + n else index + n - length
  {
    if n > 0 {
      AdvanceWraps(index, length, n - 1);
    }
  }
}

=== FILE: combat_rules.dfy ===
/**
  Weapon categories and attack damage (src/utils/combatRules.js).

  `NormalizeCategory` folds the free-text category of a weapon into one of
  three classes; `CalculateAttackDamage` rolls a weapon's damage formula with
  the critical multiplier of its class, which multiplies the number of dice
  and never the fixed modifier.
 */
module CombatRules {
  import opened JsText
  import opened Dice

  datatype Category = Pesada | Leve | Normal {
    /** The string the source returns for the class. */
    function Name(): string {
      match this
      case Pesada => "pesada"
      case Leve => "leve"
      case Normal => "normal"
    }
  }

  /** `normalizeCategory(category)`: on the lower-cased, trimmed text, exactly
      "p" or a heavy word gives the heavy class; otherwise exactly "l" or a
      light word gives the light class; everything else is normal. */
  function NormalizeCategory(category: Option<string>): (r: Category)
    ensures !Truthy(category) ==> r == Normal
    ensures Truthy(category) && (Contains(ToLower(category.value), "pesada") || Contains(ToLower(category.value), "heavy"))
      ==> r == Pesada
    ensures Truthy(category) ==>
      var c := Trim(ToLower(category.value));
      var heavy := c == "p" || Contains(c, "pesada") || Contains(c, "heavy");
      var light := c == "l" || Contains(c, "leve") || Contains(c, "light");
      && (r == Pesada <==> heavy)
      && (r == Leve <==> !heavy && light)
      && (r == Normal <==> !heavy && !light)
  {
    if !Truthy(category) then Normal
    else
      HeavyWordsSurviveTrim(ToLower(category.value));
      Classify(Trim(ToLower(category.value)))
  }

  /** A lower-cased category holding a heavy word is heavy once trimmed. */
  lemma HeavyWordsSurviveTrim(l: string)
    ensures Contains(l, "pesada") || Contains(l, "heavy") ==> Classify(Trim(l)) == Pesada
  {
    ContainsTrim(l, "pesada");
    ContainsTrim(l, "heavy");
  }

  /** A category whose lower-cased text holds a light word, no heavy word, and
      is not exactly "p" once trimmed, is of the light class. */
  lemma LightWordsAreLeve(s: string)
    requires Contains(ToLower(s), "leve") || Contains(ToLower(s), "light")
    requires !Contains(ToLower(s), "pesada") && !Contains(ToLower(s), "heavy")
    requires Trim(ToLower(s)) != "p"
    ensures NormalizeCategory(Some(s)) == Leve
  {
    var l := ToLower(s);
    ContainsTrim(l, "leve");
    ContainsTrim(l, "light");
    ContainsOfTrim(l, "pesada");
    ContainsOfTrim(l, "heavy");
  }

  /** Every word of the trimmed text is a word of the text. */
  lemma ContainsOfTrim(s: string, w: string)
    ensures Contains(Trim(s), w) ==> Contains(s, w)
  {
    if Contains(Trim(s), w) {
      var k, m := TrimBounds(s);
      ContainsOfSlice(s, k, m, w);
    }
  }

  /** The trimmed text is a slice of the text. */
  lemma TrimBounds(s: string) returns (k: nat, m: nat)
    ensures k <= m <= |s| && Trim(s) == s[k..m]
  {
    var t := TrimStart(s);
    var u := TrimEnd(t);
    k := |s| - |t|;
    SliceOfSlice(s, t, u, k);
    m := k + |u|;
  }

  lemma SliceOfSlice(s: string, t: string, u: string, k: nat)
    requires k <= |s| && t == s[k..] && |u| <= |t| && u == t[..|u|]
    ensures k + |u| <= |s| && u == s[k..k + |u|]
  {
  }

  lemma ContainsOfSlice(s: string, a: nat, b: nat, w: string)
    requires a <= b <= |s| && Contains(s[a..b], w)
    ensures Contains(s, w)
  {
    var t := s[a..b];
    var i := ContainsWitness(t, w);
    assert s[a + i..a + i + |w|] == w by {
      forall j | 0 <= j < |w|
        ensures s[a + i..a + i + |w|][j] == w[j]
      {
        assert t[i..i + |w|][j] == t[i + j] == s[a + i + j];
      }
    }
    ContainsFromWitness(s, w, a + i);
  }

  /** The class of a lower-cased, trimmed category; the heavy words win. */
  function Classify(cat: string): Category {
    if cat == "p" || Contains(cat, "pesada") || Contains(cat, "heavy") then Pesada
    else if cat == "l" || Contains(cat, "leve") || Contains(cat, "light") then Leve
    else Normal
  }

  // ---------------------------------------------------------------------------
  // Facts about `Contains` used by the category rule
  // ---------------------------------------------------------------------------

  lemma {:induction false} ContainsWitness(s: string, w: string) returns (i: nat)
    requires Contains(s, w)
    ensures i + |w| <= |s| && s[i..i + |w|] == w
  {
    if StartsWith(s, w) {
      i := 0;
    } else {
      var j := ContainsWitness(s[1..], w);
      i := j + 1;
      assert s[i..i + |w|] == s[1..][j..j + |w|];
    }
  }

  lemma {:induction false} ContainsFromWitness(s: string, w: string, i: nat)
    requires i + |w| <= |s| && s[i..i + |w|] == w
    ensures Contains(s, w)
  {
    if i > 0 {
      assert s[1..][i - 1..i - 1 + |w|] == w;
      ContainsFromWitness(s[1..], w, i - 1);
    }
  }

  /** Every character of a word that occurs in `s` occurs in `s`. */
  lemma ContainsChar(s: string, w: string, j: nat)
    requires Contains(s, w) && j < |w|
    ensures w[j] in s
  {
    var i := ContainsWitness(s, w);
    assert s[i + j] == w[j];
  }

  /** Trimming keeps every word that neither starts nor ends with white space. */
  lemma ContainsTrim(s: string, w: string)
    requires w != [] && !IsSpace(w[0]) && !IsSpace(w[|w| - 1])
    ensures Contains(s, w) ==> Contains(Trim(s), w)
  {
    if Contains(s, w) {
      ContainsTrimStart(s, w);
      ContainsTrimEnd(TrimStart(s), w);
    }
  }

  lemma {:induction false} ContainsTrimStart(s: string, w: string)
    requires w != [] && !IsSpace(w[0]) && Contains(s, w)
    ensures Contains(TrimStart(s), w)
  {
    if s != [] && IsSpace(s[0]) {
      ContainsTrimStart(s[1..], w);
    }
  }

  lemma {:induction false} ContainsTrimEnd(s: string, w: string)
    requires w != [] && !IsSpace(w[|w| - 1]) && Contains(s, w)
    ensures Contains(TrimEnd(s), w)
  {
    if s != [] && IsSpace(s[|s| - 1]) {
      var i := ContainsWitness(s, w);
      assert s[i..i + |w|][|w| - 1] == s[i + |w| - 1];
      var t := s[..|s| - 1];
      assert t[i..i + |w|] == s[i..i + |w|];
      ContainsFromWitness(t, w, i);
      ContainsTrimEnd(t, w);
    }
  }

  lemma {:induction false} ToLowerOfLower(s: string)
    requires forall j :: 0 <= j < |s| ==> !IsUpper(s[j])
    ensures ToLower(s) == s
  {
  }

  // ---------------------------------------------------------------------------
  // Properties of the category rule
  // ---------------------------------------------------------------------------

  /** Each class name normalises to itself, so normalising twice changes nothing. */
  lemma NormalizeIdempotent(c: Category)
    ensures NormalizeCategory(Some(c.Name())) == c
  {
    var n := c.Name();
    PlainWord(n);
    assert NormalizeCategory(Some(n)) == Classify(n);
    match c
    case Pesada => ClassifyPesada();
    case Leve => ClassifyLeve();
    case Normal => ClassifyNormal();
  }

  lemma ClassifyPesada()
    ensures Classify("pesada") == Pesada
  {
    ContainsFromWitness("pesada", "pesada", 0);
  }

  lemma ClassifyLeve()
    ensures Classify("leve") == Leve
  {
    LacksHeavyWords("leve");
    ContainsFromWitness("leve", "leve", 0);
  }

  lemma ClassifyNormal()
    ensures Classify("normal") == Normal
  {
    var n := "normal";
    LacksHeavyWords(n);
    LacksLightWords(n);
  }

  /** A plain lower-case word without the letters p, h, v and g is of the normal class. */
  lemma NormalWord(n: string)
    requires |n| > 1 && !IsSpace(n[0]) && !IsSpace(n[|n| - 1])
    requires forall j :: 0 <= j < |n| ==> !IsUpper(n[j])
    requires 'p' !in n && 'h' !in n && 'v' !in n && 'g' !in n
    ensures NormalizeCategory(Some(n)) == Normal
  {
    assert Truthy(Some(n)) && Trim(ToLower(n)) == n by { PlainWord(n); }
    assert !Contains(n, "pesada") && !Contains(n, "heavy") by { LacksHeavyWords(n); }
    assert !Contains(n, "leve") && !Contains(n, "light") by { LacksLightWords(n); }
    assert n != "p" && n != "l";
  }

  /** The three normal keys of the weapon table. */
  lemma NormalizeWordExamples()
    ensures NormalizeCategory(Some("media")) == Normal
    ensures NormalizeCategory(Some("alcance")) == Normal
    ensures NormalizeCategory(Some("exotica")) == Normal
  {
    NormalKey("media");
    NormalKey("alcance");
    NormalKey("exotica");
  }

  lemma NormalKey(n: string)
    requires n == "media" || n == "alcance" || n == "exotica"
    ensures NormalizeCategory(Some(n)) == Normal
  {
    PlainKey(n);
    NormalWord(n);
  }

  lemma PlainKey(n: string)
    requires n == "media" || n == "alcance" || n == "exotica"
    ensures |n| > 1 && !IsSpace(n[0]) && !IsSpace(n[|n| - 1])
    ensures forall j :: 0 <= j < |n| ==> !IsUpper(n[j])
    ensures 'p' !in n && 'h' !in n && 'v' !in n && 'g' !in n
  {
  }

  /** A lower-case word without padding is its own normal form. */
  lemma PlainWord(n: string)
    requires n != [] && !IsSpace(n[0]) && !IsSpace(n[|n| - 1])
    requires forall j :: 0 <= j < |n| ==> !IsUpper(n[j])
    ensures Truthy(Some(n)) && Trim(ToLower(n)) == n
  {
    ToLowerOfLower(n);
    assert TrimStart(n) == n;
  }

  /** A word without 'p' and 'h' contains neither "pesada" nor "heavy". */
  lemma LacksHeavyWords(n: string)
    requires 'p' !in n && 'h' !in n
    ensures !Contains(n, "pesada") && !Contains(n, "heavy")
  {
    if Contains(n, "pesada") { ContainsChar(n, "pesada", 0); }
    if Contains(n, "heavy") { ContainsChar(n, "heavy", 0); }
  }

  /** A word without 'v' and 'g' contains neither "leve" nor "light". */
  lemma LacksLightWords(n: string)
    requires 'v' !in n && 'g' !in n
    ensures !Contains(n, "leve") && !Contains(n, "light")
  {
    if Contains(n, "leve") { ContainsChar(n, "leve", 2); }
    if Contains(n, "light") { ContainsChar(n, "light", 2); }
  }

  /** Upper and lower case never change the class. */
  lemma NormalizeIgnoresCase(s: string)
    ensures NormalizeCategory(Some(s)) == NormalizeCategory(Some(ToLower(s)))
  {
    ToLowerIdempotent(s);
  }

  /** Padding never changes the class. */
  lemma NormalizeIgnoresPadding(s: string)
    ensures NormalizeCategory(Some(s)) == NormalizeCategory(Some(Trim(s)))
  {
    var l := ToLower(s);
    var t := Trim(s);
    assert ToLower(t) == Trim(l) by {
      TrimLowerCommute(s);
    }
    TrimIdempotent(l);
    if t == "" {
      assert Trim(l) == "";
    }
  }

  lemma {:induction false} TrimIdempotent(s: string)
    ensures Trim(Trim(s)) == Trim(s)
  {
    var t := TrimStart(s);
    var u := TrimEnd(t);
    if u != [] {
      assert !IsSpace(u[0]) by {
        assert u[0] == t[0];
      }
      assert TrimStart(u) == u;
    }
  }

  lemma {:induction false} TrimLowerCommute(s: string)
    ensures ToLower(Trim(s)) == Trim(ToLower(s))
  {
    TrimStartLowerCommute(s);
    TrimEndLowerCommute(TrimStart(s));
  }

  lemma {:induction false} TrimStartLowerCommute(s: string)
    ensures ToLower(TrimStart(s)) == TrimStart(ToLower(s))
  {
    if s != [] {
      var l := ToLower(s);
      assert l[0] == LowerChar(s[0]);
      LowerKeepsSpace(s[0]);
      if IsSpace(s[0]) {
        assert l[1..] == ToLower(s[1..]);
        TrimStartLowerCommute(s[1..]);
      }
    }
  }

  /** Lower-casing never makes or unmakes white space. */
  lemma LowerKeepsSpace(c: char)
    ensures IsSpace(LowerChar(c)) <==> IsSpace(c)
  {
  }

  lemma {:induction false} TrimEndLowerCommute(s: string)
    ensures ToLower(TrimEnd(s)) == TrimEnd(ToLower(s))
  {
    if s != [] {
      var l := ToLower(s);
      assert l[|s| - 1] == LowerChar(s[|s| - 1]);
      LowerKeepsSpace(s[|s| - 1]);
      if IsSpace(s[|s| - 1]) {
        assert l[..|s| - 1] == ToLower(s[..|s| - 1]);
        TrimEndLowerCommute(s[..|s| - 1]);
      }
    }
  }

  // ---------------------------------------------------------------------------
  // calculateAttackDamage
  // ---------------------------------------------------------------------------

  /** The fields of a weapon record the damage rule reads. */
  datatype Weapon = Weapon(damage: Option<string>, category: Option<string>, attribute: Option<string>)

  /** The fields of a character record the damage rule reads. */
  datatype Attacker = Attacker(attributes: Option<map<string, int>>, proficientAttribute: Option<string>)

  datatype AttackDamage = AttackDamage(total: int, rolls: seq<int>, bonus: int, multiplier: int, isCrit: bool)

  /** `attributes[key] || 0` */
  function Lookup(attributes: map<string, int>, key: string): int {
    if key in attributes then attributes[key] else 0
  }

  /** The Portuguese attribute names a weapon may carry. */
  function ResolveAttributeKey(key: string): string {
    if key == "agilidade" then "agility"
    else if key == "força" then "vigor"
    else key
  }

  /** The critical multiplier: x3 for heavy weapons, x2 for the rest, x1 without a critical. */
  function CritMultiplier(category: Category, isCrit: bool): int {
    if !isCrit then 1 else if category == Pesada then 3 else 2
  }

  /** The formula a weapon rolls: its damage, or "1d4" when it has none. */
  function WeaponFormula(weapon: Weapon): DiceConfig {
    ParseDiceString(Some(OrString(weapon.damage, "1d4")))
  }

  /** The attribute bonus: 0 without a character or attributes. Proficiency adds nothing. */
  function AttributeBonus(character: Option<Attacker>, weapon: Weapon): int {
    var key := ToLower(OrString(weapon.attribute, "agility"));
    if character.Some? && character.value.attributes.Some? then
      Lookup(character.value.attributes.value, ResolveAttributeKey(key))
    else 0
  }

  /** `calculateAttackDamage(character, weapon, isCrit)`; die i uses `rng(i)`. */
  function CalculateAttackDamage(character: Option<Attacker>, weapon: Weapon, isCrit: bool, rng: Rng): (r: AttackDamage)
    ensures var config := WeaponFormula(weapon);
      && r.isCrit == isCrit
      && (r.multiplier == 1 <==> !isCrit)
      && (r.multiplier == 3 <==> isCrit && NormalizeCategory(weapon.category) == Pesada)
      && (r.multiplier == 2 <==> isCrit && NormalizeCategory(weapon.category) != Pesada)
      && |r.rolls| == (if config.count > 0 then config.count * r.multiplier else 0)
      && (forall i :: 0 <= i < |r.rolls| ==> r.rolls[i] == RollDie(rng(i), config.faces))
      && r.bonus == config.modifier + AttributeBonus(character, weapon)
      && r.total == Sum(r.rolls) + r.bonus
  {
    var config := WeaponFormula(weapon);
    var category := NormalizeCategory(weapon.category);
    var multiplier := CritMultiplier(category, isCrit);
    var bonus := config.modifier + AttributeBonus(character, weapon);
    var count := config.count * multiplier;
    assert count > 0 <==> config.count > 0 by {
      assert 1 <= multiplier <= 3;
      if config.count > 0 { assert count >= config.count; }
      else { assert count <= 0; }
    }
    var roll := RollDice(count, config.faces, rng);
    AttackDamage(roll.total + bonus, roll.rolls, bonus, multiplier, isCrit)
  }

  /** A critical rolls the same first dice as a normal hit, then more of them;
      the bonus is the same. */
  lemma CritOnlyAddsDice(character: Option<Attacker>, weapon: Weapon, rng: Rng)
    ensures var hit := CalculateAttackDamage(character, weapon, false, rng);
      var crit := CalculateAttackDamage(character, weapon, true, rng);
      && crit.bonus == hit.bonus
      && |crit.rolls| == crit.multiplier * |hit.rolls|
      && crit.rolls[..|hit.rolls|] == hit.rolls
  {
    var config := WeaponFormula(weapon);
    CritPrefix(CalculateAttackDamage(character, weapon, false, rng), CalculateAttackDamage(character, weapon, true, rng),
               config.count, config.faces, rng);
  }

  /** Two rolls of the same dice, the second with a multiplier of 2 or 3,
      agree on the first roll's dice. */
  lemma CritPrefix(hit: AttackDamage, crit: AttackDamage, count: int, faces: int, rng: Rng)
    requires hit.multiplier == 1 && (crit.multiplier == 2 || crit.multiplier == 3)
    requires |hit.rolls| == (if count > 0 then count * hit.multiplier else 0)
    requires |crit.rolls| == (if count > 0 then count * crit.multiplier else 0)
    requires forall i :: 0 <= i < |hit.rolls| ==> hit.rolls[i] == RollDie(rng(i), faces)
    requires forall i :: 0 <= i < |crit.rolls| ==> crit.rolls[i] == RollDie(rng(i), faces)
    ensures |crit.rolls| == crit.multiplier * |hit.rolls|
    ensures |hit.rolls| <= |crit.rolls| && crit.rolls[..|hit.rolls|] == hit.rolls
  {
    var n := |hit.rolls|;
    assert n <= |crit.rolls|;
    assert crit.rolls[..n] == hit.rolls;
  }

  /** A critical with any category holding a heavy word rolls three times the
      formula's dice. */
  lemma HeavyCritTriples(character: Option<Attacker>, weapon: Weapon, rng: Rng)
    requires Truthy(weapon.category)
    requires Contains(ToLower(weapon.category.value), "pesada") || Contains(ToLower(weapon.category.value), "heavy")
    ensures var r := CalculateAttackDamage(character, weapon, true, rng);
      && r.multiplier == 3
      && (WeaponFormula(weapon).count > 0 ==> |r.rolls| == 3 * WeaponFormula(weapon).count)
  {
  }

  /** The proficient attribute does not change the damage. */
  lemma ProficiencyIgnored(attributes: Option<map<string, int>>, p: Option<string>, q: Option<string>, weapon: Weapon, isCrit: bool, rng: Rng)
    ensures CalculateAttackDamage(Some(Attacker(attributes, p)), weapon, isCrit, rng)
         == CalculateAttackDamage(Some(Attacker(attributes, q)), weapon, isCrit, rng)
  {
  }

  /** The attribute key is read case-insensitively and in Portuguese. */
  lemma AttributeKeyExample(attributes: map<string, int>, damage: Option<string>, category: Option<string>)
    ensures AttributeBonus(Some(Attacker(Some(attributes), None)), Weapon(damage, category, Some("AGILIDADE")))
         == Lookup(attributes, "agility")
    ensures AttributeBonus(Some(Attacker(Some(attributes), None)), Weapon(damage, category, Some("Força")))
         == Lookup(attributes, "vigor")
    ensures AttributeBonus(Some(Attacker(Some(attributes), None)), Weapon(damage, category, None))
         == Lookup(attributes, "agility")
  {
    var a := ToLower("AGILIDADE");
    assert a == "agilidade" by {
      assert |a| == 9;
    }
    var f := ToLower("Força");
    assert f == "força" by {
      assert |f| == 5;
    }
    ToLowerOfLower("agility");
  }

  /** A weapon with a heavy category doing "1d8+2" with a critical and an
      attribute bonus of 1 rolls three d8 and adds 3. */
  lemma HeavyCritExample(attributes: map<string, int>, rng: Rng)
    requires Unit(rng)
    requires Lookup(attributes, "agility") == 1
    ensures var r := CalculateAttackDamage(Some(Attacker(Some(attributes), None)), Weapon(Some("1d8+2"), Some("Pesada"), None), true, rng);
      && r.multiplier == 3 && |r.rolls| == 3 && r.bonus == 3
      && (forall i :: 0 <= i < 3 ==> 1 <= r.rolls[i] <= 8)
      && r.total == Sum(r.rolls) + 3
  {
    var weapon := Weapon(Some("1d8+2"), Some("Pesada"), None);
    FormulaExample();
    UpperPesadaExample();
    AgilityBonusExample(attributes, weapon);
    HeavyD8Crit(Some(Attacker(Some(attributes), None)), weapon, rng);
  }

  /** A critical with a heavy one-d8-plus-2 weapon and an attribute bonus of 1. */
  lemma HeavyD8Crit(attacker: Option<Attacker>, weapon: Weapon, rng: Rng)
    requires Unit(rng)
    requires WeaponFormula(weapon) == DiceConfig(1, 8, 2, true)
    requires NormalizeCategory(weapon.category) == Pesada
    requires AttributeBonus(attacker, weapon) == 1
    ensures var r := CalculateAttackDamage(attacker, weapon, true, rng);
      && r.multiplier == 3 && |r.rolls| == 3 && r.bonus == 3
      && (forall i :: 0 <= i < 3 ==> 1 <= r.rolls[i] <= 8)
      && r.total == Sum(r.rolls) + 3
  {
    var r := CalculateAttackDamage(attacker, weapon, true, rng);
    assert r.multiplier == 3;
    assert |r.rolls| == 3;
    forall i | 0 <= i < 3
      ensures 1 <= r.rolls[i] <= 8
    {
      DieInRange(rng(i), 8);
    }
  }

  lemma AgilityBonusExample(attributes: map<string, int>, weapon: Weapon)
    requires weapon.attribute == None
    ensures AttributeBonus(Some(Attacker(Some(attributes), None)), weapon) == Lookup(attributes, "agility")
  {
    ToLowerOfLower("agility");
  }

  lemma FormulaExample()
    ensures ParseDiceString(Some("1d8+2")) == DiceConfig(1, 8, 2, true)
  {
    assert "1d8+2" == Format(1, 8, 2) by {
      assert NatToString(1) == "1" && NatToString(8) == "8" && NatToString(2) == "2";
    }
    FormatRoundTrip(1, 8, 2);
  }

  lemma UpperPesadaExample()
    ensures NormalizeCategory(Some("Pesada")) == Pesada
  {
    var lower := ToLower("Pesada");
    assert lower == "pesada" by {
      assert |lower| == 6;
    }
    ContainsFromWitness(lower, "pesada", 0);
  }
}

=== FILE: damage_system.dfy ===
/**
  The damage roll of the character sheet and the combat log
  (src/hooks/useDamageSystem.js).

  It follows the same dice rule as `CombatRules.CalculateAttackDamage`, with
  three differences: the category must be exactly "pesada" after
  lower-casing, a bonus carried by a log entry replaces the attribute bonus,
  and the attribute key is not translated from Portuguese. The result also
  carries a chat message.
 */
module DamageSystem {
  import opened JsText
  import opened Dice
  import CombatRules

  /** The fields of a character sheet the hook reads; `weapon` is
      `inventory?.weapon`, `None` when either is missing. */
  datatype Sheet = Sheet(attributes: Option<map<string, int>>, weapon: Option<CombatRules.Weapon>)

  datatype Damage = Damage(total: int, message: string, rolls: seq<int>, multiplier: int)

  /** `inventory?.weapon || {}` */
  function WeaponOf(sheet: Sheet): CombatRules.Weapon {
    if sheet.weapon.Some? then sheet.weapon.value else CombatRules.Weapon(None, None, None)
  }

  /** Only the exact (lower-cased) category "pesada" triples a critical. */
  function Multiplier(weapon: CombatRules.Weapon, isCrit: bool): int {
    if !isCrit then 1
    else if ToLower(OrString(weapon.category, "")) == "pesada" then 3
    else 2
  }

  /** `manualFormula || weapon.damage || '1d4'`, parsed. */
  function Formula(weapon: CombatRules.Weapon, manualFormula: Option<string>): DiceConfig {
    ParseDiceString(Some(OrString(manualFormula, OrString(weapon.damage, "1d4"))))
  }

  /** The manual bonus when one is given, else the weapon's attribute; then the formula's modifier. */
  function FinalBonus(sheet: Sheet, manualBonus: Option<int>, config: DiceConfig): int {
    var key := ToLower(OrString(WeaponOf(sheet).attribute, "agility"));
    var base :=
      if manualBonus.Some? then manualBonus.value
      else if sheet.attributes.Some? then CombatRules.Lookup(sheet.attributes.value, key)
      else 0;
    base + config.modifier
  }

  /** `rolls.join('+')` */
  function Join(rolls: seq<int>): (r: string)
    ensures Occurrences(r, ' ') == 0
    ensures rolls != [] ==> Occurrences(r, '+') == |rolls| - 1
  {
    if rolls == [] then ""
    else
      var head := IntToString(rolls[0]);
      IntToStringHasNoSpace(rolls[0]);
      IntToStringHasNoPlus(rolls[0]);
      if |rolls| == 1 then head
      else
        var tail := Join(rolls[1..]);
        JoinStep(head, tail);
        head + "+" + tail
  }

  /** Joining one more number adds one '+' and no space. */
  lemma JoinStep(head: string, tail: string)
    requires Occurrences(head, ' ') == 0 && Occurrences(head, '+') == 0
    ensures Occurrences(head + "+" + tail, ' ') == Occurrences(tail, ' ')
    ensures Occurrences(head + "+" + tail, '+') == Occurrences(tail, '+') + 1
  {
    OccurrencesAppend(head, "+" + tail, ' ');
    OccurrencesAppend(head, "+" + tail, '+');
    OccurrencesAppend("+", tail, ' ');
    OccurrencesAppend("+", tail, '+');
    assert head + "+" + tail == head + ("+" + tail);
  }

  lemma IntToStringHasNoPlus(n: int)
    ensures Occurrences(IntToString(n), '+') == 0
  {
    var digits := if n < 0 then NatToString(-n) else NatToString(n);
    assert forall i :: 0 <= i < |digits| ==> digits[i] != '+' by {
      forall i | 0 <= i < |digits| ensures digits[i] != '+' {
        assert IsDigit(digits[i]);
      }
    }
    OccurrencesAbsent(digits, '+');
    if n < 0 {
      OccurrencesAppend("-", digits, '+');
    }
  }

  const Prefix := "Dano: **"

  /** `` ` (Crítico x${multiplier}!)` `` on a critical. */
  function CritText(isCrit: bool, multiplier: int): string {
    if isCrit then " (Crítico x" + IntToString(multiplier) + "!)" else ""
  }

  /** `` ` + ${finalBonus}` `` when the bonus is not 0. */
  function BonusText(bonus: int): string {
    if bonus != 0 then " + " + IntToString(bonus) else ""
  }

  /** `` `Dano: **${finalTotal}** [${rollsStr}${bonusStr}]${critText}` `` */
  function Message(total: int, rolls: seq<int>, bonus: int, isCrit: bool, multiplier: int): string {
    Prefix + IntToString(total) + Tail(rolls, bonus, isCrit, multiplier)
  }

  /** The message after the total. */
  function Tail(rolls: seq<int>, bonus: int, isCrit: bool, multiplier: int): string {
    "** [" + Join(rolls) + BonusText(bonus) + "]" + CritText(isCrit, multiplier)
  }

  /** `calculateDamage(character, isCrit, manualFormula, manualBonus)`; die i uses `rng(i)`. */
  function CalculateDamage(character: Option<Sheet>, isCrit: bool, manualFormula: Option<string>, manualBonus: Option<int>, rng: Rng): (r: Option<Damage>)
    ensures r.None? <==> character.None?
    ensures r.Some? ==>
      var weapon := WeaponOf(character.value);
      var config := Formula(weapon, manualFormula);
      && (r.value.multiplier == 1 <==> !isCrit)
      && (r.value.multiplier == 3 <==> isCrit && ToLower(OrString(weapon.category, "")) == "pesada")
      && (r.value.multiplier == 2 <==> isCrit && ToLower(OrString(weapon.category, "")) != "pesada")
      && |r.value.rolls| == (if config.count > 0 then config.count * r.value.multiplier else 0)
      && (forall i :: 0 <= i < |r.value.rolls| ==> r.value.rolls[i] == RollDie(rng(i), config.faces))
      && r.value.total == Sum(r.value.rolls) + FinalBonus(character.value, manualBonus, config)
  {
    if character.None? then None
    else
      var sheet := character.value;
      var weapon := WeaponOf(sheet);
      var config := Formula(weapon, manualFormula);
      var multiplier := Multiplier(weapon, isCrit);
      var count := config.count * multiplier;
      assert count > 0 <==> config.count > 0 by {
        assert 1 <= multiplier <= 3;
        if config.count > 0 { assert count >= config.count; }
        else { assert count <= 0; }
      }
      Some(Assemble(weapon, FinalBonus(sheet, manualBonus, config), isCrit, manualFormula, rng))
  }

  /** The damage from a weapon and a final bonus. */
  function Assemble(weapon: CombatRules.Weapon, bonus: int, isCrit: bool, manualFormula: Option<string>, rng: Rng): Damage {
    var config := Formula(weapon, manualFormula);
    var multiplier := Multiplier(weapon, isCrit);
    var roll := RollDice(config.count * multiplier, config.faces, rng);
    Damage(roll.total + bonus, Message(roll.total + bonus, roll.rolls, bonus, isCrit, multiplier), roll.rolls, multiplier)
  }

  // ---------------------------------------------------------------------------
  // The message
  // ---------------------------------------------------------------------------

  /** The number after "Dano: **" reads back as the total. */
  lemma MessageShowsTotal(character: Option<Sheet>, isCrit: bool, manualFormula: Option<string>, manualBonus: Option<int>, rng: Rng)
    requires character.Some?
    ensures var r := CalculateDamage(character, isCrit, manualFormula, manualBonus, rng).value;
      && StartsWith(r.message, Prefix)
      && ParseInt(r.message[|Prefix|..]) == Some(r.total)
  {
    var weapon := WeaponOf(character.value);
    var bonus := FinalBonus(character.value, manualBonus, Formula(weapon, manualFormula));
    DamageOfParts(character.value, weapon, bonus, isCrit, manualFormula, manualBonus, rng);
    var r := Assemble(weapon, bonus, isCrit, manualFormula, rng);
    assert r.message == Message(r.total, r.rolls, bonus, isCrit, r.multiplier);
    MessageTotal(r.total, r.rolls, bonus, isCrit, r.multiplier);
  }

  lemma MessageTotal(total: int, rolls: seq<int>, bonus: int, isCrit: bool, multiplier: int)
    ensures var m := Message(total, rolls, bonus, isCrit, multiplier);
      StartsWith(m, Prefix) && ParseInt(m[|Prefix|..]) == Some(total)
  {
    var rest := Tail(rolls, bonus, isCrit, multiplier);
    TailStartsWithStar(rolls, bonus, isCrit, multiplier);
    TotalReadsBack(total, rest);
  }

  lemma TailStartsWithStar(rolls: seq<int>, bonus: int, isCrit: bool, multiplier: int)
    ensures var rest := Tail(rolls, bonus, isCrit, multiplier);
      rest != [] && rest[0] == '*'
  {
    var rest := Tail(rolls, bonus, isCrit, multiplier);
    var x := "** [" + Join(rolls);
    assert x[0] == '*';
    var y := x + BonusText(bonus);
    assert y[0] == '*';
    var z := y + "]";
    assert z[0] == '*';
    assert rest == z + CritText(isCrit, multiplier);
  }

  lemma TotalReadsBack(total: int, rest: string)
    requires rest != [] && rest[0] == '*'
    ensures var m := Prefix + IntToString(total) + rest;
      StartsWith(m, Prefix) && ParseInt(m[|Prefix|..]) == Some(total)
  {
    var t := IntToString(total);
    var m := Prefix + t + rest;
    assert m[..|Prefix|] == Prefix;
    assert m[|Prefix|..] == t + rest;
    ParseIntPrefix(total, rest);
  }

  /** The message ends with ")" exactly on a critical, and with "]" otherwise. */
  lemma MessageEnding(character: Option<Sheet>, isCrit: bool, manualFormula: Option<string>, manualBonus: Option<int>, rng: Rng)
    requires character.Some?
    ensures var m := CalculateDamage(character, isCrit, manualFormula, manualBonus, rng).value.message;
      && m != []
      && (m[|m| - 1] == ')' <==> isCrit)
      && (m[|m| - 1] == ']' <==> !isCrit)
  {
  }

  /** The message has two spaces, two more when the bonus is shown (it is not 0)
      and two more on a critical. */
  lemma MessageSpaces(total: int, rolls: seq<int>, bonus: int, isCrit: bool, multiplier: int)
    ensures Occurrences(Message(total, rolls, bonus, isCrit, multiplier), ' ')
         == 2 + (if bonus != 0 then 2 else 0) + (if isCrit then 2 else 0)
  {
    var t := IntToString(total);
    IntToStringHasNoSpace(total);
    LiteralSpaces();
    OccurrencesAppend(Prefix, t, ' ');
    OccurrencesAppend(Prefix + t, Tail(rolls, bonus, isCrit, multiplier), ' ');
    TailSpaces(rolls, bonus, isCrit, multiplier);
  }

  lemma TailSpaces(rolls: seq<int>, bonus: int, isCrit: bool, multiplier: int)
    ensures Occurrences(Tail(rolls, bonus, isCrit, multiplier), ' ')
         == 1 + (if bonus != 0 then 2 else 0) + (if isCrit then 2 else 0)
  {
    var j := Join(rolls);
    var b := BonusText(bonus);
    var c := CritText(isCrit, multiplier);
    LiteralSpaces();
    BonusSpaces(bonus);
    CritSpaces(isCrit, multiplier);
    OccurrencesAppend("** [", j, ' ');
    OccurrencesAppend("** [" + j, b, ' ');
    OccurrencesAppend("** [" + j + b, "]", ' ');
    OccurrencesAppend("** [" + j + b + "]", c, ' ');
  }

  lemma LiteralSpaces()
    ensures Occurrences(Prefix, ' ') == 1
    ensures Occurrences("** [", ' ') == 1
    ensures Occurrences("]", ' ') == 0
  {
    assert Prefix[1..][1..][1..][1..][1..] == " **";
    assert Occurrences(" **", ' ') == 1;
  }

  lemma BonusSpaces(bonus: int)
    ensures Occurrences(BonusText(bonus), ' ') == if bonus != 0 then 2 else 0
  {
    if bonus != 0 {
      IntToStringHasNoSpace(bonus);
      OccurrencesAppend(" + ", IntToString(bonus), ' ');
    }
  }

  lemma CritSpaces(isCrit: bool, multiplier: int)
    ensures Occurrences(CritText(isCrit, multiplier), ' ') == if isCrit then 2 else 0
  {
    if isCrit {
      var open := " (Crítico x";
      OpenSpaces();
      IntToStringHasNoSpace(multiplier);
      CloseSpaces();
      OccurrencesAppend(open, IntToString(multiplier), ' ');
      OccurrencesAppend(open + IntToString(multiplier), "!)", ' ');
    }
  }

  lemma OpenSpaces()
    ensures Occurrences(" (Crítico x", ' ') == 2
  {
    assert " (Crítico x" == " (Cr" + "ítico x";
    OccurrencesAppend(" (Cr", "ítico x", ' ');
    WordSpaces();
  }

  lemma WordSpaces()
    ensures Occurrences(" (Cr", ' ') == 1
    ensures Occurrences("ítico x", ' ') == 1
  {
    assert "ítico x" == "ítico" + " x";
    OccurrencesAppend("ítico", " x", ' ');
  }

  lemma CloseSpaces()
    ensures Occurrences("!)", ' ') == 0
  {
  }

  /** The bonus is shown exactly when the final bonus is not 0: with it the
      message has two more spaces and one more `+` than the dice joined by
      `+` alone. */
  lemma MessageShowsBonus(character: Option<Sheet>, isCrit: bool, manualFormula: Option<string>, manualBonus: Option<int>, rng: Rng)
    requires character.Some?
    ensures var r := CalculateDamage(character, isCrit, manualFormula, manualBonus, rng).value;
      var bonus := FinalBonus(character.value, manualBonus, Formula(WeaponOf(character.value), manualFormula));
      && Occurrences(r.message, ' ') == 2 + (if bonus != 0 then 2 else 0) + (if isCrit then 2 else 0)
      && Occurrences(r.message, '+') == (if r.rolls == [] then 0 else |r.rolls| - 1) + (if bonus != 0 then 1 else 0)
  {
    var weapon := WeaponOf(character.value);
    var bonus := FinalBonus(character.value, manualBonus, Formula(weapon, manualFormula));
    DamageOfParts(character.value, weapon, bonus, isCrit, manualFormula, manualBonus, rng);
    var r := Assemble(weapon, bonus, isCrit, manualFormula, rng);
    assert r.message == Message(r.total, r.rolls, bonus, isCrit, r.multiplier);
    MessageSpaces(r.total, r.rolls, bonus, isCrit, r.multiplier);
    MessagePluses(r.total, r.rolls, bonus, isCrit, r.multiplier);
  }

  /** The message's `+` signs: one between neighbouring dice, and one before a non-zero bonus. */
  lemma MessagePluses(total: int, rolls: seq<int>, bonus: int, isCrit: bool, multiplier: int)
    ensures Occurrences(Message(total, rolls, bonus, isCrit, multiplier), '+')
         == (if rolls == [] then 0 else |rolls| - 1) + (if bonus != 0 then 1 else 0)
  {
    var t := IntToString(total);
    IntToStringHasNoPlus(total);
    LiteralPluses();
    OccurrencesAppend(Prefix, t, '+');
    OccurrencesAppend(Prefix + t, Tail(rolls, bonus, isCrit, multiplier), '+');
    TailPluses(rolls, bonus, isCrit, multiplier);
  }

  lemma TailPluses(rolls: seq<int>, bonus: int, isCrit: bool, multiplier: int)
    ensures Occurrences(Tail(rolls, bonus, isCrit, multiplier), '+')
         == (if rolls == [] then 0 else |rolls| - 1) + (if bonus != 0 then 1 else 0)
  {
    var j := Join(rolls);
    var b := BonusText(bonus);
    var c := CritText(isCrit, multiplier);
    LiteralPluses();
    BonusPluses(bonus);
    CritPluses(isCrit, multiplier);
    OccurrencesAppend("** [", j, '+');
    OccurrencesAppend("** [" + j, b, '+');
    OccurrencesAppend("** [" + j + b, "]", '+');
    OccurrencesAppend("** [" + j + b + "]", c, '+');
  }

  lemma LiteralPluses()
    ensures Occurrences(Prefix, '+') == 0
    ensures Occurrences("** [", '+') == 0
    ensures Occurrences("]", '+') == 0
    ensures Occurrences(" (Crítico x", '+') == 0
    ensures Occurrences("!)", '+') == 0
  {
    PrefixPluses();
    OpenPluses();
    ShortPluses();
  }

  lemma ShortPluses()
    ensures Occurrences("** [", '+') == 0
    ensures Occurrences("]", '+') == 0
    ensures Occurrences("!)", '+') == 0
  {
    assert '+' !in "** [";
    NotIn("** [", '+');
  }

  lemma PrefixPluses()
    ensures Occurrences(Prefix, '+') == 0
  {
    assert '+' !in Prefix;
    NotIn(Prefix, '+');
  }

  lemma OpenPluses()
    ensures Occurrences(" (Crítico x", '+') == 0
  {
    assert '+' !in " (Crítico x";
    NotIn(" (Crítico x", '+');
  }

  lemma NotIn(s: string, c: char)
    requires c !in s
    ensures Occurrences(s, c) == 0
  {
    OccurrencesAbsent(s, c);
  }

  lemma BonusPluses(bonus: int)
    ensures Occurrences(BonusText(bonus), '+') == if bonus != 0 then 1 else 0
  {
    if bonus != 0 {
      IntToStringHasNoPlus(bonus);
      OccurrencesAppend(" + ", IntToString(bonus), '+');
    }
  }

  lemma CritPluses(isCrit: bool, multiplier: int)
    ensures Occurrences(CritText(isCrit, multiplier), '+') == 0
  {
    if isCrit {
      var open := " (Crítico x";
      LiteralPluses();
      IntToStringHasNoPlus(multiplier);
      OccurrencesAppend(open, IntToString(multiplier), '+');
      OccurrencesAppend(open + IntToString(multiplier), "!)", '+');
    }
  }

  // ---------------------------------------------------------------------------
  // Against the general rule
  // ---------------------------------------------------------------------------

  /** A log entry's bonus replaces the attribute bonus: the attributes do not matter. */
  lemma ManualBonusIgnoresAttributes(a: Option<map<string, int>>, b: Option<map<string, int>>, weapon: Option<CombatRules.Weapon>,
                                     isCrit: bool, manualFormula: Option<string>, bonus: int, rng: Rng)
    ensures CalculateDamage(Some(Sheet(a, weapon)), isCrit, manualFormula, Some(bonus), rng)
         == CalculateDamage(Some(Sheet(b, weapon)), isCrit, manualFormula, Some(bonus), rng)
  {
    var config := Formula(WeaponOf(Sheet(a, weapon)), manualFormula);
    assert WeaponOf(Sheet(a, weapon)) == WeaponOf(Sheet(b, weapon));
    assert FinalBonus(Sheet(a, weapon), Some(bonus), config) == FinalBonus(Sheet(b, weapon), Some(bonus), config);
    SameWeaponSameDamage(Sheet(a, weapon), Sheet(b, weapon), isCrit, manualFormula, Some(bonus), rng);
  }

  /** Two sheets with the same weapon and the same final bonus roll the same damage. */
  lemma SameWeaponSameDamage(s: Sheet, t: Sheet, isCrit: bool, manualFormula: Option<string>, manualBonus: Option<int>, rng: Rng)
    requires WeaponOf(s) == WeaponOf(t)
    requires var config := Formula(WeaponOf(s), manualFormula);
      FinalBonus(s, manualBonus, config) == FinalBonus(t, manualBonus, config)
    ensures CalculateDamage(Some(s), isCrit, manualFormula, manualBonus, rng)
         == CalculateDamage(Some(t), isCrit, manualFormula, manualBonus, rng)
  {
    var weapon := WeaponOf(s);
    var bonus := FinalBonus(s, manualBonus, Formula(weapon, manualFormula));
    DamageOfParts(s, weapon, bonus, isCrit, manualFormula, manualBonus, rng);
    DamageOfParts(t, weapon, bonus, isCrit, manualFormula, manualBonus, rng);
  }

  /** The damage of a sheet depends on it only through its weapon and its final bonus. */
  lemma DamageOfParts(sheet: Sheet, weapon: CombatRules.Weapon, bonus: int, isCrit: bool, manualFormula: Option<string>, manualBonus: Option<int>, rng: Rng)
    requires WeaponOf(sheet) == weapon && FinalBonus(sheet, manualBonus, Formula(weapon, manualFormula)) == bonus
    ensures CalculateDamage(Some(sheet), isCrit, manualFormula, manualBonus, rng) == Some(Assemble(weapon, bonus, isCrit, manualFormula, rng))
  {
  }

  /** Without a manual formula or bonus, on a weapon whose category the two
      rules class alike and whose attribute key needs no translation, this
      roll and `CombatRules.CalculateAttackDamage` agree on dice, total and
      multiplier. */
  lemma AgreesWithCombatRules(attributes: Option<map<string, int>>, weapon: CombatRules.Weapon, isCrit: bool, rng: Rng)
    requires (CombatRules.NormalizeCategory(weapon.category) == CombatRules.Pesada)
         <==> ToLower(OrString(weapon.category, "")) == "pesada"
    requires var key := ToLower(OrString(weapon.attribute, "agility"));
      CombatRules.ResolveAttributeKey(key) == key
    ensures var d := CalculateDamage(Some(Sheet(attributes, Some(weapon))), isCrit, None, None, rng).value;
      var a := CombatRules.CalculateAttackDamage(Some(CombatRules.Attacker(attributes, None)), weapon, isCrit, rng);
      && d.rolls == a.rolls
      && d.total == a.total
      && d.multiplier == a.multiplier
  {
    var d := CalculateDamage(Some(Sheet(attributes, Some(weapon))), isCrit, None, None, rng).value;
    var a := CombatRules.CalculateAttackDamage(Some(CombatRules.Attacker(attributes, None)), weapon, isCrit, rng);
    assert d.multiplier == a.multiplier;
    assert d.rolls == a.rolls;
  }

  /** The two rules disagree on a critical with a weapon of category "heavy":
      the general rule triples it, this one doubles it. */
  lemma HeavyWordDiverges(attributes: Option<map<string, int>>, rng: Rng)
    ensures var weapon := CombatRules.Weapon(None, Some("heavy"), None);
      && CalculateDamage(Some(Sheet(attributes, Some(weapon))), true, None, None, rng).value.multiplier == 2
      && CombatRules.CalculateAttackDamage(Some(CombatRules.Attacker(attributes, None)), weapon, true, rng).multiplier == 3
  {
    var h := "heavy";
    CombatRules.ToLowerOfLower(h);
    CombatRules.ContainsFromWitness(h, h, 0);
  }
}

=== FILE: derived_stats.dfy ===
/**
  The stats the game master's combat carousel shows for each participant
  (src/components/gm/CombatTrackerCarousel.jsx): armor class, maximum HP and
  maximum Chi computed from the character record, then replaced by the
  manual values stored on the record when there are any.

  The clan, innate-body and tier tables live in files that are not part of
  this model; they are parameters (`Tables`), and their multipliers are
  exact reals.
 */
module DerivedStats {
  import opened JsText
  import ArmorTypes
  import CombatRecord

  /** A clan of `CLANS_DATA`. */
  datatype Clan = Clan(baseHp: Option<int>)

  /** An innate body: `effects.stat_bonus.baseHp` and `effects.body_refinement_multiplier_bonus`. */
  datatype InnateBody = InnateBody(id: string, hpBonus: Option<int>, refinementBonus: Option<real>)

  /** A level of `BODY_REFINEMENT_LEVELS` or `CULTIVATION_STAGES`. */
  datatype Tier = Tier(id: int, multiplier: Option<real>)

  /** A level of `MASTERY_LEVELS`. */
  datatype MasteryTier = MasteryTier(id: int, bonus: Option<int>)

  datatype Tables = Tables(
    clans: map<string, Clan>,
    innateBodies: seq<InnateBody>,
    refinementLevels: seq<Tier>,
    cultivationStages: seq<Tier>,
    masteryLevels: seq<MasteryTier>)

  /** The stored stats of a character (`stats`). */
  datatype RawStats = RawStats(
    currentHp: Option<int>, currentChi: Option<int>,
    manualMaxHp: Option<int>, manualMaxChi: Option<int>, manualArmorClass: Option<int>)

  const NoStats := RawStats(None, None, None, None, None)

  /** The fields of a character record the carousel reads; `armorType` is `inventory?.armor?.type`. */
  datatype Character = Character(
    id: string,
    stats: Option<RawStats>,
    armorType: Option<string>,
    attributes: map<string, int>,
    clanId: Option<string>,
    innateBodyId: Option<string>,
    bodyRefinementLevel: Option<int>,
    cultivationStage: Option<int>,
    masteryLevel: Option<int>)

  datatype Computed = Computed(maxHp: int, maxChi: int, armorClass: int)

  /** The stats shown on a card. */
  datatype CardStats = CardStats(currentHp: int, currentChi: int, maxHp: int, maxChi: int, armorClass: int)

  datatype Card = Card(isTurn: bool, stats: CardStats)

  // ---------------------------------------------------------------------------
  // Lookups
  // ---------------------------------------------------------------------------

  function Attribute(attributes: map<string, int>, key: string): int {
    if key in attributes then attributes[key] else 0
  }

  /** The keys the lookups compare: `c.id`, `b.id`, `l.id` and `m.id`. */
  function CharacterId(c: Character): string { c.id }
  function BodyId(b: InnateBody): string { b.id }
  function TierId(l: Tier): int { l.id }
  function MasteryId(m: MasteryTier): int { m.id }

  /** `INNATE_BODIES.find(b => b.id === innateBodyId)`: nothing without an id. */
  function FindBody(bodies: seq<InnateBody>, id: Option<string>): (r: Option<InnateBody>)
    ensures id.None? ==> r.None?
    ensures id.Some? ==> r == Find(bodies, BodyId, id.value)
  {
    if id.None? then None else Find(bodies, BodyId, id.value)
  }

  /** `tier?.multiplier || 1`, for the first tier whose id is the level (0 when unset). */
  function TierMultiplier(tiers: seq<Tier>, level: Option<int>): (r: real)
    ensures (forall k :: 0 <= k < |tiers| ==> tiers[k].id != OrNumber(level, 0)) ==> r == 1.0
  {
    match Find(tiers, TierId, OrNumber(level, 0))
    case Some(t) => OrReal(t.multiplier, 1.0)
    case None => 1.0
  }

  /** The first tier whose id is the level gives the multiplier, 1 when its own is unset or 0. */
  lemma TierMultiplierOfFirst(tiers: seq<Tier>, level: Option<int>, k: nat)
    requires k < |tiers| && tiers[k].id == OrNumber(level, 0)
    requires forall j :: 0 <= j < k ==> tiers[j].id != OrNumber(level, 0)
    ensures TierMultiplier(tiers, level) == OrReal(tiers[k].multiplier, 1.0)
  {
    var f := Find(tiers, TierId, OrNumber(level, 0));
    var i :| 0 <= i < |tiers| && tiers[i] == f.value && forall j :: 0 <= j < i ==> TierId(tiers[j]) != OrNumber(level, 0);
    assert i == k;
  }

  // ---------------------------------------------------------------------------
  // calculateDynamicStats
  // ---------------------------------------------------------------------------

  /** The armor class rule: 10 + agility without a base, else base + agility + penalty. */
  function ArmorClass(c: Character): (ac: int)
    ensures var armor := ArmorTypes.Armor(OrString(c.armorType, "none"));
      var agility := Attribute(c.attributes, "agility");
      && (armor.baseArmorClass.None? ==> ac == 10 + agility)
      && (armor.baseArmorClass.Some? ==> ac == armor.baseArmorClass.value + agility + armor.agilityPenalty)
  {
    var armor := ArmorTypes.Armor(OrString(c.armorType, "none"));
    var agility := Attribute(c.attributes, "agility");
    if armor.baseArmorClass.Some? then armor.baseArmorClass.value + agility + OrNumber(Some(armor.agilityPenalty), 0)
    else 10 + agility
  }

  /** The base HP: the clan's (5 without one) plus the innate body's bonus. */
  function BaseHp(c: Character, t: Tables): int {
    var clanHp := if c.clanId.Some? && c.clanId.value in t.clans then OrNumber(t.clans[c.clanId.value].baseHp, 5) else 5;
    var bonus := match FindBody(t.innateBodies, c.innateBodyId)
      case Some(b) => OrNumber(b.hpBonus, 0)
      case None => 0;
    clanHp + bonus
  }

  /** The refinement multiplier: the tier's (1 without one) plus the innate body's bonus. */
  function RefinementMultiplier(c: Character, t: Tables): real {
    var bonus := match FindBody(t.innateBodies, c.innateBodyId)
      case Some(b) => OrReal(b.refinementBonus, 0.0)
      case None => 0.0;
    TierMultiplier(t.refinementLevels, c.bodyRefinementLevel) + bonus
  }

  /** `Math.floor(base * multiplier)` */
  function Scaled(base: int, multiplier: real): int {
    (base as real * multiplier).Floor
  }

  function MaxHp(c: Character, t: Tables): int {
    Scaled(BaseHp(c, t) + Attribute(c.attributes, "vigor"), RefinementMultiplier(c, t))
  }

  function MasteryBonus(c: Character, t: Tables): int {
    match Find(t.masteryLevels, MasteryId, OrNumber(c.masteryLevel, 0))
    case Some(m) => OrNumber(m.bonus, 0)
    case None => 0
  }

  function MaxChi(c: Character, t: Tables): int {
    Scaled(5 + Attribute(c.attributes, "discipline"), TierMultiplier(t.cultivationStages, c.cultivationStage))
      + MasteryBonus(c, t)
  }

  /** `calculateDynamicStats()`: 10 for everything without a character record;
      otherwise maximum HP is the floor of (base HP + vigor) times the
      refinement multiplier, and maximum Chi the floor of (5 + discipline)
      times the cultivation multiplier, plus the mastery bonus. */
  function Compute(record: Option<Character>, t: Tables): (r: Computed)
    ensures record.None? ==> r == Computed(10, 10, 10)
    ensures record.Some? ==> r.armorClass == ArmorClass(record.value)
    ensures record.Some? ==>
      var c := record.value;
      && r.maxHp == ((BaseHp(c, t) + Attribute(c.attributes, "vigor")) as real * RefinementMultiplier(c, t)).Floor
      && r.maxChi == ((5 + Attribute(c.attributes, "discipline")) as real
                       * TierMultiplier(t.cultivationStages, c.cultivationStage)).Floor + MasteryBonus(c, t)
  {
    if record.None? then Computed(10, 10, 10)
    else Computed(MaxHp(record.value, t), MaxChi(record.value, t), ArmorClass(record.value))
  }

  /** The manual value when one is stored, else the computed one. */
  function Prefer(manual: Option<int>, computed: int): (r: int)
    ensures manual.Some? ==> r == manual.value
    ensures manual.None? ==> r == computed
  {
    if manual.Some? then manual.value else computed
  }

  /** The `stats` record of a card. */
  function Stats(record: Option<Character>, t: Tables): (r: CardStats)
    ensures var raw := if record.Some? && record.value.stats.Some? then record.value.stats.value else NoStats;
      var computed := Compute(record, t);
      && r.currentHp == OrNumber(raw.currentHp, 0)
      && r.currentChi == OrNumber(raw.currentChi, 0)
      && (raw.manualMaxHp.Some? ==> r.maxHp == raw.manualMaxHp.value)
      && (raw.manualMaxHp.None? ==> r.maxHp == computed.maxHp)
      && (raw.manualMaxChi.Some? ==> r.maxChi == raw.manualMaxChi.value)
      && (raw.manualMaxChi.None? ==> r.maxChi == computed.maxChi)
      && (raw.manualArmorClass.Some? ==> r.armorClass == raw.manualArmorClass.value)
      && (raw.manualArmorClass.None? ==> r.armorClass == computed.armorClass)
  {
    var raw := if record.Some? && record.value.stats.Some? then record.value.stats.value else NoStats;
    var computed := Compute(record, t);
    CardStats(
      OrNumber(raw.currentHp, 0),
      OrNumber(raw.currentChi, 0),
      Prefer(raw.manualMaxHp, computed.maxHp),
      Prefer(raw.manualMaxChi, computed.maxChi),
      Prefer(raw.manualArmorClass, computed.armorClass))
  }

  /** `idx === currentIdx && combatStatus === 'active'` */
  predicate IsTurn(idx: int, currentIdx: int, status: CombatRecord.Status) {
    idx == currentIdx && status == CombatRecord.Active
  }

  /** The cards of the carousel, one per participant in turn order. */
  function Cards(turnOrder: seq<CombatRecord.Participant>, currentIdx: int, status: CombatRecord.Status,
                 all: seq<Character>, t: Tables): (r: seq<Card>)
    ensures |r| == |turnOrder|
    ensures forall k :: 0 <= k < |r| ==> r[k].stats == Stats(Find(all, CharacterId, turnOrder[k].characterId), t)
    ensures forall k :: 0 <= k < |r| ==> (r[k].isTurn <==> k == currentIdx && status == CombatRecord.Active)
  {
    seq(|turnOrder|, k requires 0 <= k < |turnOrder| =>
      Card(IsTurn(k, currentIdx, status), Stats(Find(all, CharacterId, turnOrder[k].characterId), t)))
  }

  // ---------------------------------------------------------------------------
  // Properties
  // ---------------------------------------------------------------------------

  /** A participant without a character record shows 10 for every maximum
      and 0 for the current values. */
  lemma NoRecordDefaults(t: Tables)
    ensures Stats(None, t) == CardStats(0, 0, 10, 10, 10)
  {
  }

  /** An armor id the table does not know counts as no armor. */
  lemma UnknownArmorIsNone(c: Character)
    requires c.armorType.Some? && c.armorType.value !in {"none", "medium", "heavy"}
    ensures ArmorClass(c) == 10 + Attribute(c.attributes, "agility")
  {
    ArmorTypes.UnknownIsNone(c.armorType.value);
  }

  /** The armor classes of the table: 10, 12 and 12 over agility; medium and
      heavy armor give the same armor class. */
  lemma ArmorClassByType(c: Character)
    ensures c.armorType.None? ==> ArmorClass(c) == 10 + Attribute(c.attributes, "agility")
    ensures c.armorType == Some("medium") ==> ArmorClass(c) == 12 + Attribute(c.attributes, "agility")
    ensures c.armorType == Some("heavy") ==> ArmorClass(c) == 12 + Attribute(c.attributes, "agility")
  {
    ArmorTypes.ArmorOfKnownIds();
  }

  /** Without a clan, an innate body or a refinement tier, maximum HP is
      5 + vigor: the clan default and a multiplier of 1. */
  lemma DefaultMaxHp(c: Character, t: Tables)
    requires c.clanId.None? && c.innateBodyId.None?
    requires forall k :: 0 <= k < |t.refinementLevels| ==> t.refinementLevels[k].id != OrNumber(c.bodyRefinementLevel, 0)
    ensures MaxHp(c, t) == 5 + Attribute(c.attributes, "vigor")
    ensures Compute(Some(c), t).maxHp == 5 + Attribute(c.attributes, "vigor")
  {
    assert BaseHp(c, t) == 5;
    assert RefinementMultiplier(c, t) == 1.0;
    UnitScale(5 + Attribute(c.attributes, "vigor"));
  }

  /** Without a cultivation stage or a mastery level, maximum Chi is 5 + discipline. */
  lemma DefaultMaxChi(c: Character, t: Tables)
    requires forall k :: 0 <= k < |t.cultivationStages| ==> t.cultivationStages[k].id != OrNumber(c.cultivationStage, 0)
    requires forall k :: 0 <= k < |t.masteryLevels| ==> t.masteryLevels[k].id != OrNumber(c.masteryLevel, 0)
    ensures MaxChi(c, t) == 5 + Attribute(c.attributes, "discipline")
    ensures Compute(Some(c), t).maxChi == 5 + Attribute(c.attributes, "discipline")
  {
    assert MasteryBonus(c, t) == 0;
    UnitScale(5 + Attribute(c.attributes, "discipline"));
  }

  lemma UnitScale(n: int)
    ensures Scaled(n, 1.0) == n
  {
  }

  /** Maximum HP never falls when vigor rises, for a non-negative multiplier. */
  lemma MaxHpMonotone(c: Character, t: Tables, more: int)
    requires RefinementMultiplier(c, t) >= 0.0
    requires more >= Attribute(c.attributes, "vigor")
    ensures MaxHp(c, t) <= MaxHp(c.(attributes := c.attributes["vigor" := more]), t)
  {
    var d := c.(attributes := c.attributes["vigor" := more]);
    assert Attribute(d.attributes, "vigor") == more;
    assert BaseHp(d, t) == BaseHp(c, t);
    assert RefinementMultiplier(d, t) == RefinementMultiplier(c, t);
    ScaledFloorMonotone(BaseHp(c, t) + Attribute(c.attributes, "vigor"), BaseHp(d, t) + Attribute(d.attributes, "vigor"),
                        RefinementMultiplier(c, t));
  }

  /** Maximum Chi never falls when discipline rises, for a non-negative multiplier. */
  lemma MaxChiMonotone(c: Character, t: Tables, more: int)
    requires TierMultiplier(t.cultivationStages, c.cultivationStage) >= 0.0
    requires more >= Attribute(c.attributes, "discipline")
    ensures MaxChi(c, t) <= MaxChi(c.(attributes := c.attributes["discipline" := more]), t)
  {
    var d := c.(attributes := c.attributes["discipline" := more]);
    var m := TierMultiplier(t.cultivationStages, c.cultivationStage);
    assert Attribute(d.attributes, "discipline") == more;
    assert MasteryBonus(d, t) == MasteryBonus(c, t);
    assert d.cultivationStage == c.cultivationStage;
    ScaledFloorMonotone(5 + Attribute(c.attributes, "discipline"), 5 + more, m);
  }

  lemma ScaledFloorMonotone(a: int, b: int, m: real)
    requires a <= b && m >= 0.0
    ensures Scaled(a, m) <= Scaled(b, m)
  {
    var x, y := a as real, b as real;
    assert y * m - x * m == (y - x) * m;
    RealProductNonNegative(y - x, m);
  }

  lemma RealProductNonNegative(x: real, y: real)
    requires x >= 0.0 && y >= 0.0
    ensures x * y >= 0.0
  {
  }

  /** The current values come from the record alone: no table changes them. */
  lemma CurrentNotRecomputed(record: Option<Character>, t: Tables, u: Tables)
    ensures Stats(record, t).currentHp == Stats(record, u).currentHp
    ensures Stats(record, t).currentChi == Stats(record, u).currentChi
  {
  }

  /** At most one card is the turn's, and one is exactly when the combat is
      active and the index lies in the roster. */
  lemma OneTurnCard(turnOrder: seq<CombatRecord.Participant>, currentIdx: int, status: CombatRecord.Status,
                    all: seq<Character>, t: Tables)
    ensures var cards := Cards(turnOrder, currentIdx, status, all, t);
      && (forall i, j :: 0 <= i < j < |cards| && cards[i].isTurn ==> !cards[j].isTurn)
      && ((exists k :: 0 <= k < |cards| && cards[k].isTurn)
          <==> status == CombatRecord.Active && 0 <= currentIdx < |turnOrder|)
  {
    var cards := Cards(turnOrder, currentIdx, status, all, t);
    if status == CombatRecord.Active && 0 <= currentIdx < |turnOrder| {
      assert cards[currentIdx].isTurn;
    }
  }
}

=== FILE: dice.dfy ===
/**
  Dice formulas and dice rolls (src/utils/dice.js).

  A formula such as "2d8+2" is read by the regular expression
  `^(\d+)d(\d+)([+-]\d+)?$` after lower-casing and removing all white space.
  `MatchFormula` is a left-to-right reader of that expression; the ghost
  predicate `Groups` states the expression itself, and the lemmas
  `MatchGroups` and `MatchSound` show that the two agree.

  Randomness is a stream `rng` of numbers in [0, 1): `rng(i)` is the value of
  the i-th call of `Math.random()`.
 */
module Dice {
  import opened JsText

  datatype DiceConfig = DiceConfig(count: int, faces: int, modifier: int, isValid: bool)

  /** What every non-formula reads as: one twenty-sided die, no modifier. */
  const Fallback := DiceConfig(1, 20, 0, false)

  /** `s.toLowerCase().replace(/\s/g, '')` */
  function Clean(s: string): string {
    StripSpaces(ToLower(s))
  }

  // ---------------------------------------------------------------------------
  // The regular expression
  // ---------------------------------------------------------------------------

  /** The optional third group without its `?`: a sign and at least one digit. */
  predicate IsSignedDigits(m: string) {
    |m| >= 2 && (m[0] == '+' || m[0] == '-') && AllDigits(m[1..])
  }

  predicate IsModifierGroup(m: string) {
    m == [] || IsSignedDigits(m)
  }

  /** `parseInt` of the third group, or 0 when the group did not take part. */
  function GroupValue(m: string): int
    requires IsModifierGroup(m)
  {
    if m == [] then 0
    else if m[0] == '-' then -(Value(m[1..]) as int)
    else Value(m[1..])
  }

  /** `c` matches `^(\d+)d(\d+)([+-]\d+)?$` with the groups `a`, `b` and `m`
      (`m` empty when the optional group is absent). */
  ghost predicate Groups(c: string, a: string, b: string, m: string) {
    && a != [] && AllDigits(a)
    && b != [] && AllDigits(b)
    && IsModifierGroup(m)
    && c == a + "d" + b + m
  }

  ghost predicate MatchesFormula(c: string) {
    exists a, b, m :: Groups(c, a, b, m)
  }

  /** Reads the three groups of a cleaned formula; `None` when it does not match. */
  function MatchFormula(c: string): Option<DiceConfig> {
    var i := DigitRun(c);
    if i == 0 || i == |c| || c[i] != 'd' then None
    else
      var rest := c[i + 1..];
      var j := DigitRun(rest);
      var tail := rest[j..];
      if j == 0 then None
      else if tail == [] then Some(DiceConfig(Value(c[..i]), Value(rest[..j]), 0, true))
      else if IsSignedDigits(tail) then Some(DiceConfig(Value(c[..i]), Value(rest[..j]), GroupValue(tail), true))
      else None
  }

  /** Every string the expression matches is read with exactly its groups' values. */
  lemma MatchGroups(c: string, a: string, b: string, m: string)
    requires Groups(c, a, b, m)
    ensures MatchFormula(c) == Some(DiceConfig(Value(a), Value(b), GroupValue(m), true))
  {
    var after := "d" + b + m;
    assert c == a + after;
    SplitsAt(a, after);
    var i := DigitRun(c);
    assert i == |a| && c[..i] == a && c[i..] == after;
    assert c[i] == 'd';
    var rest := c[i + 1..];
    assert rest == b + m;
    SplitsAt(b, m);
    var j := DigitRun(rest);
    assert j == |b| && rest[..j] == b && rest[j..] == m;
    ShapeRead(c, i, rest, j);
  }

  /** Once the two digit runs are found, the reader returns their values. */
  lemma ShapeRead(c: string, i: nat, rest: string, j: nat)
    requires i == DigitRun(c) && 0 < i < |c| && c[i] == 'd' && rest == c[i + 1..]
    requires j == DigitRun(rest) && 0 < j && IsModifierGroup(rest[j..])
    ensures MatchFormula(c) == Some(DiceConfig(Value(c[..i]), Value(rest[..j]), GroupValue(rest[j..]), true))
  {
  }

  /** A digit run followed by a non-digit splits where the run ends. */
  lemma SplitsAt(d: string, rest: string)
    requires AllDigits(d)
    requires rest == [] || !IsDigit(rest[0])
    ensures var s := d + rest;
      DigitRun(s) == |d| && s[..|d|] == d && s[|d|..] == rest
  {
    DigitRunOfDigits(d, rest);
    assert (d + rest)[|d|..] == rest;
  }

  /** Whatever the reader accepts, the expression matches. */
  lemma MatchSound(c: string)
    requires MatchFormula(c).Some?
    ensures MatchesFormula(c)
  {
    MatchShape(c);
    var i := DigitRun(c);
    var rest := c[i + 1..];
    var j := DigitRun(rest);
    ShapeGroups(c, i, rest, j);
    assert Groups(c, c[..i], rest[..j], rest[j..]);
  }

  /** What the reader checks before it accepts. */
  lemma MatchShape(c: string)
    requires MatchFormula(c).Some?
    ensures var i := DigitRun(c);
      && 0 < i < |c| && c[i] == 'd'
      && var rest := c[i + 1..];
      var j := DigitRun(rest);
      0 < j && IsModifierGroup(rest[j..])
  {
  }

  lemma ShapeGroups(c: string, i: nat, rest: string, j: nat)
    requires 0 < i < |c| && c[i] == 'd' && rest == c[i + 1..]
    requires 0 < j <= |rest|
    requires AllDigits(c[..i]) && AllDigits(rest[..j]) && IsModifierGroup(rest[j..])
    ensures Groups(c, c[..i], rest[..j], rest[j..])
  {
    var a, b, m := c[..i], rest[..j], rest[j..];
    assert c == a + c[i..] && c[i..] == "d" + rest;
    assert rest == b + m;
    Reassociate(c, a, b, m);
  }

  lemma Reassociate(c: string, a: string, b: string, m: string)
    requires c == a + ("d" + (b + m))
    ensures c == a + "d" + b + m
  {
  }

  // ---------------------------------------------------------------------------
  // parseDiceString
  // ---------------------------------------------------------------------------

  /** `parseDiceString(input)`; `None` is null, undefined or a non-string. */
  function ParseDiceString(input: Option<string>): (r: DiceConfig)
    ensures r.isValid ==> input.Some? && MatchesFormula(Clean(input.value))
    ensures r.isValid ==> r.count >= 0 && r.faces >= 0
    ensures !r.isValid ==> r == Fallback
  {
    if !Truthy(input) then Fallback
    else
      match MatchFormula(Clean(input.value))
      case Some(config) =>
        MatchSound(Clean(input.value));
        config
      case None => Fallback
  }

  /** A string whose cleaned form matches the expression parses to its groups. */
  lemma ParseAccepts(s: string, a: string, b: string, m: string)
    requires Groups(Clean(s), a, b, m)
    ensures ParseDiceString(Some(s)) == DiceConfig(Value(a), Value(b), GroupValue(m), true)
  {
    MatchGroups(Clean(s), a, b, m);
  }

  /** Case and white space never matter: a string parses like its cleaned form. */
  lemma ParseIgnoresCaseAndSpace(s: string)
    ensures ParseDiceString(Some(s)) == ParseDiceString(Some(Clean(s)))
  {
    LowerStripCommute(ToLower(s));
    ToLowerIdempotent(s);
    StripSpacesIdempotent(ToLower(s));
    assert Clean(Clean(s)) == Clean(s);
  }

  /** Upper case and inner spaces are accepted: "2D8 + 2" reads as 2d8+2. */
  lemma UpperCaseSpacedExample()
    ensures ParseDiceString(Some("2D8 + 2")) == DiceConfig(2, 8, 2, true)
  {
    CleanExample();
    var a, b, m := "2", "8", "+2";
    assert "2d8+2" == a + "d" + b + m;
    assert Value(a) == 2 && Value(b) == 8 && GroupValue(m) == 2 by {
      assert a[..0] == [] && b[..0] == [] && m[1..][..0] == [];
    }
    assert Groups(Clean("2D8 + 2"), a, b, m);
    ParseAccepts("2D8 + 2", a, b, m);
  }

  lemma CleanExample()
    ensures Clean("2D8 + 2") == "2d8+2"
  {
    var lower := ToLower("2D8 + 2");
    assert lower == "2d8 + 2" by {
      assert |lower| == 7;
      assert LowerChar('D') == 'd';
    }
    StripSpacesExample();
  }

  lemma StripSpacesExample()
    ensures StripSpaces("2d8 + 2") == "2d8+2"
  {
    var s := "2d8 + 2";
    assert s[1..] == "d8 + 2";
    assert s[1..][1..] == "8 + 2";
    assert s[1..][1..][1..] == " + 2";
    assert s[1..][1..][1..][1..] == "+ 2";
    assert s[1..][1..][1..][1..][1..] == " 2";
    assert s[1..][1..][1..][1..][1..][1..] == "2";
    assert StripSpaces("2") == "2";
    assert StripSpaces(" 2") == "2";
    assert StripSpaces("+ 2") == "+2";
    assert StripSpaces(" + 2") == "+2";
    assert StripSpaces("8 + 2") == "8+2";
    assert StripSpaces("d8 + 2") == "d8+2";
  }

  /** The modifier text of a formula: omitted for 0. */
  function ModifierText(modifier: int): string {
    if modifier == 0 then ""
    else if modifier > 0 then "+" + NatToString(modifier)
    else "-" + NatToString(-modifier)
  }

  /** The formula that writes `count` dice of `faces` faces plus `modifier`. */
  function Format(count: nat, faces: nat, modifier: int): string {
    NatToString(count) + "d" + NatToString(faces) + ModifierText(modifier)
  }

  /** Every formula written by `Format` parses back to exactly its parts. */
  lemma FormatRoundTrip(count: nat, faces: nat, modifier: int)
    ensures ParseDiceString(Some(Format(count, faces, modifier))) == DiceConfig(count, faces, modifier, true)
  {
    var a, b, m := NatToString(count), NatToString(faces), ModifierText(modifier);
    var f := Format(count, faces, modifier);
    ModifierGroup(modifier);
    FormatPlain(a, b, m);
    StripLowerPlain(f);
    assert Groups(Clean(f), a, b, m);
    ParseAccepts(f, a, b, m);
  }

  /** The modifier text is the optional third group, and reads back as the modifier. */
  lemma ModifierGroup(modifier: int)
    ensures IsModifierGroup(ModifierText(modifier))
    ensures GroupValue(ModifierText(modifier)) == modifier
  {
    var m := ModifierText(modifier);
    if m != [] {
      assert m[1..] == NatToString(if modifier > 0 then modifier else -modifier);
    }
  }

  /** A formula written from digits, 'd' and a signed modifier has no space and no upper case. */
  lemma FormatPlain(a: string, b: string, m: string)
    requires AllDigits(a) && AllDigits(b) && IsModifierGroup(m)
    ensures var f := a + "d" + b + m;
      forall i :: 0 <= i < |f| ==> !IsSpace(f[i]) && !IsUpper(f[i])
  {
    var f := a + "d" + b + m;
    forall i | 0 <= i < |f| ensures !IsSpace(f[i]) && !IsUpper(f[i]) {
      if i < |a| {
        assert f[i] == a[i] && IsDigit(a[i]);
      } else if i == |a| {
        assert f[i] == 'd';
      } else if i < |a| + 1 + |b| {
        assert f[i] == b[i - |a| - 1] && IsDigit(b[i - |a| - 1]);
      } else if i == |a| + 1 + |b| {
        assert f[i] == m[0];
      } else {
        assert f[i] == m[i - |a| - 1 - |b|];
        assert IsDigit(m[1..][i - |a| - 2 - |b|]);
      }
    }
  }

  // ---------------------------------------------------------------------------
  // rollDice
  // ---------------------------------------------------------------------------

  /** A stream of results of `Math.random()`. */
  type Rng = nat -> real

  ghost predicate Unit(rng: Rng) {
    forall i: nat :: 0.0 <= rng(i) < 1.0
  }

  /** `Math.floor(u * faces) + 1` for the random number `u`. */
  function RollDie(u: real, faces: int): int {
    (u * faces as real).Floor + 1
  }

  lemma DieInRange(u: real, faces: int)
    requires 0.0 <= u < 1.0 && faces >= 1
    ensures 1 <= RollDie(u, faces) <= faces
  {
    var f := faces as real;
    assert 0.0 <= u * f;
    assert u * f < f by {
      assert (1.0 - u) * f > 0.0;
    }
  }

  function Sum(s: seq<int>): int {
    if s == [] then 0 else s[0] + Sum(s[1..])
  }

  datatype Roll = Roll(total: int, rolls: seq<int>)

  /** `rollDice(count, faces)`: die i takes the i-th random number. */
  function RollDice(count: int, faces: int, rng: Rng): (r: Roll)
    ensures |r.rolls| == if count > 0 then count else 0
    ensures r.total == Sum(r.rolls)
    ensures faces == 0 ==> forall i :: 0 <= i < |r.rolls| ==> r.rolls[i] == 1
    ensures forall i :: 0 <= i < |r.rolls| ==> r.rolls[i] == RollDie(rng(i), faces)
  {
    var n := if count > 0 then count else 0;
    var rolls := seq(n, i requires 0 <= i < n => RollDie(rng(i), faces));
    if faces == 0 then
      assert forall i :: 0 <= i < n ==> rolls[i] == 1 by {
        forall i | 0 <= i < n {
          ZeroFaces(rng(i));
        }
      }
      Roll(Sum(rolls), rolls)
    else Roll(Sum(rolls), rolls)
  }

  /** A die without faces always shows 1. */
  lemma ZeroFaces(u: real)
    ensures RollDie(u, 0) == 1
  {
    assert u * (0 as real) == 0.0;
  }

  lemma {:induction false} SumBounds(s: seq<int>, lo: int, hi: int)
    requires forall i :: 0 <= i < |s| ==> lo <= s[i] <= hi
    ensures |s| * lo <= Sum(s) <= |s| * hi
  {
    if s != [] {
      SumBounds(s[1..], lo, hi);
      assert |s| * lo == (|s| - 1) * lo + lo;
      assert |s| * hi == (|s| - 1) * hi + hi;
    }
  }

  /** Every die shows a face in [1, faces], so the total lies in [count, count * faces]. */
  lemma RollDiceInRange(count: nat, faces: int, rng: Rng)
    requires Unit(rng) && faces >= 1
    ensures var r := RollDice(count, faces, rng);
      && (forall i :: 0 <= i < count ==> 1 <= r.rolls[i] <= faces)
      && count <= r.total <= count * faces
  {
    var r := RollDice(count, faces, rng);
    forall i | 0 <= i < count
      ensures 1 <= r.rolls[i] <= faces
    {
      DieInRange(rng(i), faces);
    }
    SumBounds(r.rolls, 1, faces);
  }
}

=== FILE: game_master_panel.dfy ===
/**
  The game master's page (src/pages/GameMasterPanel.jsx): reading a
  character row into the sheet's field names, the older way of starting a
  combat (everyone rolls at once and the order is sorted), and the image
  gallery's categories and filter.
 */
module GameMasterPanel {
  import opened JsText
  import opened Dice
  import opened CombatRecord
  import StableSort

  // ---------------------------------------------------------------------------
  // mapToCamelCase
  // ---------------------------------------------------------------------------

  /** A row of the `characters` table (snake-case columns). */
  datatype Row = Row(
    id: string, userId: Option<string>, name: string, clanId: Option<string>, fightingStyle: Option<string>,
    innateBodyId: Option<string>, imageUrl: Option<string>,
    bodyRefinementLevel: Option<int>, cultivationStage: Option<int>, masteryLevel: Option<int>,
    attributes: Option<map<string, int>>, stats: Option<map<string, int>>,
    techniques: Option<seq<string>>, proficientPericias: Option<seq<string>>, inventory: Option<map<string, string>>,
    proficientAttribute: Option<string>, createdAt: Option<string>)

  /** The same character with camel-case fields and its lists always present. */
  datatype Sheet = Sheet(
    id: string, userId: Option<string>, name: string, clanId: Option<string>, fightingStyle: Option<string>,
    innateBodyId: Option<string>, imageUrl: Option<string>,
    bodyRefinementLevel: Option<int>, cultivationStage: Option<int>, masteryLevel: Option<int>,
    attributes: Option<map<string, int>>, stats: Option<map<string, int>>,
    techniques: seq<string>, proficientPericias: seq<string>, inventory: map<string, string>,
    proficientAttribute: Option<string>, createdAt: Option<string>)

  /** `mapToCamelCase(data)`: no row gives no sheet; missing techniques,
      pericias and inventory become `[]`, `[]` and `{}`. */
  function MapToCamelCase(data: Option<Row>): (r: Option<Sheet>)
    ensures r.None? <==> data.None?
    ensures r.Some? ==> r.value.techniques == (if data.value.techniques.Some? then data.value.techniques.value else [])
    ensures r.Some? ==> r.value.proficientPericias == (if data.value.proficientPericias.Some? then data.value.proficientPericias.value else [])
    ensures r.Some? ==> r.value.inventory == (if data.value.inventory.Some? then data.value.inventory.value else map[])
  {
    if data.None? then None
    else
      var d := data.value;
      Some(Sheet(d.id, d.userId, d.name, d.clanId, d.fightingStyle, d.innateBodyId, d.imageUrl,
                 d.bodyRefinementLevel, d.cultivationStage, d.masteryLevel, d.attributes, d.stats,
                 if d.techniques.Some? then d.techniques.value else [],
                 if d.proficientPericias.Some? then d.proficientPericias.value else [],
                 if d.inventory.Some? then d.inventory.value else map[],
                 d.proficientAttribute, d.createdAt))
  }

  /** The row a sheet is saved back as. */
  function ToRow(s: Sheet): Row {
    Row(s.id, s.userId, s.name, s.clanId, s.fightingStyle, s.innateBodyId, s.imageUrl,
        s.bodyRefinementLevel, s.cultivationStage, s.masteryLevel, s.attributes, s.stats,
        Some(s.techniques), Some(s.proficientPericias), Some(s.inventory), s.proficientAttribute, s.createdAt)
  }

  /** The mapping loses nothing: a row whose lists are present comes back unchanged,
      and any other row only gains its empty defaults. */
  lemma MapRoundTrip(d: Row)
    ensures var back := ToRow(MapToCamelCase(Some(d)).value);
      && (d.techniques.Some? && d.proficientPericias.Some? && d.inventory.Some? ==> back == d)
      && back.(techniques := d.techniques, proficientPericias := d.proficientPericias, inventory := d.inventory) == d
  {
  }

  // ---------------------------------------------------------------------------
  // handleStartCombat
  // ---------------------------------------------------------------------------

  /** A character chosen for the combat. */
  datatype Chosen = Chosen(id: string, name: string, attributes: Option<map<string, int>>, imageUrl: Option<string>)

  /** An entry of the turn order this page writes. */
  datatype Entry = Entry(characterId: string, name: string, initiative: int, imageUrl: Option<string>)

  /** The combat row this page inserts. */
  datatype NewCombat = NewCombat(gmId: string, isActive: bool, turnOrder: seq<Entry>, currentTurnIndex: int)

  /** `char.attributes?.agility || 0` */
  function AgilityOf(c: Chosen): int {
    if c.attributes.Some? then Agility(c.attributes.value) else 0
  }

  /** Everyone rolls, participant `k` with the random number `rng(k)`. */
  function Rolled(cs: seq<Chosen>, rng: Rng): (r: seq<Entry>)
    ensures |r| == |cs|
    ensures forall k :: 0 <= k < |cs| ==>
      r[k] == Entry(cs[k].id, cs[k].name, RollDie(rng(k), 20) + AgilityOf(cs[k]), cs[k].imageUrl)
  {
    seq(|cs|, k requires 0 <= k < |cs| => Entry(cs[k].id, cs[k].name, RollDie(rng(k), 20) + AgilityOf(cs[k]), cs[k].imageUrl))
  }

  function InitiativeOf(e: Entry): int {
    e.initiative
  }

  /** `handleStartCombat(participants)`: the row inserted, with the turn order
      sorted from the highest initiative down. */
  function StartCombat(gmId: string, cs: seq<Chosen>, rng: Rng): (r: NewCombat)
    ensures r.gmId == gmId && r.isActive && r.currentTurnIndex == 0
    ensures |r.turnOrder| == |cs|
    ensures multiset(r.turnOrder) == multiset(Rolled(cs, rng))
    ensures StableSort.SortedDesc(r.turnOrder, InitiativeOf)
  {
    NewCombat(gmId, true, StableSort.Sort(Rolled(cs, rng), InitiativeOf), 0)
  }

  /** Every other combat is switched off before the new one is inserted. */
  function Deactivate(active: seq<bool>): (r: seq<bool>)
    ensures |r| == |active| && forall k :: 0 <= k < |r| ==> !r[k]
  {
    seq(|active|, k => false)
  }

  /** Each participant appears exactly once in the new turn order, holding an
      initiative between 1 and 20 above their agility. */
  lemma StartCombatRolls(gmId: string, cs: seq<Chosen>, rng: Rng, k: nat)
    requires Unit(rng) && k < |cs|
    ensures var e := Rolled(cs, rng)[k];
      && e in StartCombat(gmId, cs, rng).turnOrder
      && 1 + AgilityOf(cs[k]) <= e.initiative <= 20 + AgilityOf(cs[k])
  {
    var rolled := Rolled(cs, rng);
    DieInRange(rng(k), 20);
    assert rolled[k] in multiset(rolled);
  }

  /** Equal initiatives keep the order in which the participants were chosen. */
  lemma StartCombatStable(gmId: string, cs: seq<Chosen>, rng: Rng, initiative: int)
    ensures StableSort.WithKey(StartCombat(gmId, cs, rng).turnOrder, InitiativeOf, initiative)
         == StableSort.WithKey(Rolled(cs, rng), InitiativeOf, initiative)
  {
    StableSort.SortStable(Rolled(cs, rng), InitiativeOf, initiative);
  }

  // ---------------------------------------------------------------------------
  // Image gallery
  // ---------------------------------------------------------------------------

  datatype Image = Image(id: string, category: string, url: string)

  function CategoryOf(images: seq<Image>): (r: seq<string>)
    ensures |r| == |images| && forall k :: 0 <= k < |r| ==> r[k] == images[k].category
  {
    seq(|images|, k requires 0 <= k < |images| => images[k].category)
  }

  /** The first appearance of every value of `s`, in order: a reference
      definition of `[...new Set(s)]`. */
  function Firsts(s: seq<string>): seq<string> {
    if s == [] then []
    else
      var front := s[..|s| - 1];
      Firsts(front) + (if s[|s| - 1] in front then [] else [s[|s| - 1]])
  }

  predicate Distinct(s: seq<string>) {
    forall i, j :: 0 <= i < j < |s| ==> s[i] != s[j]
  }

  /** `["todos", ...new Set(gmImages.map(img => img.category))]` */
  method Categories(images: seq<Image>) returns (r: seq<string>)
    ensures r == ["todos"] + Firsts(CategoryOf(images))
  {
    var s := CategoryOf(images);
    var seen: seq<string> := [];
    var i := 0;
    while i < |s|
      invariant 0 <= i <= |s|
      invariant seen == Firsts(s[..i])
      invariant forall x :: x in seen <==> x in s[..i]
    {
      assert s[..i + 1][..i] == s[..i];
      if s[i] !in seen {
        seen := seen + [s[i]];
      }
      i := i + 1;
    }
    assert s[..i] == s;
    return ["todos"] + seen;
  }

  /** The first appearances are the values of `s`, each once. */
  lemma {:induction false} FirstsDistinct(s: seq<string>)
    ensures Distinct(Firsts(s))
    ensures forall x :: x in Firsts(s) <==> x in s
  {
    if s != [] {
      var front := s[..|s| - 1];
      FirstsDistinct(front);
      assert s == front + [s[|s| - 1]];
    }
  }

  /** `activeCategory === "todos" ? gmImages : gmImages.filter(img => img.category === activeCategory)` */
  function Filter(images: seq<Image>, active: string): (r: seq<Image>)
    ensures active == "todos" ==> r == images
    ensures active != "todos" ==> forall k :: 0 <= k < |r| ==> r[k].category == active
    ensures forall x :: x in r ==> x in images
    ensures active != "todos" ==> forall x :: x in images && x.category == active ==> x in r
    ensures active != "todos" ==> forall x :: multiset(r)[x] == if x.category == active then multiset(images)[x] else 0
  {
    if active == "todos" then images
    else
      KeepCounts(images, active);
      Keep(images, active)
  }

  function Keep(images: seq<Image>, active: string): (r: seq<Image>)
    ensures |r| <= |images|
    ensures forall k :: 0 <= k < |r| ==> r[k].category == active
    ensures forall x :: x in r <==> x in images && x.category == active
  {
    if images == [] then []
    else
      var rest := Keep(images[1..], active);
      assert forall x :: x in images <==> x == images[0] || x in images[1..];
      if images[0].category == active then [images[0]] + rest else rest
  }

  /** Every image of the category is kept as often as it occurs, and no other. */
  lemma {:induction false} KeepCounts(images: seq<Image>, active: string)
    ensures forall x :: multiset(Keep(images, active))[x] == if x.category == active then multiset(images)[x] else 0
  {
    if images != [] {
      KeepCounts(images[1..], active);
      assert images == [images[0]] + images[1..];
      assert multiset(images) == multiset{images[0]} + multiset(images[1..]);
    }
  }

  /** Filtering twice by the same category is filtering once. */
  lemma {:induction false} FilterIdempotent(images: seq<Image>, active: string)
    ensures Filter(Filter(images, active), active) == Filter(images, active)
  {
    if active != "todos" {
      KeepIdempotent(images, active);
    }
  }

  lemma {:induction false} KeepIdempotent(images: seq<Image>, active: string)
    ensures Keep(Keep(images, active), active) == Keep(images, active)
  {
    if images != [] {
      KeepIdempotent(images[1..], active);
      if images[0].category == active {
        var k := Keep(images, active);
        assert k[1..] == Keep(images[1..], active);
      }
    }
  }
}

=== FILE: initiative_tracker.dfy ===
/**
  The initiative strip of the combat screen
  (src/components/combat/InitiativeTracker.jsx): the participant whose turn
  it is and the two after them, wrapping around the turn order.
 */
module InitiativeTracker {
  import opened JsText
  import opened CombatRecord

  /** `s[k]`, `None` standing for `undefined` outside the sequence. */
  function At(s: seq<Participant>, k: int): (r: Option<Participant>)
    ensures r.Some? <==> 0 <= k < |s|
    ensures r.Some? ==> r.value == s[k]
  {
    if 0 <= k < |s| then Some(s[k]) else None
  }

  /** `getVisibleParticipants()`, or `None` when the tracker renders nothing
      (no turn order, or an empty one). */
  method VisibleParticipants(turnOrder: Option<seq<Participant>>, currentIndex: int)
    returns (shown: Option<seq<Option<Participant>>>)
    ensures shown.None? <==> turnOrder.None? || |turnOrder.value| == 0
    ensures shown.Some? ==> |shown.value| == 3
    ensures shown.Some? ==> forall i :: 0 <= i < 3 ==>
      shown.value[i] == At(turnOrder.value, JsRemainder(currentIndex + i, |turnOrder.value|))
  {
    if turnOrder.None? || |turnOrder.value| == 0 {
      return None;
    }
    var order := turnOrder.value;
    var visible: seq<Option<Participant>> := [];
    var i := 0;
    while i < 3
      invariant 0 <= i <= 3
      invariant |visible| == i
      invariant forall j :: 0 <= j < i ==> visible[j] == At(order, JsRemainder(currentIndex + j, |order|))
    {
      var index := JsRemainder(currentIndex + i, |order|);
      visible := visible + [At(order, index)];
      i := i + 1;
    }
    return Some(visible);
  }

  /** From a valid current index the strip shows the current participant and
      the next two turns, exactly as `nextTurn` would reach them. */
  lemma WindowFollowsTurns(order: seq<Participant>, currentIndex: int, i: nat)
    requires 0 <= currentIndex < |order| && i < 3
    ensures 0 <= Advance(currentIndex, |order|, i) < |order|
    ensures At(order, JsRemainder(currentIndex + i, |order|)) == At(order, Advance(currentIndex, |order|, i))
  {
    WindowIndex(currentIndex, |order|, i);
  }

  /** `(c + i) % n` is `i` turns on from `c`. */
  lemma {:induction false} WindowIndex(c: int, n: int, i: nat)
    requires 0 <= c < n
    ensures JsRemainder(c + i, n) == Advance(c, n, i)
    ensures 0 <= Advance(c, n, i) < n
    decreases i
  {
    if i > 0 {
      WindowIndex(c, n, i - 1);
      var a := Advance(c, n, i - 1);
      StepRemainder(c + i - 1, n);
      assert JsRemainder(c + i, n) == NextIndex(a, n);
    }
  }

  /** The remainder of the next number is the next index of the remainder. */
  lemma StepRemainder(a: int, n: int)
    requires a >= 0 && n > 0
    ensures JsRemainder(a + 1, n) == NextIndex(JsRemainder(a, n), n)
  {
    var q := a / n;
    var r := a % n;
    assert a == q * n + r;
    if r + 1 < n {
      ModUnique(a + 1, n, q, r + 1);
    } else {
      assert a + 1 == (q + 1) * n + 0;
      ModUnique(a + 1, n, q + 1, 0);
    }
  }

  lemma ModUnique(x: int, n: int, q: int, r: int)
    requires n > 0 && 0 <= r < n && x == q * n + r
    ensures x % n == r
  {
    var q' := x / n;
    var r' := x % n;
    assert x == q' * n + r';
    var d := q - q';
    assert d * n == q * n - q' * n;
    SmallMultiple(d, n);
  }

  /** The only multiple of `n` strictly between `-n` and `n` is zero. */
  lemma SmallMultiple(d: int, n: int)
    requires n > 0 && -n < d * n < n
    ensures d == 0
  {
  }

  /** The first entry is the participant whose turn it is. */
  lemma FirstIsCurrent(order: seq<Participant>, currentIndex: int)
    requires 0 <= currentIndex < |order|
    ensures At(order, JsRemainder(currentIndex, |order|)) == Some(order[currentIndex])
  {
  }

  /** With a single participant all three entries are that participant. */
  lemma SingleParticipant(p: Participant, currentIndex: int, i: nat)
    requires currentIndex >= 0
    ensures At([p], JsRemainder(currentIndex + i, 1)) == Some(p)
  {
  }
}

=== FILE: js_text.dfy ===
/**
  Values and string built-ins of JavaScript, as the application uses them.

  - `Option` stands for a value that may be `null` or `undefined`.
  - `IsSpace` is the set of characters matched by `\s` in a regular expression,
    skipped by `parseInt` and removed by `String.prototype.trim`; ECMA-262
    defines all three with the same WhiteSpace and LineTerminator set.
  - `LowerChar` is `toLowerCase` on the ASCII and Latin-1 letters; see README
    for the rest of Unicode.
  - `ParseInt` is `parseInt(s, 10)`, with `None` standing for `NaN`;
    `ParseIntAuto` is `parseInt(s)` with no radix, which also reads `0x` hex.
  - `IntToString` is `String(n)` for an integer `n`.
  - `Find` is `Array.prototype.find` with a key comparison.
 */
module JsText {

  datatype Option<+T> = None | Some(value: T)

  /** `o || d` for a number that may be missing: null, undefined and 0 are falsy. */
  function OrNumber(o: Option<int>, d: int): int {
    if o.Some? && o.value != 0 then o.value else d
  }

  /** `o || d` for a real number that may be missing. */
  function OrReal(o: Option<real>, d: real): real {
    if o.Some? && o.value != 0.0 then o.value else d
  }

  /** A string is truthy unless it is missing or empty. */
  predicate Truthy(o: Option<string>) {
    o.Some? && o.value != ""
  }

  /** `o || d` for a string that may be missing. */
  function OrString(o: Option<string>, d: string): string {
    if Truthy(o) then o.value else d
  }

  /** `a || b || null` for two optional strings. */
  function FirstTruthy(a: Option<string>, b: Option<string>): Option<string> {
    if Truthy(a) then a else if Truthy(b) then b else None
  }

  /** `items.find(x => key(x) === id)`: the first item with that key, if any. */
  function Find<T, K(==)>(items: seq<T>, key: T -> K, id: K): (r: Option<T>)
    ensures r.Some? ==> r.value in items && key(r.value) == id
    ensures r.None? <==> forall k :: 0 <= k < |items| ==> key(items[k]) != id
    ensures r.Some? ==> exists k :: 0 <= k < |items| && items[k] == r.value
                          && forall j :: 0 <= j < k ==> key(items[j]) != id
  {
    if items == [] then None
    else if key(items[0]) == id then
      Some(items[0])
    else
      var r := Find(items[1..], key, id);
      FirstMatchShifts(items, key, id, r);
      r
  }

  /** The first match in the tail is the first match of the whole when the head does not match. */
  lemma FirstMatchShifts<T, K>(items: seq<T>, key: T -> K, id: K, r: Option<T>)
    requires items != [] && key(items[0]) != id
    requires r.Some? ==> exists k :: 0 <= k < |items[1..]| && items[1..][k] == r.value
                            && forall j :: 0 <= j < k ==> key(items[1..][j]) != id
    ensures r.Some? ==> exists k :: 0 <= k < |items| && items[k] == r.value
                          && forall j :: 0 <= j < k ==> key(items[j]) != id
  {
    if r.Some? {
      var k :| 0 <= k < |items[1..]| && items[1..][k] == r.value
               && forall j :: 0 <= j < k ==> key(items[1..][j]) != id;
      assert items[k + 1] == r.value;
      assert forall j :: 0 <= j < k + 1 ==> key(items[j]) != id by {
        forall j | 0 <= j < k + 1 ensures key(items[j]) != id {
          if j > 0 { assert items[j] == items[1..][j - 1]; }
        }
      }
    }
  }

  // ---------------------------------------------------------------------------
  // White space and case
  // ---------------------------------------------------------------------------

  predicate IsSpace(c: char) {
    || c == '\t' || c == '\n' || c == '\U{B}' || c == '\U{C}' || c == '\r'
    || c == ' ' || c == '\U{A0}' || c == '\U{1680}'
    || ('\U{2000}' <= c <= '\U{200A}')
    || c == '\U{2028}' || c == '\U{2029}' || c == '\U{202F}' || c == '\U{205F}'
    || c == '\U{3000}' || c == '\U{FEFF}'
  }

  predicate IsUpper(c: char) {
    ('A' <= c <= 'Z') || ('\U{C0}' <= c <= '\U{DE}' && c != '\U{D7}')
  }

  function LowerChar(c: char): char {
    if IsUpper(c) then (c as int + 32) as char else c
  }

  /** `s.toLowerCase()` */
  function ToLower(s: string): string {
    seq(|s|, i requires 0 <= i < |s| => LowerChar(s[i]))
  }

  /** `s.replace(/\s/g, '')` */
  function StripSpaces(s: string): (r: string)
    ensures |r| <= |s|
    ensures forall i :: 0 <= i < |r| ==> !IsSpace(r[i])
  {
    if s == [] then []
    else if IsSpace(s[0]) then StripSpaces(s[1..])
    else [s[0]] + StripSpaces(s[1..])
  }

  function TrimStart(s: string): (r: string)
    ensures r == [] || !IsSpace(r[0])
    ensures |r| <= |s| && r == s[|s| - |r|..]
  {
    if s != [] && IsSpace(s[0]) then TrimStart(s[1..]) else s
  }

  function TrimEnd(s: string): (r: string)
    ensures r == [] || !IsSpace(r[|r| - 1])
    ensures |r| <= |s| && r == s[..|r|]
  {
    if s != [] && IsSpace(s[|s| - 1]) then TrimEnd(s[..|s| - 1]) else s
  }

  /** `s.trim()` */
  function Trim(s: string): string {
    TrimEnd(TrimStart(s))
  }

  predicate StartsWith(s: string, prefix: string) {
    |prefix| <= |s| && s[..|prefix|] == prefix
  }

  /** `s.includes(word)` */
  predicate Contains(s: string, word: string) {
    StartsWith(s, word) || (s != [] && Contains(s[1..], word))
  }

  /** Number of occurrences of the character `c` in `s`. */
  function Occurrences(s: string, c: char): nat {
    if s == [] then 0 else (if s[0] == c then 1 else 0) + Occurrences(s[1..], c)
  }

  // ---------------------------------------------------------------------------
  // Decimal numbers
  // ---------------------------------------------------------------------------

  predicate IsDigit(c: char) {
    '0' <= c <= '9'
  }

  predicate AllDigits(s: string) {
    forall i :: 0 <= i < |s| ==> IsDigit(s[i])
  }

  function DigitValue(c: char): nat
    requires IsDigit(c)
  {
    c as int - '0' as int
  }

  function DigitChar(d: nat): char
    requires d < 10
  {
    ('0' as int + d) as char
  }

  /** The value of a string of decimal digits; the empty string is 0. */
  function Value(s: string): nat
    requires AllDigits(s)
  {
    if s == [] then 0 else 10 * Value(s[..|s| - 1]) + DigitValue(s[|s| - 1])
  }

  /** Decimal representation of a natural number, without leading zeros. */
  function NatToString(n: nat): (r: string)
    ensures |r| > 0 && AllDigits(r)
    ensures Value(r) == n
    ensures r[0] != '0' || n == 0
  {
    if n < 10 then [DigitChar(n)]
    else
      var front := NatToString(n / 10);
      var r := front + [DigitChar(n % 10)];
      assert r[..|r| - 1] == front;
      r
  }

  /** `String(n)` for an integer. */
  function IntToString(n: int): string {
    if n < 0 then "-" + NatToString(-n) else NatToString(n)
  }

  /** `(n >= 0 ? '+' : '') + n`: an integer written with its sign. */
  function SignedText(n: int): string {
    (if n >= 0 then "+" else "") + IntToString(n)
  }

  /** Length of the longest prefix of `s` made of decimal digits. */
  function DigitRun(s: string): (n: nat)
    ensures n <= |s| && AllDigits(s[..n])
    ensures n < |s| ==> !IsDigit(s[n])
  {
    if s != [] && IsDigit(s[0]) then
      var n := 1 + DigitRun(s[1..]);
      assert s[..n] == [s[0]] + s[1..][..n - 1];
      n
    else 0
  }

  /** `parseInt(s, 10)`: leading white space is skipped, then an optional sign
      and the longest run of decimal digits is read; `None` is `NaN`. */
  function ParseInt(s: string): Option<int> {
    var t := TrimStart(s);
    var negative := t != [] && t[0] == '-';
    var body := if t != [] && (t[0] == '-' || t[0] == '+') then t[1..] else t;
    var n := DigitRun(body);
    var magnitude: int := Value(body[..n]);
    if n == 0 then None
    else if negative then Some(-magnitude)
    else Some(magnitude)
  }

  /** `parseInt(s, 10) || 0` */
  function ParseIntOrZero(s: string): int {
    match ParseInt(s)
    case Some(v) => v
    case None => 0
  }

  predicate IsHexDigit(c: char) {
    IsDigit(c) || 'a' <= c <= 'f' || 'A' <= c <= 'F'
  }

  predicate AllHexDigits(s: string) {
    forall i :: 0 <= i < |s| ==> IsHexDigit(s[i])
  }

  function HexDigitValue(c: char): (d: nat)
    requires IsHexDigit(c)
    ensures d < 16
  {
    if IsDigit(c) then DigitValue(c)
    else if 'a' <= c <= 'f' then c as int - 'a' as int + 10
    else c as int - 'A' as int + 10
  }

  /** The value of a string of hexadecimal digits; the empty string is 0. */
  function HexValue(s: string): nat
    requires AllHexDigits(s)
  {
    if s == [] then 0 else 16 * HexValue(s[..|s| - 1]) + HexDigitValue(s[|s| - 1])
  }

  /** Length of the longest prefix of `s` made of hexadecimal digits. */
  function HexRun(s: string): (n: nat)
    ensures n <= |s| && AllHexDigits(s[..n])
    ensures n < |s| ==> !IsHexDigit(s[n])
  {
    if s != [] && IsHexDigit(s[0]) then
      var n := 1 + HexRun(s[1..]);
      assert s[..n] == [s[0]] + s[1..][..n - 1];
      n
    else 0
  }

  /** The digits after the sign start with `0x` or `0X`. */
  predicate HexPrefixed(body: string) {
    |body| >= 2 && body[0] == '0' && (body[1] == 'x' || body[1] == 'X')
  }

  /** The text after an optional leading sign. */
  function Unsigned(t: string): string {
    if t != [] && (t[0] == '-' || t[0] == '+') then t[1..] else t
  }

  /** The longest run of hexadecimal digits at the start of `digits`, with the sign applied. */
  function HexRead(digits: string, negative: bool): Option<int> {
    var n := HexRun(digits);
    var magnitude: int := HexValue(digits[..n]);
    if n == 0 then None
    else if negative then Some(-magnitude)
    else Some(magnitude)
  }

  /** `parseInt(s)` without a radix: as `parseInt(s, 10)`, except that a `0x`
      or `0X` after the optional sign switches to hexadecimal digits. */
  function ParseIntAuto(s: string): Option<int> {
    var t := TrimStart(s);
    var body := Unsigned(t);
    if HexPrefixed(body) then HexRead(body[2..], t != [] && t[0] == '-')
    else ParseInt(s)
  }

  /** `parseInt(s) || 0` */
  function ParseIntAutoOrZero(s: string): int {
    match ParseIntAuto(s)
    case Some(v) => v
    case None => 0
  }

  // ---------------------------------------------------------------------------
  // Lemmas
  // ---------------------------------------------------------------------------

  lemma {:induction false} DigitRunOfDigits(d: string, rest: string)
    requires AllDigits(d)
    requires rest == [] || !IsDigit(rest[0])
    ensures DigitRun(d + rest) == |d|
    ensures (d + rest)[..|d|] == d
  {
    if d != [] {
      assert (d + rest)[1..] == d[1..] + rest;
      DigitRunOfDigits(d[1..], rest);
    }
  }

  /** `parseInt` reads back what `String` writes. */
  lemma ParseIntRoundTrip(n: int)
    ensures ParseInt(IntToString(n)) == Some(n)
  {
    ParseIntPrefix(n, []);
    assert IntToString(n) + [] == IntToString(n);
  }

  /** `parseInt` reads back what `String` writes, whatever non-digit follows it. */
  lemma {:induction false} ParseIntPrefix(n: int, rest: string)
    requires rest == [] || !IsDigit(rest[0])
    ensures ParseInt(IntToString(n) + rest) == Some(n)
  {
    var s := IntToString(n);
    if n < 0 {
      var m: nat := -n;
      assert s == "-" + NatToString(m);
      NegativePrefix(m, rest);
      assert s + rest == "-" + NatToString(m) + rest;
    } else {
      assert s == NatToString(n);
      NaturalPrefix(n, rest);
    }
  }

  lemma NaturalPrefix(n: nat, rest: string)
    requires rest == [] || !IsDigit(rest[0])
    ensures ParseInt(NatToString(n) + rest) == Some(n)
  {
    DigitsPrefix(NatToString(n), rest);
  }

  /** A run of digits followed by a non-digit reads as the run's value. */
  lemma DigitsPrefix(digits: string, rest: string)
    requires digits != [] && AllDigits(digits)
    requires rest == [] || !IsDigit(rest[0])
    ensures ParseInt(digits + rest) == Some(Value(digits) as int)
  {
    var s := digits + rest;
    assert s[0] == digits[0] && IsDigit(s[0]);
    NoLeadingSpace(s);
    DigitRunOfDigits(digits, rest);
    ReadsRun(s, s, |digits|);
  }

  lemma NegativePrefix(m: nat, rest: string)
    requires m > 0
    requires rest == [] || !IsDigit(rest[0])
    ensures ParseInt("-" + NatToString(m) + rest) == Some(-(m as int))
  {
    var digits := NatToString(m);
    var s := "-" + digits + rest;
    assert s[0] == '-';
    NoLeadingSpace(s);
    assert s[1..] == digits + rest;
    DigitRunOfDigits(digits, rest);
    ReadsRun(s, s[1..], |digits|);
  }

  /** `parseInt` accepts an explicit `+` sign. */
  lemma PlusPrefix(n: nat, rest: string)
    requires rest == [] || !IsDigit(rest[0])
    ensures ParseInt("+" + NatToString(n) + rest) == Some(n)
  {
    var digits := NatToString(n);
    var s := "+" + digits + rest;
    assert s[0] == '+';
    NoLeadingSpace(s);
    assert s[1..] == digits + rest;
    DigitRunOfDigits(digits, rest);
    ReadsRun(s, s[1..], |digits|);
  }

  lemma NoLeadingSpace(s: string)
    requires s != [] && !IsSpace(s[0])
    ensures TrimStart(s) == s
  {
  }

  /** `parseInt` of unpadded text whose digits (after an optional sign) run for `n > 0` characters. */
  lemma ReadsRun(s: string, body: string, n: nat)
    requires TrimStart(s) == s
    requires body == if s != [] && (s[0] == '-' || s[0] == '+') then s[1..] else s
    requires DigitRun(body) == n && n > 0
    ensures ParseInt(s) == Some(if s[0] == '-' then -(Value(body[..n]) as int) else Value(body[..n]))
  {
  }

  /** Without a radix, `parseInt` still reads back what `String` writes: a
      decimal text never starts with `0x`. */
  lemma ParseIntAutoRoundTrip(n: int)
    ensures ParseIntAuto(IntToString(n)) == Some(n)
  {
    IntTextNotHex(n);
    AutoIsDecimal(IntToString(n));
    ParseIntRoundTrip(n);
  }

  lemma AutoIsDecimal(s: string)
    requires !HexPrefixed(Unsigned(TrimStart(s)))
    ensures ParseIntAuto(s) == ParseInt(s)
  {
  }

  /** A decimal text has a digit after its optional sign, never `x`. */
  lemma IntTextNotHex(n: int)
    ensures !HexPrefixed(Unsigned(TrimStart(IntToString(n))))
  {
    var s := IntToString(n);
    var digits := NatToString(if n < 0 then -n else n);
    assert s[0] == '-' || IsDigit(s[0]);
    NoLeadingSpace(s);
    assert Unsigned(s) == digits by {
      if n < 0 {
        assert s[1..] == digits;
      }
    }
    if |digits| >= 2 {
      assert IsDigit(digits[1]);
    }
  }

  /** Without a radix, `0x` followed by hexadecimal digits reads them in base 16,
      whatever non-digit follows. */
  lemma ParseIntAutoHex(digits: string, rest: string)
    requires digits != [] && AllHexDigits(digits)
    requires rest == [] || !IsHexDigit(rest[0])
    ensures ParseIntAuto("0x" + digits + rest) == Some(HexValue(digits) as int)
  {
    var s := "0x" + digits + rest;
    assert s[0] == '0' && s[1] == 'x' && s[2..] == digits + rest;
    AutoOfHexText(s);
    HexReadOf(digits, rest);
  }

  lemma HexReadOf(digits: string, rest: string)
    requires digits != [] && AllHexDigits(digits)
    requires rest == [] || !IsHexDigit(rest[0])
    ensures HexRead(digits + rest, false) == Some(HexValue(digits) as int)
  {
    HexRunOfDigits(digits, rest);
  }

  lemma {:induction false} HexRunOfDigits(d: string, rest: string)
    requires AllHexDigits(d)
    requires rest == [] || !IsHexDigit(rest[0])
    ensures HexRun(d + rest) == |d|
    ensures (d + rest)[..|d|] == d
  {
    if d != [] {
      assert (d + rest)[1..] == d[1..] + rest;
      HexRunOfDigits(d[1..], rest);
    }
  }

  /** "0x1A" is 26 without a radix and 0 with radix 10. */
  lemma HexExample()
    ensures ParseIntAuto("0x1A") == Some(26)
    ensures ParseInt("0x1A") == Some(0)
  {
    HexAutoExample();
    DecimalZeroExample();
  }

  lemma HexAutoExample()
    ensures ParseIntAuto("0x1A") == Some(26)
  {
    var s := "0x1A";
    assert s[0] == '0' && s[1] == 'x' && s[2..] == "1A";
    AutoOfHexText(s);
    HexDigitsExample();
    HexReadOf("1A", []);
    assert "1A" + [] == "1A";
  }

  /** Unpadded text starting `0x` reads the hexadecimal digits after it. */
  lemma AutoOfHexText(s: string)
    requires |s| >= 2 && s[0] == '0' && s[1] == 'x'
    ensures ParseIntAuto(s) == HexRead(s[2..], false)
  {
    NoLeadingSpace(s);
    assert Unsigned(s) == s;
  }

  lemma HexDigitsExample()
    ensures AllHexDigits("1A") && HexValue("1A") == 26
  {
    assert "1A"[..1] == "1";
  }

  lemma DecimalZeroExample()
    ensures ParseInt("0x1A") == Some(0)
  {
    var s := "0x1A";
    assert s[0] == '0' && s[1] == 'x';
    LoneZero(s);
  }

  /** With a radix of 10, a `0` followed by a non-digit reads as 0. */
  lemma LoneZero(s: string)
    requires |s| >= 2 && s[0] == '0' && !IsDigit(s[1])
    ensures ParseInt(s) == Some(0)
  {
    assert s == s[..1] + s[1..];
    assert s[..1] == "0";
    DigitsPrefix(s[..1], s[1..]);
  }

  /** A signed integer starts with its sign and reads back as itself. */
  lemma SignedTextReadsBack(n: int)
    ensures SignedText(n) != [] && SignedText(n)[0] == (if n >= 0 then '+' else '-')
    ensures ParseInt(SignedText(n)) == Some(n)
  {
    if n >= 0 {
      PlusPrefix(n, []);
      assert "+" + NatToString(n) + [] == SignedText(n);
    } else {
      ParseIntRoundTrip(n);
    }
  }

  lemma {:induction false} OccurrencesAppend(a: string, b: string, c: char)
    ensures Occurrences(a + b, c) == Occurrences(a, c) + Occurrences(b, c)
  {
    if a == [] {
      assert a + b == b;
    } else {
      assert (a + b)[1..] == a[1..] + b;
      OccurrencesAppend(a[1..], b, c);
    }
  }

  lemma {:induction false} OccurrencesAbsent(s: string, c: char)
    requires forall i :: 0 <= i < |s| ==> s[i] != c
    ensures Occurrences(s, c) == 0
  {
    if s != [] {
      OccurrencesAbsent(s[1..], c);
    }
  }

  /** `String(n)` holds no space. */
  lemma IntToStringHasNoSpace(n: int)
    ensures Occurrences(IntToString(n), ' ') == 0
  {
    var s := IntToString(n);
    var digits := if n < 0 then NatToString(-n) else NatToString(n);
    assert forall i :: 0 <= i < |digits| ==> digits[i] != ' ' by {
      forall i | 0 <= i < |digits| ensures digits[i] != ' ' {
        assert IsDigit(digits[i]);
      }
    }
    OccurrencesAbsent(digits, ' ');
    if n < 0 {
      OccurrencesAppend("-", digits, ' ');
    }
  }

  /** Lower-casing commutes with removing white space. */
  lemma {:induction false} LowerStripCommute(s: string)
    ensures ToLower(StripSpaces(s)) == StripSpaces(ToLower(s))
  {
    if s != [] {
      LowerStripCommute(s[1..]);
      assert ToLower(s)[1..] == ToLower(s[1..]);
      assert IsSpace(LowerChar(s[0])) == IsSpace(s[0]);
      if !IsSpace(s[0]) {
        assert ToLower([s[0]] + StripSpaces(s[1..])) == [LowerChar(s[0])] + ToLower(StripSpaces(s[1..]));
      }
    }
  }

  lemma {:induction false} StripSpacesIdempotent(s: string)
    ensures StripSpaces(StripSpaces(s)) == StripSpaces(s)
  {
    if s != [] {
      StripSpacesIdempotent(s[1..]);
      if !IsSpace(s[0]) {
        var t := [s[0]] + StripSpaces(s[1..]);
        assert t[1..] == StripSpaces(s[1..]);
      }
    }
  }

  lemma ToLowerIdempotent(s: string)
    ensures ToLower(ToLower(s)) == ToLower(s)
  {
  }

  /** A character that is neither white space nor upper case survives both. */
  lemma {:induction false} StripLowerPlain(s: string)
    requires forall i :: 0 <= i < |s| ==> !IsSpace(s[i]) && !IsUpper(s[i])
    ensures StripSpaces(ToLower(s)) == s
  {
    if s != [] {
      StripLowerPlain(s[1..]);
      assert ToLower(s)[1..] == ToLower(s[1..]);
      assert s == [s[0]] + s[1..];
    }
  }
}

=== FILE: legacy_training.dfy ===
/**
  The older training modal (src/components/TrainingOptionsModal.jsx). It rolls
  the same test as the character sheet's modal, keeps the result on screen,
  and reports progression one field per `onTrain(field, value)` call, so that
  a new stage takes two calls.
 */
module LegacyTraining {
  import opened JsText
  import opened Dice
  import opened Training

  /** The field named in an `onTrain(field, value)` call. */
  datatype Field = BodyRefinementLevel | CultivationStage | MasteryLevel

  /** One `onTrain(field, value)` call. */
  datatype Call = Call(field: Field, value: int)

  /** `rollResult`. `attributeValue` and `total` are `None` where they are
      `undefined` and `NaN`. */
  datatype RollResult = RollResult(roll: int, attributeValue: Option<int>, total: Option<int>, cd: int, success: bool)

  /** `step`, `selectedTraining`, `cdValue` and `rollResult`. */
  datatype Screen = Screen(step: Step, selected: Option<Kind>, cd: int, result: Option<RollResult>)

  /** The character after one `onTrain(field, value)` call. */
  function ApplyCall(p: Progress, c: Call): Progress {
    match c.field
    case BodyRefinementLevel => p.(bodyRefinementLevel := Some(c.value))
    case CultivationStage => p.(cultivationStage := Some(c.value))
    case MasteryLevel => p.(masteryLevel := Some(c.value))
  }

  /** The character after the calls, made in order. */
  function ApplyCalls(p: Progress, calls: seq<Call>): Progress
    decreases |calls|
  {
    if calls == [] then p else ApplyCalls(ApplyCall(p, calls[0]), calls[1..])
  }

  /** The calls a successful training makes. */
  function Calls(kind: Kind, p: Progress): (r: seq<Call>)
    ensures kind == Technique ==> r == []
    ensures kind == BodyRefinement ==> r == [Call(BodyRefinementLevel, Level(p) + 1)]
    ensures kind == Cultivation && Mastery(p) < 3 ==> r == [Call(MasteryLevel, Mastery(p) + 1)]
    ensures kind == Cultivation && Mastery(p) >= 3 ==> r == [Call(CultivationStage, Stage(p) + 1), Call(MasteryLevel, 1)]
  {
    match kind
    case Technique => []
    case BodyRefinement => [Call(BodyRefinementLevel, Level(p) + 1)]
    case Cultivation =>
      if Mastery(p) < 3 then [Call(MasteryLevel, Mastery(p) + 1)]
      else [Call(CultivationStage, Stage(p) + 1), Call(MasteryLevel, 1)]
  }

  /** The state after a roll and the `onTrain` calls it makes. */
  datatype Outcome = Outcome(screen: Screen, calls: seq<Call>)

  /** `handleRoll()` with the random number `u` of the d20. */
  function HandleRoll(m: Screen, attributes: map<string, int>, p: Progress, u: real): (r: Outcome)
    requires m.selected.Some?
    ensures var kind := m.selected.value;
      var roll := RollDie(u, 20);
      && r.screen.step == Result && r.screen.selected == m.selected && r.screen.cd == m.cd
      && r.screen.result.Some?
      && r.screen.result.value.roll == roll
      && r.screen.result.value.cd == m.cd
      && (r.screen.result.value.success <==> Succeeds(attributes, kind, roll, m.cd))
      && (kind.Attribute() in attributes ==>
            r.screen.result.value.total == Some(roll + attributes[kind.Attribute()]))
      && (kind.Attribute() !in attributes ==> r.screen.result.value.total.None?)
      && (r.calls != [] ==> r.screen.result.value.success)
      && r.calls == (if r.screen.result.value.success then Calls(kind, p) else [])
  {
    var kind := m.selected.value;
    var roll := RollDie(u, 20);
    var attribute := if kind.Attribute() in attributes then Some(attributes[kind.Attribute()]) else None;
    var total := if attribute.Some? then Some(roll + attribute.value) else None;
    var success := total.Some? && total.value >= m.cd;
    var result := RollResult(roll, attribute, total, m.cd, success);
    Outcome(m.(step := Result, result := Some(result)), if success then Calls(kind, p) else [])
  }

  /** `handleRoll()` in the dialog as the progression page mounts it, with
      neither `character` nor `onTrain`: the screen is the same, and a
      successful refinement or cultivation stops with a `TypeError` when it
      reads the level of the missing character, before any call is made. */
  datatype Unwired = Unwired(screen: Screen, throws: bool)

  function HandleRollUnwired(m: Screen, attributes: map<string, int>, u: real): (r: Unwired)
    requires m.selected.Some?
    ensures r.screen.result.Some?
    ensures r.throws <==> r.screen.result.value.success && m.selected.value != Technique
    ensures forall p: Progress :: r.screen == HandleRoll(m, attributes, p, u).screen
  {
    var o := HandleRoll(m, attributes, Progress(None, None, None), u);
    Unwired(o.screen, o.screen.result.value.success && m.selected.value != Technique)
  }

  /** A refinement roll of 1 plus vigor 10 against difficulty 10 succeeds: as
      mounted, the dialog throws where, wired to a character at level 0, it
      would call `onTrain('bodyRefinementLevel', 1)`. */
  lemma UnwiredRefinementThrows()
    ensures var m := Screen(CdInput, Some(BodyRefinement), 10, None);
      var attributes := map["vigor" := 10];
      && HandleRollUnwired(m, attributes, 0.0).throws
      && HandleRoll(m, attributes, Progress(None, None, None), 0.0).calls == [Call(BodyRefinementLevel, 1)]
  {
    assert RollDie(0.0, 20) == 1;
  }

  /** The dialog as it opens: `useState('options')`, `null`, `10` and `null`. */
  const Opened := Screen(Options, None, 10, None)

  /** Closing after a roll forgets the roll: the dialog is as it first opened. */
  lemma CloseForgetsRoll(m: Screen, attributes: map<string, int>, p: Progress, u: real)
    requires m.selected.Some?
    ensures Close(HandleRoll(m, attributes, p, u).screen) == Opened
    ensures Close(Close(m)) == Close(m)
  {
  }

  /** `resetAndClose()` */
  function Close(m: Screen): (r: Screen)
    ensures r.step == Options && r.selected.None? && r.cd == 10 && r.result.None?
  {
    Screen(Options, None, 10, None)
  }

  /** The two modals agree: the same roll succeeds in both, and the calls of the
      older one, applied in order, leave the character as the single update of
      the newer one does. */
  lemma AgreesWithSheetModal(cd: int, kind: Kind, attributes: map<string, int>, p: Progress, u: real, result: Option<RollResult>)
    ensures var legacy := HandleRoll(Screen(CdInput, Some(kind), cd, result), attributes, p, u);
      var sheet := Training.HandleRoll(Training.Modal(CdInput, Some(kind), cd), attributes, p, u);
      && legacy.screen.result.value.success == sheet.success
      && ApplyCalls(p, legacy.calls) == (if sheet.update.Some? then Apply(p, sheet.update.value) else p)
  {
    var legacy := HandleRoll(Screen(CdInput, Some(kind), cd, result), attributes, p, u);
    if legacy.calls != [] {
      CallsMatchUpdate(kind, p);
    }
  }

  lemma CallsMatchUpdate(kind: Kind, p: Progress)
    requires kind != Technique
    ensures ApplyCalls(p, Calls(kind, p)) == Apply(p, Advancement(kind, p).value)
  {
    var calls := Calls(kind, p);
    if kind == Cultivation && Mastery(p) >= 3 {
      var mid := ApplyCall(p, calls[0]);
      assert calls[1..] == [Call(MasteryLevel, 1)];
      assert calls[1..][1..] == [];
      assert ApplyCalls(mid, calls[1..]) == ApplyCall(mid, Call(MasteryLevel, 1));
    } else {
      assert calls[1..] == [];
    }
  }

  /** Between the two calls of a new stage the character holds the new stage
      with the old mastery: the intermediate state the single update avoids. */
  lemma StageCallsPassThroughMixedState(p: Progress)
    requires Mastery(p) >= 3
    ensures var calls := Calls(Cultivation, p);
      var mid := ApplyCall(p, calls[0]);
      Stage(mid) == Stage(p) + 1 && mid.masteryLevel == p.masteryLevel
  {
  }
}

=== FILE: player_combat.dfy ===
/**
  A player's side of a combat (src/hooks/usePlayerCombat.js): following the
  combat row by polling, deciding whether to prompt for initiative, sending
  the player's initiative, ending the turn and broadcasting a roll.

  The database is not modelled: a read is a parameter (the row it returns,
  `None` when there is none), and a write is part of the returned value.
 */
module PlayerCombat {
  import opened JsText
  import opened CombatRecord
  import CombatManager

  /** The hook's state: `combatData`, `combatDataRef.current` (the row the
      last poll stored, which sending and ending a turn leave alone) and
      `showInitiativeRoll`. */
  datatype PlayerState = PlayerState(combat: Option<Combat>, lastPolled: Option<Combat>, showPrompt: bool)

  /** The state after the combat is gone: nothing shown, nothing remembered. */
  const Cleared := PlayerState(None, None, false)

  // ---------------------------------------------------------------------------
  // Finding the player's entry
  // ---------------------------------------------------------------------------

  /** `k` is the first entry of `order` that belongs to character `me`. */
  predicate FirstEntryOf(order: seq<Participant>, me: string, k: int) {
    && 0 <= k < |order|
    && order[k].characterId == me
    && forall j :: 0 <= j < k ==> order[j].characterId != me
  }

  /** `order.findIndex(p => p.character_id === me)` */
  function FindIndex(order: seq<Participant>, me: string): (r: int)
    ensures -1 <= r < |order|
    ensures r == -1 <==> forall k :: 0 <= k < |order| ==> order[k].characterId != me
    ensures r != -1 ==> FirstEntryOf(order, me, r)
  {
    if order == [] then -1
    else if order[0].characterId == me then 0
    else
      var k := FindIndex(order[1..], me);
      if k == -1 then
        assert forall j :: 1 <= j < |order| ==> order[j].characterId == order[1..][j - 1].characterId;
        -1
      else
        assert forall j :: 1 <= j <= k ==> order[j].characterId == order[1..][j - 1].characterId;
        k + 1
  }

  /** Whether the player is asked for initiative: their entry exists and its
      initiative is `null`. */
  function Awaits(order: seq<Participant>, me: string): (r: bool)
    ensures r <==> exists k :: FirstEntryOf(order, me, k) && order[k].initiative.None?
  {
    var k := FindIndex(order, me);
    if k == -1 then false
    else
      assert forall j :: FirstEntryOf(order, me, j) ==> j == k;
      order[k].initiative.None?
  }

  // ---------------------------------------------------------------------------
  // fetchCombat
  // ---------------------------------------------------------------------------

  /** The state after a poll, and whether "O Combate terminou." is shown. */
  datatype Fetched = Fetched(state: PlayerState, ended: bool)

  /** `fetchCombat()`. `activeCombatId` is the character's `activeCombatId`;
      `row` is the combat row read for it. The row is compared by value with
      the last one polled, not with the shown combat. */
  function FetchCombat(state: PlayerState, me: string, activeCombatId: Option<string>, row: Option<Combat>): (r: Fetched)
    ensures !Truthy(activeCombatId) || row.None? ==>
      && (state.lastPolled.None? ==> r.state == state)
      && (state.lastPolled.Some? ==> r.state == Cleared)
    ensures r.ended <==> Truthy(activeCombatId) && row.None? && state.lastPolled.Some?
    ensures Truthy(activeCombatId) && row.Some? && row == state.lastPolled ==> r.state == state
    ensures Truthy(activeCombatId) && row.Some? && row != state.lastPolled ==>
      && r.state.combat == row
      && r.state.lastPolled == row
      && (r.state.showPrompt <==>
            row.value.status == PendingInitiative
            && exists k :: FirstEntryOf(row.value.turnOrder, me, k) && row.value.turnOrder[k].initiative.None?)
  {
    if !Truthy(activeCombatId) then
      if state.lastPolled.Some? then Fetched(Cleared, false) else Fetched(state, false)
    else if row.Some? then
      if row != state.lastPolled then
        var prompt := match row.value.status
          case PendingInitiative => Awaits(row.value.turnOrder, me)
          case Active => false;
        Fetched(PlayerState(row, row, prompt), false)
      else Fetched(state, false)
    else if state.lastPolled.Some? then Fetched(Cleared, true)
    else Fetched(state, false)
  }

  /** Polling the same row again changes nothing and announces nothing. */
  lemma FetchIdempotent(state: PlayerState, me: string, activeCombatId: Option<string>, row: Option<Combat>)
    ensures var once := FetchCombat(state, me, activeCombatId, row).state;
      FetchCombat(once, me, activeCombatId, row) == Fetched(once, false)
  {
  }

  /** The prompt never shows once the combat is active. */
  lemma ActiveHidesPrompt(state: PlayerState, me: string, activeCombatId: Option<string>, row: Combat)
    requires Truthy(activeCombatId) && row.status == Active && Some(row) != state.lastPolled
    ensures !FetchCombat(state, me, activeCombatId, Some(row)).state.showPrompt
  {
  }

  // ---------------------------------------------------------------------------
  // sendInitiative
  // ---------------------------------------------------------------------------

  /** The state after sending, and the turn order written to the row, if any. */
  datatype Sent = Sent(state: PlayerState, written: Option<seq<Participant>>)

  /** `sendInitiative(value)`. `row` is the combat re-read before writing. The
      player's first entry takes `value`, whether or not it already held one. */
  function SendInitiative(state: PlayerState, me: string, value: int, row: Option<Combat>): (r: Sent)
    ensures state.combat.None? || row.None? || FindIndex(row.value.turnOrder, me) == -1 ==> r == Sent(state, None)
    ensures state.combat.Some? && row.Some? && FindIndex(row.value.turnOrder, me) != -1 ==>
      var order := row.value.turnOrder;
      var k := FindIndex(order, me);
      && r.written.Some?
      && |r.written.value| == |order|
      && r.written.value[k] == order[k].(initiative := Some(value))
      && (forall j :: 0 <= j < |order| && j != k ==> r.written.value[j] == order[j])
      && r.state == state.(combat := Some(state.combat.value.(turnOrder := r.written.value)), showPrompt := false)
  {
    if state.combat.None? || row.None? then Sent(state, None)
    else
      var order := row.value.turnOrder;
      var k := FindIndex(order, me);
      if k == -1 then Sent(state, None)
      else
        var written := order[k := order[k].(initiative := Some(value))];
        Sent(state.(combat := Some(state.combat.value.(turnOrder := written)), showPrompt := false), Some(written))
  }

  /** Once the initiative is written, a poll of a row holding that turn order
      no longer prompts the player. */
  lemma SentStopsPrompt(state: PlayerState, me: string, value: int, row: Combat)
    requires state.combat.Some? && FindIndex(row.turnOrder, me) != -1
    ensures var written := SendInitiative(state, me, value, Some(row)).written;
      written.Some? && !Awaits(written.value, me)
  {
    var written := SendInitiative(state, me, value, Some(row)).written.value;
    var k := FindIndex(row.turnOrder, me);
    assert FirstEntryOf(written, me, k);
    assert forall j :: FirstEntryOf(written, me, j) ==> j == k;
  }

  /** A poll that reads back the row the initiative was sent against does not
      undo the sending: the sent order stays and the prompt stays hidden. */
  lemma StalePollKeepsSent(state: PlayerState, me: string, activeCombatId: Option<string>, row: Combat, value: int)
    requires Truthy(activeCombatId)
    ensures var polled := FetchCombat(state, me, activeCombatId, Some(row)).state;
      var sent := SendInitiative(polled, me, value, Some(row)).state;
      FetchCombat(sent, me, activeCombatId, Some(row)) == Fetched(sent, false)
  {
  }

  // ---------------------------------------------------------------------------
  // endTurn
  // ---------------------------------------------------------------------------

  /** The state after ending the turn, and the index written to the row, if any. */
  datatype Ended = Ended(state: PlayerState, written: Option<int>)

  /** `endTurn()`: the turn moves on; it does not check whose turn it is. */
  function EndTurn(state: PlayerState): (r: Ended)
    requires state.combat.Some? ==> |state.combat.value.turnOrder| > 0
    ensures state.combat.None? ==> r == Ended(state, None)
    ensures state.combat.Some? ==>
      var c := state.combat.value;
      && r.written.Some?
      && (c.currentTurnIndex >= -1 ==> 0 <= r.written.value < |c.turnOrder|)
      && (-1 <= c.currentTurnIndex < |c.turnOrder| - 1 ==> r.written.value == c.currentTurnIndex + 1)
      && (c.currentTurnIndex == |c.turnOrder| - 1 ==> r.written.value == 0)
      && r.state == state.(combat := Some(c.(currentTurnIndex := r.written.value)))
  {
    if state.combat.None? then Ended(state, None)
    else
      var c := state.combat.value;
      var next := NextIndex(c.currentTurnIndex, |c.turnOrder|);
      Ended(state.(combat := Some(c.(currentTurnIndex := next))), Some(next))
  }

  /** A player's `endTurn` and the game master's `nextTurn` move the turn to the same place. */
  lemma EndTurnMatchesNextTurn(state: PlayerState, logs: seq<LogEntry>)
    requires state.combat.Some? ==> |state.combat.value.turnOrder| > 0
    ensures EndTurn(state).state.combat == CombatManager.NextTurn(CombatManager.GmState(state.combat, logs)).combat
  {
  }

  // ---------------------------------------------------------------------------
  // sendPlayerLog
  // ---------------------------------------------------------------------------

  /** `'crit'` for a natural 20, `'fail'` for a natural 1, `'info'` otherwise. */
  function Classify(roll: int): (r: LogKind)
    ensures r == Crit <==> roll == 20
    ensures r == Fail <==> roll == 1
    ensures r == Info <==> roll != 20 && roll != 1
  {
    if roll == 20 then Crit else if roll == 1 then Fail else Info
  }

  const CritNote := " **CRÍTICO!**"
  const FailNote := " **FALHA CRÍTICA!**"

  /** The message of a player's roll: what was rolled, then the note of a
      natural 20 or a natural 1. */
  function LogMessage(name: string, action: string, total: int, roll: int, bonus: int): string {
    WithNotes(RollText(name, action, total, roll, bonus), roll)
  }

  /** `head`, then the note of a natural 20 or a natural 1. */
  function WithNotes(head: string, roll: int): string {
    head + (if roll == 20 then CritNote else "") + (if roll == 1 then FailNote else "")
  }

  /** `` `${name} usou **${action}**: Rolou **${total}** (${roll}${sign}${bonus}).` `` */
  function RollText(name: string, action: string, total: int, roll: int, bonus: int): (r: string)
    ensures r != [] && r[|r| - 1] == '.'
  {
    name + " usou **" + action + "**: Rolou **" + IntToString(total) + "** (" + IntToString(roll) + SignedText(bonus) + ")."
  }

  /** `sendPlayerLog(...)`: the entry written to the row's `last_roll`, or `None`
      without a combat. `now` and `timestamp` are the clock at the call. */
  function SendPlayerLog(state: PlayerState, characterId: string, name: string, action: string,
                         total: int, roll: int, bonus: int,
                         damageFormula: Option<string>, damageBonus: Option<int>,
                         now: int, timestamp: string): (r: Option<LogEntry>)
    ensures r.None? <==> state.combat.None?
    ensures r.Some? ==>
      && r.value.id == now
      && r.value.characterId == Some(characterId)
      && r.value.kind == Classify(roll)
      && r.value.message == LogMessage(name, action, total, roll, bonus)
      && r.value.damageFormula == damageFormula
      && r.value.damageBonus == damageBonus
  {
    if state.combat.None? then None
    else Some(LogEntry(now, Some(characterId), LogMessage(name, action, total, roll, bonus), Classify(roll),
                       timestamp, damageFormula, damageBonus))
  }

  predicate EndsWith(s: string, suffix: string) {
    |suffix| <= |s| && s[|s| - |suffix|..] == suffix
  }

  /** The end of the message tells the entry's type: the critical note for
      `'crit'`, the failure note for `'fail'`, the closing `.` for `'info'`. */
  lemma MessageTellsKind(name: string, action: string, total: int, roll: int, bonus: int)
    ensures var m := LogMessage(name, action, total, roll, bonus);
      && (EndsWith(m, CritNote) <==> Classify(roll) == Crit)
      && (EndsWith(m, FailNote) <==> Classify(roll) == Fail)
      && (m[|m| - 1] == '.' <==> Classify(roll) == Info)
  {
    NotesTellKind(RollText(name, action, total, roll, bonus), roll);
  }

  lemma NotesTellKind(head: string, roll: int)
    requires head != [] && head[|head| - 1] == '.'
    ensures var m := WithNotes(head, roll);
      && (EndsWith(m, CritNote) <==> Classify(roll) == Crit)
      && (EndsWith(m, FailNote) <==> Classify(roll) == Fail)
      && (m[|m| - 1] == '.' <==> Classify(roll) == Info)
  {
    if roll == 20 {
      assert WithNotes(head, roll) == head + CritNote;
      CritMessage(head);
    } else if roll == 1 {
      assert WithNotes(head, roll) == head + FailNote;
      FailMessage(head);
    } else {
      assert WithNotes(head, roll) == head;
      PlainMessage(head);
    }
  }

  lemma CritMessage(head: string)
    ensures var m := head + CritNote;
      EndsWith(m, CritNote) && !EndsWith(m, FailNote) && m[|m| - 1] == '*'
  {
    var m := head + CritNote;
    assert m[|m| - |CritNote|..] == CritNote;
    assert m[|m| - 4] == CritNote[9] == 'O';
    if |FailNote| <= |m| {
      assert m[|m| - |FailNote|..][15] == m[|m| - 4];
    }
  }

  lemma FailMessage(head: string)
    ensures var m := head + FailNote;
      EndsWith(m, FailNote) && !EndsWith(m, CritNote) && m[|m| - 1] == '*'
  {
    var m := head + FailNote;
    assert m[|m| - |FailNote|..] == FailNote;
    assert m[|m| - 4] == FailNote[15] == 'A';
    assert m[|m| - |CritNote|..][9] == m[|m| - 4];
  }

  lemma PlainMessage(head: string)
    requires head != [] && head[|head| - 1] == '.'
    ensures !EndsWith(head, CritNote) && !EndsWith(head, FailNote)
  {
    if |CritNote| <= |head| {
      assert head[|head| - |CritNote|..][|CritNote| - 1] == head[|head| - 1];
    }
    if |FailNote| <= |head| {
      assert head[|head| - |FailNote|..][|FailNote| - 1] == head[|head| - 1];
    }
  }
}

=== FILE: quick_stat_input.dfy ===
/**
  The inline editor of a numeric stat (src/components/ui/QuickStatInput.jsx):
  what the typed text becomes when editing ends, and whether it is saved.
  `+n` and `-n` move the current value, anything else replaces it; the
  result is clamped to zero and to the optional maximum.
 */
module QuickStatInput {
  import opened JsText

  /** The editor: whether it is open, and the text in the input. */
  datatype Editor = Editor(editing: bool, text: string)

  /** The text left in the input, and the value passed to `onSave`, if any. */
  datatype Processed = Processed(text: string, save: Option<int>)

  /** The value the text asks for, before clamping: a delta for a leading sign,
      an absolute value otherwise; unreadable text keeps the current value. */
  function Requested(s: string, value: int): int {
    var n := ParseInt(s);
    if StartsWith(s, "+") || StartsWith(s, "-") then
      (if n.Some? then value + n.value else value)
    else if n.Some? then n.value
    else value
  }

  /** `if (v < 0) v = 0; if (maxValue !== undefined && v > maxValue) v = maxValue` */
  function Clamp(v: int, maxValue: Option<int>): (r: int)
    ensures maxValue.Some? ==> r <= maxValue.value
    ensures maxValue.None? || maxValue.value >= 0 ==> r >= 0
    ensures 0 <= v && (maxValue.None? || v <= maxValue.value) ==> r == v
  {
    var low := if v < 0 then 0 else v;
    if maxValue.Some? && low > maxValue.value then maxValue.value else low
  }

  /** `processInput()` for the text `text` and the stat's current `value`. */
  function ProcessInput(text: string, value: int, maxValue: Option<int>): (r: Processed)
    ensures Trim(text) == "" ==> r == Processed(IntToString(value), None)
    ensures r.save.None? ==> r.text == IntToString(value)
    ensures r.save.Some? ==> r.text == text && r.save.value != value
    ensures r.save.Some? && maxValue.Some? ==> r.save.value <= maxValue.value
    ensures r.save.Some? && (maxValue.None? || maxValue.value >= 0) ==> r.save.value >= 0
    ensures Trim(text) != "" ==>
      var v := Clamp(Requested(Trim(text), value), maxValue);
      r.save == if v != value then Some(v) else None
  {
    var s := Trim(text);
    if s == "" then Processed(IntToString(value), None)
    else
      var v := Clamp(Requested(s, value), maxValue);
      if v != value then Processed(text, Some(v)) else Processed(IntToString(value), None)
  }

  /** `handleKeyDown(e)`: Enter ends editing through the blur handler, Escape
      ends it restoring the value, any other key changes nothing. The second
      component is the value saved, if any. */
  function KeyDown(editor: Editor, key: string, value: int, maxValue: Option<int>): (r: (Editor, Option<int>))
    ensures key == "Escape" ==> r == (Editor(false, IntToString(value)), None)
    ensures key != "Enter" && key != "Escape" ==> r == (editor, None)
    ensures key == "Enter" ==> !r.0.editing
  {
    if key == "Enter" then Blur(editor, value, maxValue)
    else if key == "Escape" then (Editor(false, IntToString(value)), None)
    else (editor, None)
  }

  /** `handleBlur()`: editing ends and the text is processed. */
  function Blur(editor: Editor, value: int, maxValue: Option<int>): (r: (Editor, Option<int>))
    ensures !r.0.editing
    ensures r.1 == ProcessInput(editor.text, value, maxValue).save
  {
    var p := ProcessInput(editor.text, value, maxValue);
    (Editor(false, p.text), p.save)
  }

  // ---------------------------------------------------------------------------
  // What the typed text means
  // ---------------------------------------------------------------------------

  /** A signed number moves the value by that much, when the result is within bounds. */
  lemma DeltaMoves(value: int, delta: int, maxValue: Option<int>)
    requires delta != 0
    requires 0 <= value + delta && (maxValue.None? || value + delta <= maxValue.value)
    ensures ProcessInput(SignedText(delta), value, maxValue) == Processed(SignedText(delta), Some(value + delta))
  {
    SignedTextReadsBack(delta);
    SignedUnpadded(delta);
    DeltaText(SignedText(delta), value, delta, maxValue);
  }

  lemma DeltaText(s: string, value: int, delta: int, maxValue: Option<int>)
    requires Trim(s) == s && (StartsWith(s, "+") || StartsWith(s, "-")) && ParseInt(s) == Some(delta)
    requires delta != 0
    requires 0 <= value + delta && (maxValue.None? || value + delta <= maxValue.value)
    ensures ProcessInput(s, value, maxValue) == Processed(s, Some(value + delta))
  {
    assert s != "";
  }

  /** A move past the maximum saves the maximum, and one below zero saves zero,
      unless the value is already there. */
  lemma DeltaSaturates(value: int, delta: int, maxValue: Option<int>)
    requires delta != 0
    ensures maxValue.Some? && maxValue.value >= 0 && value + delta > maxValue.value && value != maxValue.value
      ==> ProcessInput(SignedText(delta), value, maxValue).save == Some(maxValue.value)
    ensures value + delta < 0 && value != 0 && (maxValue.None? || maxValue.value >= 0)
      ==> ProcessInput(SignedText(delta), value, maxValue).save == Some(0)
  {
    SignedTextReadsBack(delta);
    SignedUnpadded(delta);
    SaturateText(SignedText(delta), value, delta, maxValue);
  }

  lemma SaturateText(s: string, value: int, delta: int, maxValue: Option<int>)
    requires Trim(s) == s && (StartsWith(s, "+") || StartsWith(s, "-")) && ParseInt(s) == Some(delta)
    ensures s != "" && Requested(s, value) == value + delta
    ensures maxValue.Some? && maxValue.value >= 0 && value + delta > maxValue.value && value != maxValue.value
      ==> ProcessInput(s, value, maxValue).save == Some(maxValue.value)
    ensures value + delta < 0 && value != 0 && (maxValue.None? || maxValue.value >= 0)
      ==> ProcessInput(s, value, maxValue).save == Some(0)
  {
  }

  /** A plain number replaces the value, when it is within bounds and differs. */
  lemma AbsoluteSets(value: int, n: nat, maxValue: Option<int>)
    requires maxValue.None? || n <= maxValue.value
    ensures ProcessInput(NatToString(n), value, maxValue).save == if n == value then None else Some(n)
  {
    var s := NatToString(n);
    ParseIntRoundTrip(n);
    assert IntToString(n) == s;
    assert ParseInt(s) == Some(n as int);
    DigitsUnpadded(s);
    AbsoluteText(s, value, n, maxValue);
  }

  lemma DigitsUnpadded(s: string)
    requires s != [] && AllDigits(s)
    ensures Trim(s) == s && !StartsWith(s, "+") && !StartsWith(s, "-")
  {
    assert IsDigit(s[0]) && IsDigit(s[|s| - 1]);
    Unpadded(s);
  }

  lemma AbsoluteText(s: string, value: int, n: int, maxValue: Option<int>)
    requires s != [] && Trim(s) == s && !StartsWith(s, "+") && !StartsWith(s, "-") && ParseInt(s) == Some(n)
    requires 0 <= n && (maxValue.None? || n <= maxValue.value)
    ensures ProcessInput(s, value, maxValue).save == if n == value then None else Some(n)
  {
  }

  /** Text that is not a number leaves an in-bounds value as it was. */
  lemma UnreadableKeepsValue(text: string, value: int, maxValue: Option<int>)
    requires ParseInt(Trim(text)) == None
    requires 0 <= value && (maxValue.None? || value <= maxValue.value)
    ensures ProcessInput(text, value, maxValue) == Processed(IntToString(value), None)
  {
  }

  /** A value outside the bounds is pulled back into them by any unreadable text. */
  lemma UnreadableClamps(text: string, value: int, maxValue: Option<int>)
    requires Trim(text) != "" && ParseInt(Trim(text)) == None
    requires value < 0 && (maxValue.None? || maxValue.value >= 0)
    ensures ProcessInput(text, value, maxValue).save == Some(0)
  {
  }

  /** Escape never saves, whatever was typed. */
  lemma EscapeNeverSaves(editor: Editor, value: int, maxValue: Option<int>)
    ensures KeyDown(editor, "Escape", value, maxValue).1 == None
    ensures KeyDown(editor, "Escape", value, maxValue).0.text == IntToString(value)
  {
  }

  /** Entering the same absolute value again, once it is saved, saves nothing. */
  lemma SaveSettles(text: string, value: int, maxValue: Option<int>)
    requires ProcessInput(text, value, maxValue).save.Some?
    requires !StartsWith(Trim(text), "+") && !StartsWith(Trim(text), "-")
    ensures var v := ProcessInput(text, value, maxValue).save.value;
      ProcessInput(text, v, maxValue).save.None?
  {
    var s := Trim(text);
    var v := Clamp(Requested(s, value), maxValue);
    if ParseInt(s).None? {
      assert Clamp(v, maxValue) == v;
    }
  }

  lemma SignedUnpadded(n: int)
    ensures Trim(SignedText(n)) == SignedText(n)
    ensures StartsWith(SignedText(n), "+") || StartsWith(SignedText(n), "-")
  {
    var digits := NatToString(if n >= 0 then n else -n);
    var sign := if n >= 0 then '+' else '-';
    assert SignedText(n) == [sign] + digits;
    SignDigitsUnpadded(sign, digits);
  }

  lemma SignDigitsUnpadded(sign: char, digits: string)
    requires sign == '+' || sign == '-'
    requires digits != [] && AllDigits(digits)
    ensures Trim([sign] + digits) == [sign] + digits
    ensures StartsWith([sign] + digits, "+") || StartsWith([sign] + digits, "-")
  {
    var s := [sign] + digits;
    assert s[|s| - 1] == digits[|digits| - 1] && IsDigit(digits[|digits| - 1]);
    Unpadded(s);
    assert s[..1] == [sign];
  }

  lemma Unpadded(s: string)
    requires s != [] && !IsSpace(s[0]) && !IsSpace(s[|s| - 1])
    ensures Trim(s) == s
  {
    assert TrimStart(s) == s;
  }
}

=== FILE: roll_test.dfy ===
/**
  The test-roll dialog of the character sheet
  (src/components/character-sheet/RollTestModal.jsx): a damage formula
  rolled with the dice engine, or a d20 rolled normally, with advantage
  (the higher of two) or with disadvantage (the lower of two).
 */
module RollTest {
  import opened JsText
  import opened Dice

  /** The result handed to `onRollComplete`. `total` and `modifier` are `None`
      where they are `NaN` and `undefined` (a d20 roll without a modifier). */
  datatype RollResult = RollResult(roll: int, rolls: seq<int>, total: Option<int>, modifier: Option<int>,
                                   mode: string, formula: Option<string>, name: string)

  /** `displayNumber`, `finalResult` and `isAnimating`. */
  datatype Dialog = Dialog(display: Option<int>, result: Option<RollResult>, animating: bool)

  /** The state the dialog is reset to when it closes. */
  const Reset := Dialog(None, None, false)

  /** The result of a roll; the random numbers are `rng(0)`, `rng(1)`, ...
      A formula selects damage mode, whatever the mode asked for. */
  function Outcome(title: string, modifier: Option<int>, diceFormula: Option<string>, mode: string, rng: Rng): (r: RollResult)
    ensures Truthy(diceFormula) ==> r == DamageOutcome(title, modifier, diceFormula, rng)
    ensures !Truthy(diceFormula) ==> r == D20Outcome(title, modifier, mode, rng)
  {
    if Truthy(diceFormula) then DamageOutcome(title, modifier, diceFormula, rng)
    else D20Outcome(title, modifier, mode, rng)
  }

  /** Damage mode: the formula's dice, and its modifier plus the extra one. */
  function DamageOutcome(title: string, modifier: Option<int>, diceFormula: Option<string>, rng: Rng): (r: RollResult)
    ensures var config := ParseDiceString(diceFormula);
      var bonus := config.modifier + OrNumber(modifier, 0);
      && r.name == title && r.mode == "damage" && r.formula == diceFormula
      && |r.rolls| == (if config.count > 0 then config.count else 0)
      && (forall i :: 0 <= i < |r.rolls| ==> r.rolls[i] == RollDie(rng(i), config.faces))
      && r.roll == Sum(r.rolls)
      && r.modifier == Some(bonus)
      && r.total == Some(r.roll + bonus)
  {
    var config := ParseDiceString(diceFormula);
    var dice := RollDice(config.count, config.faces, rng);
    var bonus := config.modifier + OrNumber(modifier, 0);
    RollResult(dice.total, dice.rolls, Some(dice.total + bonus), Some(bonus), "damage", diceFormula, title)
  }

  /** A d20 mode: one die, or the higher or lower of two. */
  function D20Outcome(title: string, modifier: Option<int>, mode: string, rng: Rng): (r: RollResult)
    ensures var first := RollDie(rng(0), 20);
      var second := RollDie(rng(1), 20);
      && r.name == title && r.mode == mode && r.formula.None? && r.modifier == modifier
      && (mode == "advantage" ==> r.rolls == [first, second] && r.roll == (if first >= second then first else second))
      && (mode == "disadvantage" ==> r.rolls == [first, second] && r.roll == (if first <= second then first else second))
      && (mode != "advantage" && mode != "disadvantage" ==> r.rolls == [first] && r.roll == first)
      && (modifier.Some? ==> r.total == Some(r.roll + modifier.value))
      && (modifier.None? ==> r.total.None?)
  {
    var first := RollDie(rng(0), 20);
    var second := RollDie(rng(1), 20);
    var advantage := mode == "advantage";
    var disadvantage := mode == "disadvantage";
    var roll :=
      if advantage then (if first >= second then first else second)
      else if disadvantage then (if first <= second then first else second)
      else first;
    var rolls := if advantage || disadvantage then [first, second] else [first];
    var total := if modifier.Some? then Some(roll + modifier.value) else None;
    RollResult(roll, rolls, total, modifier, mode, None, title)
  }

  /** `handleRoll(mode)`: ignored while a roll is animating or once a result is
      shown; otherwise the animation starts. The second component is the result
      the animation will deliver, `None` when the click was ignored. */
  function HandleRoll(d: Dialog, title: string, modifier: Option<int>, diceFormula: Option<string>, mode: string, rng: Rng): (r: (Dialog, Option<RollResult>))
    ensures d.animating || d.result.Some? ==> r == (d, None)
    ensures !d.animating && d.result.None? ==>
      r.0 == d.(animating := true) && r.1 == Some(Outcome(title, modifier, diceFormula, mode, rng))
  {
    if d.animating || d.result.Some? then (d, None)
    else (d.(animating := true), Some(Outcome(title, modifier, diceFormula, mode, rng)))
  }

  /** The last timeout: the animation stops and the result is shown. */
  function Finish(d: Dialog, result: RollResult): (r: Dialog)
    ensures !r.animating && r.display.None? && r.result == Some(result)
  {
    Dialog(None, Some(result), false)
  }

  /** Closing the dialog clears the result, the animation flag and the number shown. */
  function Close(d: Dialog): (r: Dialog)
    ensures r.result.None? && !r.animating && r.display.None?
  {
    Reset
  }

  // ---------------------------------------------------------------------------
  // Properties
  // ---------------------------------------------------------------------------

  /** One roll per opening: once a roll has started, or finished, further
      clicks are ignored until the dialog is closed, after which a click rolls. */
  lemma OneRollPerOpening(d: Dialog, title: string, modifier: Option<int>, diceFormula: Option<string>, mode: string, rng: Rng, rng2: Rng)
    requires !d.animating && d.result.None?
    ensures var (started, result) := HandleRoll(d, title, modifier, diceFormula, mode, rng);
      && HandleRoll(started, title, modifier, diceFormula, mode, rng2).1.None?
      && HandleRoll(Finish(started, result.value), title, modifier, diceFormula, mode, rng2).1.None?
      && HandleRoll(Close(Finish(started, result.value)), title, modifier, diceFormula, mode, rng2).1.Some?
  {
  }

  /** The result shown when the animation ends is the outcome rolled at the click. */
  lemma ShownIsRolled(d: Dialog, title: string, modifier: Option<int>, diceFormula: Option<string>, mode: string, rng: Rng)
    requires !d.animating && d.result.None?
    ensures var (started, result) := HandleRoll(d, title, modifier, diceFormula, mode, rng);
      && result.Some?
      && Finish(started, result.value).result == Some(Outcome(title, modifier, diceFormula, mode, rng))
  {
  }

  /** With the same dice, advantage never reads lower than a normal roll and
      disadvantage never higher. */
  lemma AdvantageOrdering(title: string, modifier: Option<int>, rng: Rng)
    ensures var advantage := Outcome(title, modifier, None, "advantage", rng).roll;
      var normal := Outcome(title, modifier, None, "normal", rng).roll;
      var disadvantage := Outcome(title, modifier, None, "disadvantage", rng).roll;
      disadvantage <= normal <= advantage
  {
  }

  /** Every d20 of a test roll lies in 1..20, and so does the roll read from them. */
  lemma D20InRange(title: string, modifier: Option<int>, mode: string, rng: Rng)
    requires Unit(rng)
    ensures var r := Outcome(title, modifier, None, mode, rng);
      && (forall i :: 0 <= i < |r.rolls| ==> 1 <= r.rolls[i] <= 20)
      && 1 <= r.roll <= 20
      && r.roll in r.rolls
  {
    DieInRange(rng(0), 20);
    DieInRange(rng(1), 20);
  }

  /** A damage roll lies between all ones and all maximums, plus the modifiers. */
  lemma DamageRange(title: string, modifier: Option<int>, diceFormula: string, rng: Rng)
    requires Unit(rng) && diceFormula != ""
    ensures var config := ParseDiceString(Some(diceFormula));
      var r := Outcome(title, modifier, Some(diceFormula), "normal", rng);
      var bonus := config.modifier + OrNumber(modifier, 0);
      config.faces >= 1 ==>
        && r.total.Some?
        && config.count + bonus <= r.total.value <= config.count * config.faces + bonus
  {
    var config := ParseDiceString(Some(diceFormula));
    if config.faces >= 1 {
      assert config.count >= 0;
      RollDiceInRange(config.count, config.faces, rng);
    }
  }
}

=== FILE: stable_sort.dfy ===
/**
  `Array.prototype.sort` with the comparator `(a, b) => key(b) - key(a)`:
  a stable sort into non-increasing key order. It is written as an insertion
  sort and specified by its output order, its multiset of elements and its
  stability (the elements of each key keep their input order).
 */
module StableSort {

  predicate SortedDesc<T>(s: seq<T>, key: T -> int) {
    forall i, j :: 0 <= i < j < |s| ==> key(s[i]) >= key(s[j])
  }

  /** The elements of `s` whose key is `k`, in order. */
  function WithKey<T>(s: seq<T>, key: T -> int, k: int): seq<T> {
    if s == [] then []
    else if key(s[0]) == k then [s[0]] + WithKey(s[1..], key, k)
    else WithKey(s[1..], key, k)
  }

  /** Places `x` before the first element whose key is not greater than its own. */
  function Insert<T>(x: T, t: seq<T>, key: T -> int): (r: seq<T>)
    ensures |r| == |t| + 1
    ensures multiset(r) == multiset(t) + multiset{x}
  {
    if t != [] && key(t[0]) > key(x) then
      var r := [t[0]] + Insert(x, t[1..], key);
      assert t == [t[0]] + t[1..];
      r
    else [x] + t
  }

  function Sort<T>(s: seq<T>, key: T -> int): (r: seq<T>)
    ensures |r| == |s|
    ensures multiset(r) == multiset(s)
    ensures SortedDesc(r, key)
  {
    if s == [] then []
    else
      var rest := Sort(s[1..], key);
      InsertSorted(s[0], rest, key);
      assert s == [s[0]] + s[1..];
      Insert(s[0], rest, key)
  }

  /** The sort is stable: the elements of every key keep their input order. */
  lemma {:induction false} SortStable<T>(s: seq<T>, key: T -> int, k: int)
    ensures WithKey(Sort(s, key), key, k) == WithKey(s, key, k)
  {
    if s != [] {
      SortStable(s[1..], key, k);
      InsertWithKey(s[0], Sort(s[1..], key), key, k);
    }
  }

  lemma {:induction false} InsertSorted<T>(x: T, t: seq<T>, key: T -> int)
    requires SortedDesc(t, key)
    ensures SortedDesc(Insert(x, t, key), key)
  {
    if t != [] && key(t[0]) > key(x) {
      InsertSorted(x, t[1..], key);
      var r := Insert(x, t[1..], key);
      assert forall j :: 0 <= j < |r| ==> key(r[j]) <= key(t[0]) by {
        InsertBounded(x, t[1..], key, key(t[0]));
      }
    }
  }

  /** Inserting keeps every key under a bound that `x` and `t` respect. */
  lemma {:induction false} InsertBounded<T>(x: T, t: seq<T>, key: T -> int, bound: int)
    requires key(x) <= bound
    requires forall j :: 0 <= j < |t| ==> key(t[j]) <= bound
    ensures forall j :: 0 <= j < |Insert(x, t, key)| ==> key(Insert(x, t, key)[j]) <= bound
  {
    if t != [] && key(t[0]) > key(x) {
      InsertBounded(x, t[1..], key, bound);
    }
  }

  /** `x` lands after the elements of greater key, so among the elements of its
      own key it comes first. */
  lemma {:induction false} InsertWithKey<T>(x: T, t: seq<T>, key: T -> int, k: int)
    ensures WithKey(Insert(x, t, key), key, k)
         == if key(x) == k then [x] + WithKey(t, key, k) else WithKey(t, key, k)
  {
    if t != [] && key(t[0]) > key(x) {
      InsertWithKey(x, t[1..], key, k);
      var r := Insert(x, t, key);
      assert r[1..] == Insert(x, t[1..], key);
    } else {
      var r := [x] + t;
      assert r[1..] == t;
    }
  }

  /** Sorting a sorted sequence changes nothing. */
  lemma {:induction false} SortSortedIsIdentity<T>(s: seq<T>, key: T -> int)
    requires SortedDesc(s, key)
    ensures Sort(s, key) == s
  {
    if s != [] {
      SortSortedIsIdentity(s[1..], key);
      assert Sort(s[1..], key) == s[1..];
      if s[1..] != [] {
        assert key(s[1..][0]) <= key(s[0]);
      }
      assert Insert(s[0], s[1..], key) == s;
    }
  }
}

=== FILE: start_combat.dfy ===
/**
  The dialog where the game master picks the combatants
  (src/components/gm/StartCombatModal.jsx): adding NPCs by name and
  initiative bonus, toggling characters in and out, and starting.
  The chosen list goes to `onStartCombat`, which the game master page
  (src/pages/GameMasterPanel.jsx:344-349) binds to its own
  `handleStartCombat`, modelled as `GameMasterPanel.StartCombat`: it rolls
  and sorts the list itself and inserts an active combat. No caller of
  `createCombat` (src/hooks/useCombatManager.js) is part of this model.
 */
module StartCombat {
  import opened JsText
  import opened CombatRecord
  import opened CombatManager
  import GameMasterPanel

  /** `combatants`, `npcName` and `npcInitiativeBonus`. */
  datatype Picker = Picker(combatants: seq<Candidate>, npcName: string, npcBonus: int)

  const Empty := Picker([], "", 0)

  /** The NPC the form adds at the clock reading `now`. */
  function NewNpc(name: string, bonus: int, now: int): Candidate {
    Candidate("npc_" + IntToString(now), name, true, false, None, None, None, None, Some(map["agility" := bonus]))
  }

  /** `handleAddNpc(e)` at the clock reading `now`. */
  function AddNpc(p: Picker, now: int): (r: Picker)
    ensures p.npcName == "" ==> r == p
    ensures p.npcName != "" ==>
      && r.combatants == p.combatants + [NewNpc(p.npcName, p.npcBonus, now)]
      && r.npcName == "" && r.npcBonus == 0
  {
    if p.npcName == "" then p
    else Picker(p.combatants + [NewNpc(p.npcName, p.npcBonus, now)], "", 0)
  }

  /** The bonus field: `parseInt(value, 10) || 0`. */
  function SetBonus(p: Picker, text: string): (r: Picker)
    ensures r.combatants == p.combatants && r.npcName == p.npcName
  {
    p.(npcBonus := ParseIntOrZero(text))
  }

  /** A bonus typed as a number is the bonus the next NPC rolls with. */
  lemma TypedBonusReachesNpc(p: Picker, n: int, now: int)
    requires p.npcName != ""
    ensures AddNpc(SetBonus(p, IntToString(n)), now).combatants == p.combatants + [NewNpc(p.npcName, n, now)]
  {
    ParseIntRoundTrip(n);
  }

  predicate Selected(cs: seq<Candidate>, id: string) {
    exists k :: 0 <= k < |cs| && cs[k].id == id
  }

  /** `prev.filter(c => c.id !== id)` */
  function Without(cs: seq<Candidate>, id: string): (r: seq<Candidate>)
    ensures !Selected(r, id)
    ensures forall x :: x in r <==> x in cs && x.id != id
    ensures !Selected(cs, id) ==> r == cs
  {
    if cs == [] then []
    else
      var rest := Without(cs[1..], id);
      assert forall x :: x in cs <==> x == cs[0] || x in cs[1..];
      assert forall k :: 0 <= k < |cs| - 1 ==> cs[1..][k] == cs[k + 1];
      var r := if cs[0].id == id then rest else [cs[0]] + rest;
      assert forall k :: 0 <= k < |r| ==> r[k] in rest || r[k] == cs[0];
      r
  }

  /** `handleToggleParticipant(char)`: a selected id is removed everywhere it
      occurs, an unselected character is appended. */
  function Toggle(p: Picker, c: Candidate): (r: Picker)
    ensures r.npcName == p.npcName && r.npcBonus == p.npcBonus
    ensures Selected(p.combatants, c.id) ==>
      && !Selected(r.combatants, c.id)
      && (forall x :: x in r.combatants <==> x in p.combatants && x.id != c.id)
    ensures !Selected(p.combatants, c.id) ==> r.combatants == p.combatants + [c]
  {
    if Selected(p.combatants, c.id) then p.(combatants := Without(p.combatants, c.id))
    else p.(combatants := p.combatants + [c])
  }

  /** `handleClose()` */
  function Close(p: Picker): (r: Picker)
    ensures r.combatants == [] && r.npcName == "" && r.npcBonus == 0
  {
    Empty
  }

  /** The Start button is enabled only with someone chosen. */
  predicate CanStart(p: Picker) {
    |p.combatants| > 0
  }

  /** `handleStart()`: the chosen list goes to `onStartCombat` and the dialog is reset. */
  function Start(p: Picker): (r: (Picker, seq<Candidate>))
    ensures r.0 == Empty && r.1 == p.combatants
  {
    (Close(p), p.combatants)
  }

  // ---------------------------------------------------------------------------
  // Properties
  // ---------------------------------------------------------------------------

  /** Toggling a character in and out again restores the list. */
  lemma ToggleTwice(p: Picker, c: Candidate)
    requires !Selected(p.combatants, c.id)
    ensures Toggle(Toggle(p, c), c) == p
  {
    var added := p.combatants + [c];
    assert added[|added| - 1].id == c.id;
    WithoutLast(p.combatants, c);
  }

  lemma {:induction false} WithoutLast(cs: seq<Candidate>, c: Candidate)
    requires !Selected(cs, c.id)
    ensures Without(cs + [c], c.id) == cs
  {
    if cs != [] {
      assert (cs + [c])[1..] == cs[1..] + [c];
      assert forall k :: 0 <= k < |cs| - 1 ==> cs[1..][k] == cs[k + 1];
      WithoutLast(cs[1..], c);
      assert cs[0].id != c.id;
    } else {
      assert [c][1..] == [];
    }
  }

  /** An NPC of this dialog has the shape `createCombat` would take for an
      NPC: it is one by its `npc_` id, it would roll d20 plus the bonus typed
      in the form, and, its id not starting with "npc_temp", it would be sent
      a back-reference like any character. */
  lemma NewNpcInCombat(name: string, bonus: int, now: int, u: real)
    ensures IsNpc(NewNpc(name, bonus, now))
    ensures Initiative(u, AttributesOf(NewNpc(name, bonus, now))) == Dice.RollDie(u, 20) + bonus
    ensures !StartsWith(NewNpc(name, bonus, now).id, "npc_temp")
  {
    var id := NewNpc(name, bonus, now).id;
    assert id[..4] == "npc_";
    var digits := IntToString(now);
    assert id[4] == digits[0];
    assert digits[0] != 't' by {
      if now >= 0 {
        assert IsDigit(NatToString(now)[0]);
      }
    }
    if |id| >= 8 {
      assert id[..8][4] == id[4];
    }
  }

  // ---------------------------------------------------------------------------
  // The page the dialog is mounted in
  // ---------------------------------------------------------------------------

  /** The fields of a chosen entry that `handleStartCombat` reads: `id`,
      `name`, `attributes` and `image_url`. */
  function AsChosen(c: Candidate): GameMasterPanel.Chosen {
    GameMasterPanel.Chosen(c.id, c.name, c.attributes, c.imageUrlRow)
  }

  /** `onStartCombat(combatants)` as the game master page receives it. */
  function Handed(cs: seq<Candidate>): (r: seq<GameMasterPanel.Chosen>)
    ensures |r| == |cs| && forall k :: 0 <= k < |cs| ==> r[k] == AsChosen(cs[k])
  {
    seq(|cs|, k requires 0 <= k < |cs| => AsChosen(cs[k]))
  }

  /** Adding an NPC and starting: the game master page puts the NPC, rolled as
      d20 plus the typed bonus, into an active combat at index 0, one entry
      per chosen combatant. */
  lemma AddedNpcJoinsCombat(p: Picker, now: int, gmId: string, rng: Dice.Rng)
    requires p.npcName != "" && Dice.Unit(rng)
    ensures var list := Start(AddNpc(p, now)).1;
      var c := GameMasterPanel.StartCombat(gmId, Handed(list), rng);
      var initiative := Dice.RollDie(rng(|p.combatants|), 20) + p.npcBonus;
      && c.isActive && c.currentTurnIndex == 0 && |c.turnOrder| == |list|
      && GameMasterPanel.Entry(NewNpc(p.npcName, p.npcBonus, now).id, p.npcName, initiative, None) in c.turnOrder
      && 1 + p.npcBonus <= initiative <= 20 + p.npcBonus
  {
    var list := Start(AddNpc(p, now)).1;
    var k := |p.combatants|;
    assert list[k] == NewNpc(p.npcName, p.npcBonus, now);
    GameMasterPanel.StartCombatRolls(gmId, Handed(list), rng, k);
  }
}

=== FILE: training.dfy ===
/**
  The training modal of the character sheet
  (src/components/character-sheet/TrainingOptionsModal.jsx): a d20 plus the
  attribute of the chosen training against a difficulty, and on success the
  next step of body refinement or of cultivation (three mastery levels per
  stage).
 */
module Training {
  import opened JsText
  import opened Dice

  /** The three trainings of `trainingOptions`. */
  datatype Kind = Technique | BodyRefinement | Cultivation {
    /** The attribute each training rolls. */
    function Attribute(): string {
      match this
      case Technique => "comprehension"
      case BodyRefinement => "vigor"
      case Cultivation => "discipline"
    }

    function Id(): string {
      match this
      case Technique => "technique"
      case BodyRefinement => "body_refinement"
      case Cultivation => "cultivation"
    }
  }

  /** `trainingOptions.find(opt => opt.id === id)` */
  function Find(id: string): (r: Option<Kind>)
    ensures r.Some? ==> r.value.Id() == id
    ensures r.None? ==> forall k: Kind :: k.Id() != id
  {
    if id == "technique" then Some(Technique)
    else if id == "body_refinement" then Some(BodyRefinement)
    else if id == "cultivation" then Some(Cultivation)
    else None
  }

  /** The progression fields of a character; `None` is a missing field. */
  datatype Progress = Progress(bodyRefinementLevel: Option<int>, cultivationStage: Option<int>, masteryLevel: Option<int>)

  /** An object passed to `onTrain`: the fields it sets. */
  datatype Update = Update(bodyRefinementLevel: Option<int>, cultivationStage: Option<int>, masteryLevel: Option<int>)

  /** The character after `onTrain(update)`: the fields of the update overwrite its own. */
  function Apply(p: Progress, u: Update): Progress {
    Progress(if u.bodyRefinementLevel.Some? then u.bodyRefinementLevel else p.bodyRefinementLevel,
             if u.cultivationStage.Some? then u.cultivationStage else p.cultivationStage,
             if u.masteryLevel.Some? then u.masteryLevel else p.masteryLevel)
  }

  /** Stage and mastery as the modal reads them (`|| 0`). */
  function Stage(p: Progress): int { OrNumber(p.cultivationStage, 0) }
  function Mastery(p: Progress): int { OrNumber(p.masteryLevel, 0) }
  function Level(p: Progress): int { OrNumber(p.bodyRefinementLevel, 0) }

  /** `total >= cdValue` with `total = roll + characterAttributes[attribute]`;
      a missing attribute makes the total `NaN`, which never succeeds. */
  predicate Succeeds(attributes: map<string, int>, kind: Kind, roll: int, cd: int) {
    kind.Attribute() in attributes && roll + attributes[kind.Attribute()] >= cd
  }

  /** The progression a successful training earns. */
  function Advancement(kind: Kind, p: Progress): (r: Option<Update>)
    ensures r.None? <==> kind == Technique
    ensures kind == BodyRefinement ==> r == Some(Update(Some(Level(p) + 1), None, None))
    ensures kind == Cultivation && Mastery(p) < 3 ==> r == Some(Update(None, None, Some(Mastery(p) + 1)))
    ensures kind == Cultivation && Mastery(p) >= 3 ==> r == Some(Update(None, Some(Stage(p) + 1), Some(1)))
  {
    match kind
    case Technique => None
    case BodyRefinement => Some(Update(Some(Level(p) + 1), None, None))
    case Cultivation =>
      if Mastery(p) < 3 then Some(Update(None, None, Some(Mastery(p) + 1)))
      else Some(Update(None, Some(Stage(p) + 1), Some(1)))
  }

  // ---------------------------------------------------------------------------
  // The modal
  // ---------------------------------------------------------------------------

  /** The screens of both training dialogs. This one goes from `CdInput`
      straight back to `Options` after a roll; only the older dialog
      (`LegacyTraining`) stops on a `Result` screen. */
  datatype Step = Options | CdInput | Result

  /** `step`, `selectedTraining` and `cdValue`. */
  datatype Modal = Modal(step: Step, selected: Option<Kind>, cd: int)

  /** The state `resetAndClose()` leaves. */
  const Closed := Modal(Options, None, 10)

  /** `handleSelectTraining(id)` */
  function Select(m: Modal, id: string): (r: Modal)
    ensures r.step == CdInput && r.cd == m.cd
    ensures r.selected.Some? <==> id in {"technique", "body_refinement", "cultivation"}
  {
    Modal(CdInput, Find(id), m.cd)
  }

  /** The difficulty field: `parseInt(value, 10) || 0`. */
  function SetCd(m: Modal, text: string): (r: Modal)
    ensures r.step == m.step && r.selected == m.selected
  {
    m.(cd := ParseIntOrZero(text))
  }

  /** The outcome of a roll: the state after it, whether it succeeded, and the
      update passed to `onTrain`, if any. */
  datatype Rolled = Rolled(modal: Modal, success: bool, update: Option<Update>)

  /** `handleRoll()` with the random number `u` of the d20. A roll is only
      offered once a training is selected. */
  function HandleRoll(m: Modal, attributes: map<string, int>, p: Progress, u: real): (r: Rolled)
    requires m.selected.Some?
    ensures r.modal == Closed
    ensures r.success <==> Succeeds(attributes, m.selected.value, RollDie(u, 20), m.cd)
    ensures r.update.Some? <==> r.success && m.selected.value != Technique
    ensures r.update.Some? ==> Some(r.update.value) == Advancement(m.selected.value, p)
  {
    var kind := m.selected.value;
    var success := Succeeds(attributes, kind, RollDie(u, 20), m.cd);
    Rolled(Closed, success, if success then Advancement(kind, p) else None)
  }

  // ---------------------------------------------------------------------------
  // Properties
  // ---------------------------------------------------------------------------

  /** A difficulty typed as a number is the difficulty used. */
  lemma CdRoundTrip(m: Modal, cd: int)
    ensures SetCd(m, IntToString(cd)).cd == cd
  {
    ParseIntRoundTrip(cd);
  }

  /** A lower difficulty never turns a success into a failure. */
  lemma SuccessMonotone(attributes: map<string, int>, kind: Kind, roll: int, cd: int, lower: int)
    requires lower <= cd && Succeeds(attributes, kind, roll, cd)
    ensures Succeeds(attributes, kind, roll, lower)
  {
  }

  /** Whatever the die shows, a difficulty of at most 1 + attribute is met and
      one above 20 + attribute is not. */
  lemma SuccessBounds(attributes: map<string, int>, kind: Kind, u: real, cd: int)
    requires 0.0 <= u < 1.0 && kind.Attribute() in attributes
    ensures cd <= 1 + attributes[kind.Attribute()] ==> Succeeds(attributes, kind, RollDie(u, 20), cd)
    ensures cd > 20 + attributes[kind.Attribute()] ==> !Succeeds(attributes, kind, RollDie(u, 20), cd)
  {
    DieInRange(u, 20);
  }

  /** `a` comes strictly after `b` in (stage, mastery) order. */
  predicate LexGreater(a: Progress, b: Progress) {
    Stage(a) > Stage(b) || (Stage(a) == Stage(b) && Mastery(a) > Mastery(b))
  }

  /** Every cultivation success moves (stage, mastery) strictly forward: one
      more mastery level below three, otherwise the next stage at mastery 1.
      Body refinement is left alone. */
  lemma CultivationAdvances(p: Progress)
    ensures var q := Apply(p, Advancement(Cultivation, p).value);
      && LexGreater(q, p)
      && (Mastery(p) < 3 ==> Stage(q) == Stage(p) && Mastery(q) == Mastery(p) + 1)
      && (Mastery(p) >= 3 ==> Stage(q) == Stage(p) + 1 && Mastery(q) == 1)
      && (0 <= Mastery(p) <= 3 ==> 1 <= Mastery(q) <= 3)
      && q.bodyRefinementLevel == p.bodyRefinementLevel
  {
  }

  /** Every body refinement success raises the level by one and touches nothing else. */
  lemma RefinementAdvances(p: Progress)
    ensures var q := Apply(p, Advancement(BodyRefinement, p).value);
      && Level(q) == Level(p) + 1
      && q.cultivationStage == p.cultivationStage
      && q.masteryLevel == p.masteryLevel
  {
  }

  /** A failed roll, or a technique training, changes no progression. */
  lemma NoProgressWithout(m: Modal, attributes: map<string, int>, p: Progress, u: real)
    requires m.selected.Some?
    requires m.selected.value == Technique || !Succeeds(attributes, m.selected.value, RollDie(u, 20), m.cd)
    ensures HandleRoll(m, attributes, p, u).update.None?
  {
  }
}

=== FILE: weapons.dfy ===
/**
  The weapon tables (src/data/weapons.js), checked against the dice parser,
  the category rule and the damage rolls that read them.
 */
module Weapons {
  import opened JsText
  import opened Dice
  import CombatRules
  import DamageSystem

  /** A weapon category: its key in `WEAPON_CATEGORIES` and its display name. */
  datatype WeaponCategory = WeaponCategory(key: string, name: string)

  /** An entry of `WEAPONS_LIST`. */
  datatype WeaponEntry = WeaponEntry(id: string, name: string, category: string, damage: string, cost: string,
                                     allowedAttributes: seq<string>)

  /** `WEAPON_CATEGORIES`, in declaration order. */
  const Categories: seq<WeaponCategory> := [
    WeaponCategory("leve", "Leve"),
    WeaponCategory("media", "Média"),
    WeaponCategory("pesada", "Pesada"),
    WeaponCategory("alcance", "Alcance"),
    WeaponCategory("exotica", "Exótica")
  ]

  /** `WEAPONS_LIST` */
  const List: seq<WeaponEntry> := [
    WeaponEntry("jian", "Jian (Espada Reta)", "leve", "1d6", "8 TP", ["agility"]),
    WeaponEntry("dao_curto", "Dao Curto", "leve", "1d6", "5 TP", ["agility"]),
    WeaponEntry("fio_aco", "Fio de Aço", "leve", "1d4", "1 TP", ["agility", "comprehension"]),
    WeaponEntry("punhais_duplos", "Punhais Duplos", "leve", "1d4", "6 TP", ["agility"]),
    WeaponEntry("ganchos_tigre", "Ganchos de Tigre", "leve", "1d6", "12 TP", ["agility"]),
    WeaponEntry("dao", "Dao (Sabre Chinês)", "media", "1d8", "15 TP", ["vigor", "agility"]),
    WeaponEntry("bastao_curto", "Bastão Curto", "media", "1d6", "12 TC", ["vigor", "agility"]),
    WeaponEntry("tonfa", "Tonfa", "media", "1d6", "1 TP", ["vigor", "agility"]),
    WeaponEntry("guandao", "Guandao", "pesada", "1d12", "2 TO", ["vigor"]),
    WeaponEntry("qiang_pesada", "Qiang Pesada", "pesada", "1d10", "45 TP", ["vigor"]),
    WeaponEntry("martelo_guerra", "Martelo de Guerra Oriental", "pesada", "2d6", "1 TO", ["vigor"]),
    WeaponEntry("mangual", "Mangual Oriental", "pesada", "1d10", "60 TP", ["vigor"]),
    WeaponEntry("qiang", "Qiang (Lança Clássica)", "alcance", "1d8", "8 TP", ["vigor", "agility"]),
    WeaponEntry("bastao_longo", "Bastão Longo", "alcance", "1d8", "4 TP", ["vigor", "agility"]),
    WeaponEntry("cajado_cerimonial", "Cajado Cerimonial", "alcance", "1d6", "6 TP", ["discipline", "vigor"]),
    WeaponEntry("leque_ferro", "Leque de Ferro", "exotica", "1d4", "10 TP", ["agility", "presence"]),
    WeaponEntry("corrente_secoes", "Corrente de Seções Múltiplas", "exotica", "1d8", "1 TO", ["agility"]),
    WeaponEntry("kusarigama", "Kusarigama", "exotica", "1d8", "80 TP", ["agility"])
  ]

  /** The five ability keys of a character sheet. */
  const AbilityKeys: set<string> := {"agility", "vigor", "discipline", "comprehension", "presence"}

  predicate IsCategoryKey(key: string) {
    exists k :: 0 <= k < |Categories| && Categories[k].key == key
  }

  /** A table entry as the damage rules read it: it has no `attribute` field. */
  function AsWeapon(w: WeaponEntry): CombatRules.Weapon {
    CombatRules.Weapon(Some(w.damage), Some(w.category), None)
  }

  // ---------------------------------------------------------------------------
  // Consistency of the tables
  // ---------------------------------------------------------------------------

  /** Weapon ids are pairwise distinct. */
  lemma IdsUnique()
    ensures forall i, j :: 0 <= i < j < |List| ==> List[i].id != List[j].id
  {
    forall i, j | 0 <= i < j < |List| ensures List[i].id != List[j].id {
      IdsDiffer(i, j);
    }
  }

  lemma IdsDiffer(i: nat, j: nat)
    requires i < j < |List|
    ensures List[i].id != List[j].id
  {
  }

  /** Every weapon names a declared category. */
  lemma CategoriesDeclared()
    ensures forall k :: 0 <= k < |List| ==> IsCategoryKey(List[k].category)
  {
    assert Categories[0].key == "leve" && Categories[1].key == "media" && Categories[2].key == "pesada";
    assert Categories[3].key == "alcance" && Categories[4].key == "exotica";
  }

  /** Every weapon may use at least one attribute, and only ability keys. */
  lemma AllowedAttributesWellFormed()
    ensures forall k :: 0 <= k < |List| ==> |List[k].allowedAttributes| > 0
    ensures forall k, a :: 0 <= k < |List| && a in List[k].allowedAttributes ==> a in AbilityKeys
  {
  }

  /** The damage strings the table uses. */
  predicate IsTableDamage(d: string) {
    d == "1d4" || d == "1d6" || d == "1d8" || d == "1d10" || d == "1d12" || d == "2d6"
  }

  /** Every damage string is a valid formula with no modifier. */
  lemma DamagesParse()
    ensures forall k :: 0 <= k < |List| ==>
      var c := ParseDiceString(Some(List[k].damage));
      c.isValid && c.modifier == 0 && c.count >= 1 && c.faces >= 4
  {
    forall k | 0 <= k < |List|
      ensures var c := ParseDiceString(Some(List[k].damage));
        c.isValid && c.modifier == 0 && c.count >= 1 && c.faces >= 4
    {
      assert IsTableDamage(List[k].damage);
      TableDamageParses(List[k].damage);
    }
  }

  lemma TableDamageParses(d: string)
    requires IsTableDamage(d)
    ensures var c := ParseDiceString(Some(d));
      c.isValid && c.modifier == 0 && c.count >= 1 && c.faces >= 4
  {
    if d == "1d4" {
      DamageParses(1, 4, d);
    } else if d == "1d6" {
      DamageParses(1, 6, d);
    } else if d == "1d8" {
      DamageParses(1, 8, d);
    } else if d == "1d10" {
      assert NatToString(10) == "10";
      DamageParses(1, 10, d);
    } else if d == "1d12" {
      assert NatToString(12) == "12";
      DamageParses(1, 12, d);
    } else {
      DamageParses(2, 6, d);
    }
  }

  lemma DamageParses(count: nat, faces: nat, d: string)
    requires d == NatToString(count) + "d" + NatToString(faces)
    ensures ParseDiceString(Some(d)) == DiceConfig(count, faces, 0, true)
  {
    assert d == Format(count, faces, 0);
    FormatRoundTrip(count, faces, 0);
  }

  /** The category rule classes the five keys: "pesada" is heavy, "leve" light, the rest normal. */
  lemma CategoryKeysNormalize()
    ensures CombatRules.NormalizeCategory(Some("pesada")) == CombatRules.Pesada
    ensures CombatRules.NormalizeCategory(Some("leve")) == CombatRules.Leve
    ensures CombatRules.NormalizeCategory(Some("media")) == CombatRules.Normal
    ensures CombatRules.NormalizeCategory(Some("alcance")) == CombatRules.Normal
    ensures CombatRules.NormalizeCategory(Some("exotica")) == CombatRules.Normal
  {
    CombatRules.NormalizeIdempotent(CombatRules.Pesada);
    CombatRules.NormalizeIdempotent(CombatRules.Leve);
    CombatRules.NormalizeWordExamples();
  }

  predicate IsKeyWord(c: string) {
    c == "leve" || c == "media" || c == "pesada" || c == "alcance" || c == "exotica"
  }

  /** Exactly the weapons of category "pesada" triple their dice on a critical,
      under both damage rules. */
  lemma ExactlyPesadaTriples(k: nat, attributes: Option<map<string, int>>, rng: Rng)
    requires k < |List|
    ensures var w := AsWeapon(List[k]);
      && (CombatRules.CalculateAttackDamage(Some(CombatRules.Attacker(attributes, None)), w, true, rng).multiplier == 3
          <==> List[k].category == "pesada")
      && (DamageSystem.CalculateDamage(Some(DamageSystem.Sheet(attributes, Some(w))), true, None, None, rng).value.multiplier == 3
          <==> List[k].category == "pesada")
  {
    assert IsKeyWord(List[k].category);
    KeyTriples(List[k].category);
  }

  /** On the five keys the two category rules agree: only "pesada" is heavy. */
  lemma KeyTriples(c: string)
    requires IsKeyWord(c)
    ensures CombatRules.NormalizeCategory(Some(c)) == CombatRules.Pesada <==> c == "pesada"
    ensures ToLower(OrString(Some(c), "")) == "pesada" <==> c == "pesada"
  {
    KeyIsPlain(c);
    CombatRules.ToLowerOfLower(c);
    CombatRules.PlainWord(c);
    if c == "pesada" {
      CombatRules.ContainsFromWitness(c, "pesada", 0);
    } else {
      KeyLacksHeavyLetters(c);
      CombatRules.LacksHeavyWords(c);
    }
  }

  lemma KeyIsPlain(c: string)
    requires IsKeyWord(c)
    ensures c != [] && !IsSpace(c[0]) && !IsSpace(c[|c| - 1])
    ensures forall j :: 0 <= j < |c| ==> !IsUpper(c[j])
  {
  }

  lemma KeyLacksHeavyLetters(c: string)
    requires IsKeyWord(c) && c != "pesada"
    ensures 'p' !in c && 'h' !in c
  {
  }

  /** For every weapon of the table, the sheet's damage roll and the general
      rule roll the same dice to the same total. */
  lemma TableRulesAgree(k: nat, attributes: Option<map<string, int>>, isCrit: bool, rng: Rng)
    requires k < |List|
    ensures var w := AsWeapon(List[k]);
      var d := DamageSystem.CalculateDamage(Some(DamageSystem.Sheet(attributes, Some(w))), isCrit, None, None, rng).value;
      var a := CombatRules.CalculateAttackDamage(Some(CombatRules.Attacker(attributes, None)), w, isCrit, rng);
      d.rolls == a.rolls && d.total == a.total && d.multiplier == a.multiplier
  {
    assert IsKeyWord(List[k].category);
    KeyRulesAgree(List[k].damage, List[k].category, attributes, isCrit, rng);
  }

  lemma KeyRulesAgree(damage: string, c: string, attributes: Option<map<string, int>>, isCrit: bool, rng: Rng)
    requires IsKeyWord(c)
    ensures var w := CombatRules.Weapon(Some(damage), Some(c), None);
      var d := DamageSystem.CalculateDamage(Some(DamageSystem.Sheet(attributes, Some(w))), isCrit, None, None, rng).value;
      var a := CombatRules.CalculateAttackDamage(Some(CombatRules.Attacker(attributes, None)), w, isCrit, rng);
      d.rolls == a.rolls && d.total == a.total && d.multiplier == a.multiplier
  {
    var w := CombatRules.Weapon(Some(damage), Some(c), None);
    KeyTriples(c);
    AgilityKey();
    DamageSystem.AgreesWithCombatRules(attributes, w, isCrit, rng);
  }

  lemma AgilityKey()
    ensures var key := ToLower(OrString(None, "agility"));
      CombatRules.ResolveAttributeKey(key) == key
  {
    CombatRules.ToLowerOfLower("agility");
  }
}
